=== FILE: README.md ===
# A verified model of a retained-mode Lua UI engine's core

The engine keeps a tree of UI nodes built from a Lua description table. This
project models its core in Dafny: the tree, its layout, reconciliation, hit
testing and a few small state machines.

The core has these parts:

- **Layout solver.** A post-order `measure` pass computes intrinsic sizes.
  Outer sizes are summed along the main axis and maxed across it, spacing
  goes between children, and padding and the min/max clamp are applied. A
  pre-order `compute` pass places children inside the padded inner box. It
  distributes flex growth, applies `justifyContent` along the main axis and
  `alignItems` across it.
- **Reconciler.** `patchNode` copies style fields from a new description
  and raises a layout or paint flag when something changed. It also rebinds
  the click handler. `reconcileChildren` pairs each new child entry with an
  old node, first by key and then by index (unkeyed old nodes only). It
  builds fresh nodes for entries left unpaired and frees the old nodes
  nobody took.
- **The older engine revision** (`ui.cpp`). It has string-to-enum parsing,
  `getLength`, `buildNode` style defaults, percent resolution
  (`resolveStyles`), a measure that never clamps, a cursor-based layout,
  `freeTree`, and an all-or-nothing `reconcile`.
- **The earliest revision** (`src/main.cpp`). Its nodes have a uniform
  margin and padding. It has its own `buildNode`, `measure` and `layout`.
- **Input.** `hitTest` searches the tree from the last child to the first
  using half-open boxes. `handleEvent` then walks towards the root and calls
  the first live click handler it meets.
- **Small state machines:**
  - the key/value state store with its dirty flag;
  - the font registry, which loads each (path, size) only once;
  - the glyph-atlas shelf packer and glyph lookup with fallbacks;
  - the render command list.

Nodes are immutable datatypes. Each node carries an explicit identity
(`id`), so "this node was reused", "this subtree was freed" and "no node is
reused twice" can be stated over sequences and sets. Building nodes
threads a `World` value through the calls: the next fresh id and the Lua
callback registry. Reconciling returns an `Outcome`: the new node, that
world, the set of freed ids, and whether a layout flag was raised. The
flag propagates to every ancestor.

Modules, one per file:

| module | file |
|---|---|
| `Base` | `base.dfy` |
| `UiTypes` | `ui_types.dfy` |
| `Lua` | `lua.dfy` |
| `Callbacks` | `callbacks.dfy` |
| `Builder` | `builder.dfy` |
| `Patch` | `patch.dfy` |
| `Matching` | `matching.dfy` |
| `Reconciler` | `reconciler.dfy` |
| `Identities` | `identities.dfy` |
| `Stability` | `stability.dfy` |
| `Layout` | `layout.dfy` |
| `LegacyUi` | `legacy.dfy` |
| `EarlyEngine` | `early.dfy` |
| `Input` | `input.dfy` |
| `State` | `state.dfy` |
| `Fonts` | `fonts.dfy` |
| `Commands` | `commands.dfy` |

Assumptions about code that is not part of this model:

- **`makeLayoutDirty`** marks the node and all its ancestors. The frame loop
  checks only the root's flag, so this is the reading that makes that check
  work.
- **`makePaintDirty`** marks only the node.
- **`Length`'s constructors.** A default-constructed `Length` and
  `Length(0)` are both zero pixels.
- **`Length::resolve`** gives pixels as written. A percentage is
  `value * parent / 100`, truncated toward zero.
- **`parseHexColor`** is an uninterpreted function, passed in as `hex`.
- **The keyed `buildNode`** used by the reconciler is taken to be the
  `ui.cpp` `buildNode` plus reading `key` as a string.
- **`Node` fields.** The fields the reconciler uses but `ui.h` does not
  declare (`key`, the requested lengths, `onClickRef`, `layoutDirty`,
  `paintDirty`) are added. The key defaults to the empty string, the
  lengths to zero pixels, the click reference to the registry sentinel -2,
  and both dirty flags to false.

## Model

| member | source | states |
|---|---|---|
| `Base.CDiv` | engine/components/layout/layout.cpp:94-108 | C++ integer division: the quotient truncates toward zero, so the remainder has the dividend's sign and is smaller than the divisor; for non-negative operands it agrees with floor division |
| `Base.Clamp` | engine/components/layout/layout.cpp:45-46 | `max(lo, min(v, hi))` is at least `lo`; it is at most `hi` when the interval is non-empty; it leaves a value inside the interval alone |
| `UiTypes.KindRoundTrip` | engine/components/ui/ui.cpp:88-91 | the node's `type` tag loses nothing: the stack kinds and every other tag give back the original string |
| `UiTypes.DefaultNodeFacts` | engine/components/ui/ui.h:29-51 | a fresh node has zero position, size, spacing, padding and margin, clamps [0, 99999] on both axes, no flex weight, start alignment and justification, no background and transparent black |
| `Lua.Get` | engine/components/vdom/vdom.cpp:25-34 | a missing field of a Lua table reads as nil; a present one reads as stored |
| `Lua.GetInt` | engine/components/vdom/vdom.cpp:25-34 | `getIntProp` yields the field when it is a number, otherwise the caller's default |
| `Lua.GetString` | engine/components/vdom/vdom.cpp:48-57 | `getStringProp` yields the field when it is a string, otherwise the caller's default |
| `Lua.ParseAlignComplete` | engine/components/ui/ui.cpp:29-34 | `parseAlign` is total: each of the four alignments parses back from its name, and any unrecognised string gives `Start` |
| `Lua.ParseJustifyComplete` | engine/components/ui/ui.cpp:36-43 | `parseJustify` is total: each of the six policies parses back from its name, and any unrecognised string gives `Start` |
| `Lua.DigitRun` | engine/components/ui/ui.cpp:57 | the numeric prefix that the percent parse reads is the longest run of leading digits |
| `Lua.DigitsValueShowNat` | engine/components/ui/ui.cpp:57 | reading the digits of a printed natural gives back that natural |
| `Lua.ParseUnsigned` | engine/components/ui/ui.cpp:57 | a run of digits followed by a non-digit parses to the value of the digits, and the rest is ignored |
| `Lua.ParseSigned` | engine/components/ui/ui.cpp:57 | a minus sign before a digit run parses to the negated value |
| `Lua.ParseShowInt` | engine/components/ui/ui.cpp:57 | every integer, printed and followed by anything that is not a digit, parses back to itself |
| `Lua.GetLengthRoundTrip` | engine/components/ui/ui.cpp:45-69 | a length written into a style table (a number for pixels, `"<n>%"` for a percentage) reads back unchanged; a value that is neither a number nor a string, or a string not ending in `%`, reads as zero pixels |
| `Callbacks.Ref` | engine/components/vdom/vdom.cpp:65 | `luaL_ref` hands out a reference that nobody holds and is not the sentinel, bound to the function |
| `Callbacks.Unref` | engine/components/vdom/vdom.cpp:62-64 | `luaL_unref` makes the reference dead and touches no other |
| `Callbacks.UpdateCallbackSpec` | engine/components/vdom/vdom.cpp:59-69 | with a function in the description, the old reference is released and exactly one fresh one holds the new function; without one, the reference and the registry are unchanged |
| `Callbacks.RegisterClickOnce` | engine/components/ui/ui.cpp:177-184 | when built, a node gets a fresh reference holding its `onClick` function, or the sentinel and an unchanged registry when there is none |
| `Builder.StyleOfDefaults` | engine/components/ui/ui.cpp:132-155 | `gap` wins over `spacing`, and spacing defaults to 0; every padding and margin edge defaults to its shorthand, and the shorthand to 0; min defaults to 0 and max to 99999; flexGrow defaults to 0 |
| `Builder.EmptyStyleIsDefault` | engine/components/ui/ui.cpp:127-155 | an empty style table yields exactly the style of a default-constructed node |
| `Builder.Channel8` | engine/components/ui/ui.cpp:166-169 | a table colour channel stored into a byte is in [0, 255] and keeps any value already in range |
| `Builder.Background` | engine/components/ui/ui.cpp:157-173 | a node has a background exactly when its style holds a string or table `BGColor`; otherwise its colour is transparent black |
| `Builder.TableColorFills` | engine/components/ui/ui.cpp:157-173 | each of the four channels of a table `BGColor` comes from its slot: a missing or nil slot gives 255, a number is kept modulo 256; a table shorter than four slots is opaque |
| `Builder.Build` | engine/components/ui/ui.cpp:83-198 | `buildNode` takes the next fresh id and moves the counter past the whole subtree; the node has one child per description child |
| `Builder.BuildFields` | engine/components/ui/ui.cpp:83-198 | a built node has zero geometry, is not dirty, and has the style, key, kind and background its description gives |
| `Builder.BuildIds` | engine/components/ui/ui.cpp:185-194 | every id in a built subtree is fresh (between the counter before and after) and no id occurs twice |
| `Builder.BuildAllIds` | engine/components/ui/ui.cpp:185-194 | children built in turn have fresh ids, unique within each child, and no id is shared between siblings |
| `Patch.Update` | engine/components/vdom/vdom.cpp:17-23 | `update` stores the new value and raises the flag exactly when the old value differed; an equal value leaves field and flag as they were |
| `Patch.PatchEdgesSpec` | engine/components/vdom/vdom.cpp:101-111 | patching a box-model property yields the shorthand-defaulted edges of the description, and the flag is raised exactly when they differ from the old ones |
| `Patch.PatchStyleSpec` | engine/components/vdom/vdom.cpp:82-111 | after patching, the layout style is the one a fresh build would give, and the layout flag is raised exactly when the old style differed from it |
| `Patch.PatchBackground` | engine/components/vdom/vdom.cpp:113-129 | a string `BGColor` sets the parsed colour and the background, and marks paint exactly when either changed; nil removes the background and marks paint exactly when there was one; any other value changes nothing |
| `Patch.PatchNode` | engine/components/vdom/vdom.cpp:71-139 | without a style table nothing changes, including the handler; otherwise the style becomes the description's, the layout flag is raised exactly when the style differed, identity, geometry and children are untouched, and flags are only ever raised |
| `Patch.PatchPaintOnlyWithoutLayout` | engine/components/vdom/vdom.cpp:131-135 | a newly raised paint flag means no layout field changed and the colour or background did; a layout change leaves the paint flag alone |
| `Patch.PatchSettles` | engine/components/vdom/vdom.cpp:82-129 | after a patch the node agrees with its description; a node already in agreement changes at most its handler reference and raises no layout change |
| `Patch.PatchTwiceQuiet` | engine/components/vdom/vdom.cpp:82-135 | patching twice with the same description: the second pass raises neither flag and changes neither style nor colour |
| `Matching.FirstKeyed` | engine/components/vdom/vdom.cpp:158-167 | the key search returns the first unreused old child with the key at or after its start, or nothing when there is none |
| `Matching.Pick` | engine/components/vdom/vdom.cpp:152-175 | an entry is paired only with an unreused old child that has its own non-empty key, or with the unkeyed old child at its own index |
| `Matching.PickRules` | engine/components/vdom/vdom.cpp:152-175 | a keyed entry with an unreused old child of that key takes the first one; otherwise it is paired exactly when the same-index old child is unreused and unkeyed |
| `Matching.MatchFrom` | engine/components/vdom/vdom.cpp:144-175 | from entry `i` on, each pairing is with an old child not reused before `i`, has a matching key or the same index, and no old child is taken twice |
| `Matching.Match` | engine/components/vdom/vdom.cpp:144-175 | one pairing per new entry, each with a valid old index; a keyed pairing shares the key, an index pairing is with an unkeyed old child; no old child is reused twice |
| `Matching.MatchIsGreedy` | engine/components/vdom/vdom.cpp:144-175 | entry `k` is paired by the single-entry rule against the old children taken by entries before it, in entry order |
| `Matching.MarkAllSpec` | engine/components/vdom/vdom.cpp:161-173 | an old child is marked reused exactly when it was already, or some pairing in the list names it |
| `Matching.KeyedSwap` | engine/components/vdom/vdom.cpp:158-167 | keyed children `[A, B]` described as `[B, A]` reuse both old nodes, swapped |
| `Matching.UnkeyedByIndex` | engine/components/vdom/vdom.cpp:169-175 | with no keys anywhere, entry `k` reuses the old child at `k` when there is one and is built fresh otherwise |
| `Matching.MatchIdentity` | engine/components/vdom/vdom.cpp:152-175 | old keys equal to the new ones, distinct where non-empty, pair every entry with the old child at its own index |
| `Matching.DuplicateKeysRebuild` | engine/components/vdom/vdom.cpp:158-181 | with a repeated key an entry can miss: entries `["X", "X"]` over old keys `["", "X"]` pair the first with old child 1 and rebuild the second |
| `Reconciler.Reconcile` | engine/components/vdom/vdom.cpp:141-216 | the node keeps its identity, key and kind; it ends with one child per entry (or as many children as before when there is no child table); its layout flag is set exactly when it was or something below it was raised; the id counter only grows |
| `Reconciler.ReconcileWithoutChildTable` | engine/components/vdom/vdom.cpp:206-216 | without a `children` table the node keeps its old children themselves, frees nothing, and raises only what the patch raised |
| `Reconciler.EntryOutcome` | engine/components/vdom/vdom.cpp:177-191 | a paired entry continues the old node's identity and key; an unpaired one is a freshly built node, marked layout-dirty, with the next id |
| `Reconciler.EntryBase` | engine/components/vdom/vdom.cpp:177-181 | the node an entry starts from is the paired old child with the world untouched, or a fresh layout-dirty build that carries the entry's key |
| `Reconciler.ReconcileUnfold` | engine/components/vdom/vdom.cpp:141-204 | the node's children are the entries' outcomes in entry order; freed ids are those the entries freed plus every unused old subtree; a layout change is raised exactly when the patch, an entry, or a leftover old child raised one |
| `Reconciler.EntriesRaised` | engine/components/vdom/vdom.cpp:177-191 | the child list raises the layout flag exactly when some entry was built fresh or raised it itself |
| `Reconciler.EntriesFreed` | engine/components/vdom/vdom.cpp:183-189 | the ids freed under the child list are exactly those freed while reconciling some entry |
| `Reconciler.ReconcileKeepsPaired` | engine/components/vdom/vdom.cpp:183-191 | every paired entry's resulting child is the old node it was paired with (same identity), at the entry's position |
| `Reconciler.ReconcileBuildsUnpaired` | engine/components/vdom/vdom.cpp:177-181 | an unpaired entry's child has a fresh id and is layout-dirty, and so are the parent and every ancestor |
| `Reconciler.ReconcileFreesUnused` | engine/components/vdom/vdom.cpp:195-200 | an old child nobody was paired with is freed with its whole subtree, and the parent is marked layout-dirty |
| `Reconciler.ReconcileRoot` | engine/components/vdom/vdom.cpp:206-216 | a null root stays null and nothing happens; otherwise the root keeps its identity |
| `Reconciler.Pairing` | engine/components/vdom/vdom.cpp:144-175 | the pairing has one slot per entry, each naming an existing old child or none |
| `Identities.MatchInjective` | engine/components/vdom/vdom.cpp:152-175 | no old child is paired with two entries |
| `Identities.ReconcileIds` | engine/components/vdom/vdom.cpp:141-216 | every id in the result and every freed id was in the old tree or is freshly allocated; no freed id is still in the tree; ids in the result stay unique |
| `Identities.EntriesIds` | engine/components/vdom/vdom.cpp:141-202 | each new child holds only ids of its own paired old subtree or fresh ones; siblings share no id; nothing freed stays in a child; no child holds an id of an unused old subtree |
| `Identities.EntryIds` | engine/components/vdom/vdom.cpp:177-189 | one entry's node holds only ids from its own paired old subtree or fresh ones, unique, and disjoint from what it freed |
| `Stability.ReconcileSettles` | engine/components/vdom/vdom.cpp:71-216 | after one pass the whole tree agrees with the description: style and background as described, one child per entry, each child's key the entry's or empty |
| `Stability.SettledIsQuiet` | engine/components/vdom/vdom.cpp:141-216 | a tree that agrees with a description with distinct sibling keys, reconciled again, reuses every node, builds and frees nothing, and raises no layout flag |
| `Stability.ReconcileTwiceQuiet` | engine/components/vdom/vdom.cpp:82-216 | reconciling twice with the same description (distinct sibling keys): the second pass builds and frees nothing, raises no flag, and keeps the root's identity and layout flag |
| `Layout.MaxOuterIsMax` | engine/components/layout/layout.cpp:15-37 | the cross-axis accumulator is non-negative, bounds every child's outer size, and is reached by some child unless it is 0 |
| `Layout.MeasureContent` | engine/components/layout/layout.cpp:12-37 | the content loop gives a vstack the sum of outer heights plus spacing between children and the largest outer width, an hstack the mirror, and any other kind zero |
| `Layout.Resize` | engine/components/layout/layout.cpp:39-46 | a zero size takes the padded content size, a non-zero one is kept; both are clamped into [min, max], and an in-range size set by hand survives |
| `Layout.Measure` | engine/components/layout/layout.cpp:6-47 | measured sizes are at least the minimum, and at most the maximum when min <= max; an in-range non-zero size is kept; a zero size is the clamped padded content of the already measured children |
| `Layout.MeasureAll` | engine/components/layout/layout.cpp:8-10 | every child is measured, in order |
| `Layout.MeasureIsPostOrder` | engine/components/layout/layout.cpp:6-10 | each child of a measured node is that child measured on its own |
| `Layout.MeasureVStackHeight` | engine/components/layout/layout.cpp:15-46 | an unset vstack height is the clamped sum of measured outer heights plus spacing times (n - 1) plus vertical padding |
| `Layout.MeasureVStackWidth` | engine/components/layout/layout.cpp:15-46 | an unset vstack width is the clamped largest measured outer width plus horizontal padding |
| `Layout.MeasureLeafKind` | engine/components/layout/layout.cpp:39-46 | a non-stack node with unset sizes has content zero, so it measures as its clamped padding |
| `Layout.MeasureIdempotent` | engine/components/layout/layout.cpp:6-47 | measuring a second time changes nothing, for a tree whose sizes are non-negative and whose clamp intervals are non-empty and start at zero or above |
| `Layout.NegativeWidthNotIdempotent` | engine/components/layout/layout.cpp:39-46 | without non-negative sizes measuring is not idempotent: a width of -5 with padding 15 on each side measures to 0, and then to 30 |
| `Layout.Place` | engine/components/layout/layout.cpp:51-52 | a placed node has exactly the given origin and size and keeps its attributes |
| `Layout.PlaceChildren` | engine/components/layout/layout.cpp:112-135 | each placed child keeps its attributes, takes its grown or stretched size, and sits at its aligned cross position |
| `Layout.Compute` | engine/components/layout/layout.cpp:50-136 | the node's origin becomes exactly the given point, its size is kept, and it has the same children count |
| `Layout.FrameInnerBox` | engine/components/layout/layout.cpp:51-75 | the inner box is the node box minus padding, and the free space is the inner main size minus the children's outer sizes minus spacing times (n - 1) |
| `Layout.PlaceChildrenMainPos` | engine/components/layout/layout.cpp:112-134 | child `k` starts at the cursor plus the advance of the children before it plus its leading margin |
| `Layout.ComputeChildOrigins` | engine/components/layout/layout.cpp:50-136 | each child of a computed node sits at inner start + justify offset + advance of earlier children + leading margin on the main axis, and at its aligned position on the cross axis |
| `Layout.AdvanceNoFlex` | engine/components/layout/layout.cpp:130-134 | without growth the cursor advances by each child's outer size plus the gap |
| `Layout.AdvanceGrown` | engine/components/layout/layout.cpp:130-134 | with growth the cursor advances by each child's outer size, its growth and the gap |
| `Layout.BlockEndFormula` | engine/components/layout/layout.cpp:112-134 | the last child ends at inner start + offset + all outer sizes + total growth + gaps between children |
| `Layout.FlexFitsFreeSpace` | engine/components/layout/layout.cpp:77-88 | with non-negative weights, the total truncated growth is between 0 and the free space, so grown children still fit the inner box |
| `Layout.NegativeWeightOvershoots` | engine/components/layout/layout.cpp:60-88 | without non-negative weights the bound fails: weights 2 and -1 with 10 pixels free give a total weight of 1, a growth of 20, and children that run past the inner box |
| `Layout.SumGrowthBound` | engine/components/layout/layout.cpp:78-84 | the sum of truncated shares is at most the share of the summed weights |
| `Layout.UnweightedKeepSize` | engine/components/layout/layout.cpp:77-88 | a child with no flex weight keeps its main-axis size |
| `Layout.ComputeFlexSizes` | engine/components/layout/layout.cpp:77-88 | when growth applies, a weighted child grows along the main axis by exactly `flexGrow * free / total`, truncated |
| `Layout.FlexAndJustifyExclusive` | engine/components/layout/layout.cpp:77-110 | growth happens exactly when the total weight and the free space are positive; a non-zero total weight turns justification off (offset 0, gap = spacing); weights that cancel to a zero total keep justification |
| `Layout.JustifyStartAndCenter` | engine/components/layout/layout.cpp:90-94 | `start` begins at the inner start; `center` begins half the free space in, leaving equal space on both sides when it divides evenly; both keep the spacing as gap |
| `Layout.JustifyEndIsFlush` | engine/components/layout/layout.cpp:95 | `end` makes the last child end flush with the inner box |
| `Layout.SpaceBetweenFrame` | engine/components/layout/layout.cpp:96-98 | `space-between` with two or more children starts at offset 0 with gap (inner - sum of outer sizes) / (n - 1), truncated |
| `Layout.SpaceBetweenSpansInnerBox` | engine/components/layout/layout.cpp:96-98 | under `space-between` the first child starts at the inner start, and the last ends at the inner end when the free space divides evenly |
| `Layout.SpaceAroundHalfGap` | engine/components/layout/layout.cpp:99-103 | `space-around` uses gap (inner - sum of outer sizes) / n and starts half a gap in |
| `Layout.SpaceEvenlyStartsOneGapIn` | engine/components/layout/layout.cpp:104-109 | `space-evenly` uses gap (inner - sum of outer sizes) / (n + 1) and starts one gap in |
| `Layout.ComputeCrossAxis` | engine/components/layout/layout.cpp:115-127 | `stretch` sets the cross size to the inner size minus the cross margins; other alignments keep it; `start` and `stretch` sit at the inner edge plus margin; `center` sits half the leftover inner size in, truncated; `end` ends at the inner edge minus margin |
| `LegacyUi.ResolvePercentBounds` | engine/components/ui/ui.cpp:200-220 | a percentage in [0, 100] of a non-negative parent size lies within that size, and 100% is the whole size |
| `LegacyUi.ContentSize` | engine/components/ui/ui.cpp:211-216 | the size handed down to the children is the size minus the padding on both sides, and never negative |
| `LegacyUi.ResolveStyles` | engine/components/ui/ui.cpp:200-220 | resolving keeps the node's attributes, position and number of children |
| `LegacyUi.ResolveAll` | engine/components/ui/ui.cpp:217-219 | every child is resolved against the same content box |
| `LegacyUi.ResolveKeepsUnstyled` | engine/components/ui/ui.cpp:200-210 | a zero width or height style leaves the size alone; a non-zero one replaces it with the resolved length |
| `LegacyUi.ResolveChildrenBox` | engine/components/ui/ui.cpp:211-219 | each child is resolved against a non-negative box: the parent's resolved size minus its padding |
| `LegacyUi.ResolveIdempotent` | engine/components/ui/ui.cpp:200-220 | resolving a second time against the same parent size changes nothing |
| `LegacyUi.NestedPercent` | engine/components/ui/ui.cpp:200-220 | nested percentages compose: 200 wide, then 50%, then 50% gives 200, 100, 50 |
| `LegacyUi.LegacyMeasure` | engine/components/ui/ui.cpp:222-265 | only stacks are measured; a non-zero size is kept, and a non-stack node is returned unchanged with its subtree |
| `LegacyUi.LegacyMeasureAll` | engine/components/ui/ui.cpp:227-228 | every child of a stack is measured, in order |
| `LegacyUi.LegacyMeasureVStack` | engine/components/ui/ui.cpp:223-243 | an unset vstack height is the sum of measured outer heights with spacing only between children, plus padding; an unset width is the widest outer width plus padding; nothing is clamped |
| `LegacyUi.LegacyMeasureHStack` | engine/components/ui/ui.cpp:244-264 | the hstack mirror of the vstack rule |
| `LegacyUi.LegacyMeasureNoClamp` | engine/components/ui/ui.cpp:222-265 | unlike the newer measure, a child wider than the parent's maximum is not clamped: the older pass keeps the child's width, the newer clamps to the maximum |
| `LegacyUi.LegacyMeasureIdempotent` | engine/components/ui/ui.cpp:222-265 | measuring twice gives the same tree as measuring once |
| `LegacyUi.LegacyLayout` | engine/components/ui/ui.cpp:267-293 | the node moves to the given origin, keeps its size and attributes, and a non-stack node's children are left as they were |
| `LegacyUi.LegacyPlaceAt` | engine/components/ui/ui.cpp:271-291 | a child is placed at the slot given by the cursor after the outer sizes and spacings of the children before it |
| `LegacyUi.LegacyLayoutChildOrigin` | engine/components/ui/ui.cpp:267-293 | a vstack child sits at `(x + paddingLeft + marginLeft, y + paddingTop + earlier outer heights + k * spacing + marginTop)`; an hstack child is the mirror |
| `LegacyUi.FreeOrder` | engine/components/ui/ui.cpp:331-335 | `freeTree` deletes a node after its whole subtree, so the node itself is released last |
| `LegacyUi.FreeOrderCovers` | engine/components/ui/ui.cpp:331-335 | `freeTree` releases exactly the nodes of the subtree |
| `LegacyUi.LegacyReconcile` | engine/components/ui/ui.cpp:441-476 | the node keeps identity, key and kind; it has one child per entry; its layout flag is set exactly when it was or something was raised |
| `LegacyUi.LegacyEntries` | engine/components/ui/ui.cpp:467-473 | with equal counts, each old child is reconciled in place and keeps its identity |
| `LegacyUi.LegacyRebuild` | engine/components/ui/ui.cpp:450-466 | a different child count frees every old subtree, builds every child afresh with new ids, and marks the node layout-dirty |
| `LegacyUi.LegacyKeepsIndex` | engine/components/ui/ui.cpp:467-473 | an equal child count keeps every old child at its index with its identity |
| `LegacyUi.UnkeyedAgreesWithLegacy` | engine/components/ui/ui.cpp:441-476 | with no keys and equal counts, the keyed reconciler keeps the same node at every index as the older one |
| `Lua.OptInteger` | src/main.cpp:43-65 | `luaL_optinteger`: nil gives the default, a number gives itself, anything else is a Lua error |
| `EarlyEngine.EarlyColor` | src/main.cpp:67-75 | a table colour raises exactly when one of slots 1 to 3 holds something other than nil or a number; otherwise a nil or missing slot gives 255, a number is wrapped into a byte, and alpha is 255; a non-table colour leaves white |
| `EarlyEngine.EarlyColorExamples` | src/main.cpp:67-75 | a one-channel table gives that red with white elsewhere; the fourth slot is never read; out-of-range channels wrap (300 gives 44); a string in the second slot raises |
| `EarlyEngine.EarlyBuild` | src/main.cpp:31-90 | a slot that is not a table raises at once; a built node carries its type string, the numeric fields as read, the colour as read, origin (0, 0), and one child per description child |
| `EarlyEngine.EarlyBuildAll` | src/main.cpp:78-87 | children are built in order, each exactly as built on its own |
| `EarlyEngine.EarlyBuildOk` | src/main.cpp:31-90 | building fails exactly when some description in the tree is not a table, or some numeric field or colour slot anywhere in the tree is neither nil nor a number |
| `EarlyEngine.EarlyBuildAllOk` | src/main.cpp:78-87 | a child list builds exactly when every remaining child is well typed |
| `EarlyEngine.EarlyBuildDefaults` | src/main.cpp:31-90 | an empty description gives an untyped, zero-sized, childless node with uniform zero spacing, margin and padding, coloured white |
| `EarlyEngine.EarlyBuildErrors` | src/main.cpp:31-90 | `children = {5}` raises at the child's table check, and `color = {"x"}` raises at the colour even when the numbers are fine |
| `EarlyEngine.EarlyMeasure` | src/main.cpp:92-136 | measuring keeps kind, position, spacing, margin, padding, colour and child count, and leaves a non-stack node unchanged |
| `EarlyEngine.EarlyMeasureAll` | src/main.cpp:98-99 | children are measured first, in order |
| `EarlyEngine.StackLoopClosed` | src/main.cpp:98-106 | the accumulation loop gives the running total plus every remaining outer size and one spacing per child, and the maximum of the cross sizes |
| `EarlyEngine.StackTotals` | src/main.cpp:98-110 | with the trailing spacing taken back, the loop's total is the outer sizes plus spacing between children, and its maximum is the largest cross size |
| `EarlyEngine.EarlyMeasureStack` | src/main.cpp:94-135 | a vstack's height is the sum of measured child heights plus twice each margin, spacing between children and twice the padding; its width is the widest child plus twice margin and padding; an hstack is the mirror |
| `EarlyEngine.EMaxNonNegative` | src/main.cpp:96-105 | the cross-axis maximum starts at 0 and so is never negative |
| `EarlyEngine.EarlyMeasureIdempotent` | src/main.cpp:92-136 | measuring twice gives the same tree as measuring once |
| `EarlyEngine.EarlyMeasureOverwrites` | src/main.cpp:112-113 | a stack's size is overwritten even when it was set: an empty vstack sized 500 with padding 3 measures as 6 by 6 |
| `EarlyEngine.EarlyLayout` | src/main.cpp:138-164 | the node moves to the given origin and keeps everything else; a non-stack node's children are left as they were |
| `EarlyEngine.EarlyPlaceStep` | src/main.cpp:142-163 | each child takes the slot at the cursor, and the cursor moves by its outer size plus the spacing |
| `EarlyEngine.EarlyPlaceAt` | src/main.cpp:142-163 | child `k` takes the slot at the cursor moved past every earlier child's outer size and one spacing each |
| `EarlyEngine.EarlyLayoutChildOrigin` | src/main.cpp:138-164 | a vstack child sits at `(x + padding + margin, y + padding + earlier outer heights + k * spacing + margin)`; an hstack child is the mirror |
| `EarlyEngine.EarlyLayoutKeepsSizes` | src/main.cpp:138-164 | layout moves nodes but never resizes the node or its children |
| `Input.HitPath` | engine/components/input/input.cpp:6-25 | a chain exists exactly when the point is inside the node's half-open box, and it starts at the node |
| `Input.ChildHit` | engine/components/input/input.cpp:16-21 | scanning the children from last to first finds nothing exactly when no child contains the point; otherwise it finds the last child that does |
| `Input.HitTest` | engine/components/input/input.cpp:6-25 | a null root gives null; otherwise a node is found exactly when the root's half-open box contains the point |
| `Input.HitPathIsChain` | engine/components/input/input.cpp:6-25 | the chain starts at the root, every node on it contains the point, each step goes to the topmost child containing it, and the last node has no such child |
| `Input.HitTestSpec` | engine/components/input/input.cpp:6-25 | the node returned contains the point, is reached from the root through topmost children, and none of its children contains the point |
| `Input.LaterSiblingWins` | engine/components/input/input.cpp:16-24 | of two overlapping siblings the later one is hit; a point only in the parent returns the parent; the right edge is outside |
| `Input.Bubble` | engine/components/input/input.cpp:34-52 | walking up from the hit node, the first node with a live handler is called; no call happens exactly when no node on the way has one |
| `Input.HandleEvent` | engine/components/input/input.cpp:27-54 | only a mouse press dispatches, and only when the press is inside a non-null root |
| `Input.HandleEventSpec` | engine/components/input/input.cpp:27-54 | a press calls a handler exactly when some node on the hit chain has a live one, and then the deepest such; a hit node with its own handler shadows its ancestors; at most one handler runs |
| `Input.SentinelNeverCalled` | engine/components/input/input.cpp:35 | a node whose reference is the sentinel -2 is always passed over |
| `State.GetState` | engine/components/state/state.h:18-23 | a present key returns its value and changes nothing; a missing key is stored with the default and returns it; the dirty flag never changes |
| `State.SetState` | engine/components/state/state.h:25-28 | the key holds the new value, every other key is kept, and the store is dirty |
| `State.ClearDirty` | engine/components/state/state.h:34-36 | the values are kept and the store is no longer dirty |
| `State.InitialClean` | engine/components/state/state.h:30-40 | a fresh store is clean, and reading from it keeps it clean |
| `State.GetStateStable` | engine/components/state/state.h:18-23 | a second read of a key returns the same value whatever its default, and changes nothing |
| `State.SetThenGet` | engine/components/state/state.h:18-28 | a read after a write returns the written value and ignores the default |
| `State.SetOtherKey` | engine/components/state/state.h:25-28 | writing one key does not change what another key reads |
| `Commands.Push` | engine/components/renderer/commands.h:41-43 | `push` appends exactly one command at the end and leaves the earlier ones untouched |
| `Commands.Clear` | engine/components/renderer/commands.h:44-46 | `clear` leaves the list empty |
| `Commands.PushAllAppends` | engine/components/renderer/commands.h:38-43 | the list holds the commands in push order: pushing a sequence appends exactly that sequence (the lemmas `ClearThenPush` and `ClipScopeOrder` in the same module are illustrations of it: a push after `clear`, and a clip scope bracketing its drawing commands) |
| `Fonts.U32` | engine/components/text/font.cpp:26 | the size comparison casts to `unsigned int`: the result is the size modulo 2^32 and keeps sizes already in range |
| `Fonts.FindFont` | engine/components/text/font.cpp:25-29 | the scan returns an id holding exactly the requested (path, size), and finds nothing only when no id does |
| `Fonts.LoadFont` | engine/components/text/font.cpp:24-37 | the registry stays valid (ids from 1 below the counter, at most one id per (path, size)) and the returned id holds the requested font |
| `Fonts.LoadFontSpec` | engine/components/text/font.cpp:24-37 | a (path, size) already present returns its id and changes nothing; a new one takes the counter's id, moves the counter, and disturbs no other font |
| `Fonts.LoadFontTwice` | engine/components/text/font.cpp:25-29 | loading the same (path, size) twice yields one font: the same id, and the second load changes nothing |
| `Fonts.DistinctKeysDistinctIds` | engine/components/text/font.cpp:31-34 | different (path, size) pairs get different ids |
| `Fonts.NegativeSizeWraps` | engine/components/text/font.cpp:26 | a request for size -1 finds the font loaded at size 4294967295 |
| `Fonts.GetFontById` | engine/components/text/font.cpp:17-21 | an id that was never handed out, or was dropped, gives nothing; otherwise its font |
| `Fonts.ShutdownFonts` | engine/components/text/font.cpp:229-232 | shutdown empties the registry and restarts ids at 1 |
| `Fonts.ShutdownForgets` | engine/components/text/font.cpp:229-232 | after shutdown every old id reads as absent, and the next load gets id 1 |
| `Fonts.PackAtlas` | engine/components/text/font.cpp:94-136 | every code 32..127 that loaded is placed with its own metrics and no other code is; each glyph sits at the slot the shelf cursor gives it (a glyph reaching the 1024-pixel width starts a new shelf below the tallest glyph of the last one, a failed glyph moves nothing, the pen moves one pixel past each glyph); no two placed glyphs overlap; each starts at the left edge or ends inside the width |
| `Fonts.ShelfStep` | engine/components/text/font.cpp:105-135 | placing a glyph at its slot and advancing the cursor keeps every earlier glyph behind the cursor, keeps glyphs pairwise disjoint and inside the width |
| `Fonts.ShelfWraps` | engine/components/text/font.cpp:99-136 | two 600-pixel glyphs go on separate shelves, the second below the first; after a glyph that failed to load, the next continues the shelf one pixel past the last placed glyph |
| `Fonts.GetCharacter` | engine/components/text/font.cpp:142-157 | the lookup never fails: it returns a stored glyph whenever the code or `'?'` is stored, and a glyph that is not stored only when neither is, and then the all-zero one |
| `Fonts.GetCharacterAfterInsert` | engine/components/text/font.cpp:142-146 | after a glyph is stored under a code, looking that code up returns it, and every other stored code looks up as before |
| `Fonts.MissingCodeIsQuestion` | engine/components/text/font.cpp:142-157 | a code that is not stored looks up exactly as `'?'` does, so it gets the stored `'?'` glyph when there is one |
| `Fonts.GetCharacterFromAtlas` | engine/components/text/font.cpp:142-157 | in a packed atlas a loaded code gets its own bitmap, and any other code gets the bitmap of `'?'` when that loaded |

## Left out

- Floating point. `flexGrow`, the min/max sizes and percentages are `float` in the engine and integers here. A flex share is the truncated integer `flexGrow * free / total`, not a float product rounded on store.
- `getFloatProp` is read like `getIntProp`: a Lua number is an integer in this model.
- Lua's number/string coercion is not modelled, except where a number is read as a string: the early builder's `type` (`EarlyEngine.EarlyType`) and an entry's `key` (`Lua.EntryKey`) take a number's decimal text, as `lua_isstring` and `lua_tostring` do. Elsewhere `lua_isnumber`'s acceptance of numeric strings and `lua_isstring`'s acceptance of numbers are left out; a value is exactly one of nil, number, string, boolean, function or table.
- Lua.ParseLeadingInt: reads only an optional `+` or `-` sign followed by decimal digits. `std::stof` also accepts leading whitespace, fractions, exponents, hexadecimal forms, `inf` and `nan`, and fails on an out-of-range value.
- Lua stack plumbing (`lua_getfield`, `lua_pop`, `lua_rawgeti`, stack indices) is replaced by a description datatype and map lookups.
- Builder.Build, Builder.BuildAll and EarlyEngine.EarlyBuildAll: the child traversal with `lua_next` is taken to visit children in array order. `lua_next` also visits non-array keys, in an unspecified order. A non-table `children` value is read as no children.
- EarlyEngine.EarlyBuild: the `luaL_checktype` and `luaL_optinteger` errors raise a Lua error that unwinds. This is modelled as an `Err` result naming the failing field, not as a non-local exit.
- Builder.Build: the newer builder has no error outcome. On a child slot that is not a table the engine raises at `luaL_checktype` (engine/components/ui/ui.cpp:84); the model builds it as an empty description.
- Builder.TableColorFills: a `BGColor` slot that is neither nil nor a number makes `luaL_optinteger` raise (engine/components/ui/ui.cpp:165-168); the model reads it as 255. Only the early builder models these errors; the reconciler built on `Builder.Build` would otherwise need an error outcome of its own.
- Layout.MeasureIdempotent: requires non-negative sizes and clamp intervals that start at zero or above. A script may set a negative `width`, and then a second measure can differ from the first, as `Layout.NegativeWidthNotIdempotent` shows.
- Layout.FlexFitsFreeSpace: requires non-negative `flexGrow` weights. `getIntProp` accepts any sign, and a negative weight lets the growth overshoot the free space, as `Layout.NegativeWeightOvershoots` shows.
- Layout.Measure, Layout.Compute, LegacyUi.ResolveStyles, LegacyUi.LegacyMeasure, LegacyUi.LegacyLayout, Builder.Build, EarlyEngine.EarlyBuild, EarlyEngine.EarlyMeasure and EarlyEngine.EarlyLayout: sizes, positions and sums are unbounded integers, and `luaL_optinteger`'s `lua_Integer` is not narrowed to `int` on store. The engine stores them in 32-bit `int` (signed overflow is undefined behaviour), mixes in `size_t` child counts, truncates with `(int)lua_tointeger`, and computes `v * parent` for percentages in `int`; none of these overflows is modelled.
- Registry references are handed out from a counter. `luaL_ref`'s reuse of freed slots is not modelled; only freshness and the sentinel matter to the engine.
- Reconciler.Reconcile: `updateCallback` in the newer reconciler releases the old reference before taking a new one. The model reports the resulting registry, not the order of the two calls.
- Patch.PatchBackground: a table `BGColor` on patch changes nothing, as in the source; only building a node reads table colours.
- Reconciler.Reconcile: reading `key` with `lua_getfield` (engine/components/vdom/vdom.cpp:153) raises a Lua error on a `children` entry that is a number, boolean, function or nil, before any pairing or build. The model has no error outcome here: such an entry is a description with `isTable` false and an empty key, and it is paired by index or built like any other.
- Reconciler.ReconcileKeepsPaired: a node reused by index keeps its old key (the source never rewrites `key` on patch). The settled-tree lemmas therefore allow a child's key to be the entry's or empty.
- Stability.SettledIsQuiet: requires distinct non-empty sibling keys. With a repeated key a second pass can rebuild a node, as `Matching.DuplicateKeysRebuild` shows.
- `freeTree` does not release a node's click reference. The model keeps that reference live, as the source does.
- `parent` links are not stored. The chain from the root to the hit node stands in for walking `parent` upward.
- Fonts.LoadFont: scans ids in ascending order, where the source iterates an `unordered_map`. At most one id holds a given (path, size), so the result is the same.
- Fonts.LoadFont: the id counter is an unbounded integer; overflow of the `int` counter is not modelled.
- Fonts.PackAtlas: models glyph positions only. Texture upload, the atlas height (glyphs may run past it), and float texture coordinates are left out; a failed rasterisation is an input (`None`).
- Rendering, the OpenGL renderer, `renderNode`, `generateRenderCommands`, the Yoga layout wrapper, the frame loop, windowing, file paths and the CLI tools are outside this model.
- The state store's Lua bindings and their float/int classification are outside this model.
- `DefaultLayoutSolver::solve` is not part of this model; `Layout.Measure` and `Layout.Compute` stand for it.

=== FILE: base.dfy ===
/** Shared vocabulary: optional values and the C++ integer operations the
    engine relies on (truncating division, std::max/std::min clamping). */
module Base {

  datatype Option<+T> = None | Some(value: T)

  function Max(a: int, b: int): int
  {
    if a >= b then a else b
  }

  function Abs(a: int): int
  {
    if a < 0 then -a else a
  }

  /** C++ `/` on `int`: the quotient is truncated toward zero, so the
      remainder takes the sign of the dividend (Dafny's `/` is Euclidean). */
  function CDiv(a: int, b: int): (q: int)
    requires b != 0
    ensures 0 <= a ==> 0 <= a - q * b < Abs(b)
    ensures a < 0 ==> -Abs(b) < a - q * b <= 0
    ensures 0 <= a && 0 < b ==> q == a / b
  {
    if a >= 0 then
      (if b > 0 then a / b else -(a / -b))
    else
      (if b > 0 then -((-a) / b) else (-a) / (-b))
  }

  /** `std::max(lo, std::min(v, hi))`: the clamp used on every measured size. */
  function Clamp(v: int, lo: int, hi: int): (r: int)
    ensures r >= lo
    ensures lo <= hi ==> r <= hi
    ensures lo <= v <= hi ==> r == v
    ensures v < lo ==> r == lo
    ensures lo <= hi < v ==> r == hi
  {
    Max(lo, if v <= hi then v else hi)
  }
}

=== FILE: builder.dfy ===
/** Node construction from a description table (`buildNode`): style
    defaults, the box-model shorthand, the background colour, the click
    handler and the children, each built in array order.  Node identities
    come from a counter threaded through construction. */
module Builder {
  import opened Base
  import opened UiTypes
  import opened Lua
  import opened Callbacks

  /** Everything construction and reconciliation consume: the next fresh
      node identity and the Lua registry. */
  datatype World = World(nextId: nat, reg: Registry)

  predicate ValidWorld(w: World)
  {
    Valid(w.reg)
  }

  /** One box-model property: the shorthand defaults to 0 and every edge
      defaults to the shorthand. */
  function BoxModel(m: map<string, Value>, base: string, top: string, bottom: string, left: string, right: string): Edges
  {
    var v := GetInt(m, base, 0);
    Edges(v, GetInt(m, top, v), GetInt(m, bottom, v), GetInt(m, left, v), GetInt(m, right, v))
  }

  /** The layout-relevant properties a style table asks for, with the
      engine's defaults for every absent or mistyped field. */
  function StyleOf(m: map<string, Value>): Style
  {
    Style(
      GetLength(m, "w"), GetLength(m, "h"),
      GetInt(m, "minWidth", 0), GetInt(m, "maxWidth", MaxSizeDefault),
      GetInt(m, "minHeight", 0), GetInt(m, "maxHeight", MaxSizeDefault),
      GetInt(m, "flexGrow", 0),
      ParseAlign(GetString(m, "alignItems", "start")),
      ParseJustify(GetString(m, "justifyContent", "start")),
      GetInt(m, "gap", GetInt(m, "spacing", 0)),
      BoxModel(m, "padding", "paddingTop", "paddingBottom", "paddingLeft", "paddingRight"),
      BoxModel(m, "margin", "marginTop", "marginBottom", "marginLeft", "marginRight"))
  }

  /** `gap` wins over `spacing`; each edge falls back to its shorthand,
      which falls back to 0; sizes default to [0, 99999]. */
  lemma StyleOfDefaults(m: map<string, Value>)
    ensures Get(m, "gap").Num? ==> StyleOf(m).spacing == Get(m, "gap").n
    ensures !Get(m, "gap").Num? && Get(m, "spacing").Num? ==> StyleOf(m).spacing == Get(m, "spacing").n
    ensures !Get(m, "gap").Num? && !Get(m, "spacing").Num? ==> StyleOf(m).spacing == 0
    ensures !Get(m, "paddingTop").Num? ==> StyleOf(m).padding.top == StyleOf(m).padding.all
    ensures !Get(m, "marginLeft").Num? ==> StyleOf(m).margin.left == StyleOf(m).margin.all
    ensures !Get(m, "padding").Num? ==> StyleOf(m).padding.all == 0
    ensures !Get(m, "minWidth").Num? && !Get(m, "maxWidth").Num? ==> StyleOf(m).minWidth == 0 && StyleOf(m).maxWidth == 99999
    ensures !Get(m, "flexGrow").Num? ==> StyleOf(m).flexGrow == 0
  {
  }

  /** An empty style table yields exactly the default style of a fresh node. */
  lemma EmptyStyleIsDefault()
    ensures StyleOf(map[]) == DefaultStyle
  {
  }

  /** `luaL_optinteger(.., 255)` on array slot `i` (0-based here).  A slot
      that is neither nil nor a number makes the engine raise a Lua error;
      this builder has no error outcome and reads such a slot as 255. */
  function Channel(items: seq<Value>, i: nat): int
  {
    match OptInteger(RawGet(items, i), 255)
    case Some(v) => v
    case None => 255
  }

  /** A channel as stored in the 8-bit colour field: the integer wraps
      modulo 256. */
  function Channel8(items: seq<Value>, i: nat): (r: int)
    ensures 0 <= r < 256
    ensures 0 <= Channel(items, i) < 256 ==> r == Channel(items, i)
  {
    Channel(items, i) % 256
  }

  /** Colour and background flag from the `BGColor` field: a string is
      parsed by the hex parser, a table fills missing channels with 255,
      anything else leaves transparent black and no background. */
  function Background(style: Option<map<string, Value>>, hex: string -> Color): (r: (Color, bool))
    ensures r.1 <==> style.Some? && (Get(style.value, "BGColor").Str? || Get(style.value, "BGColor").Table?)
    ensures !r.1 ==> r.0 == Color(0, 0, 0, 0)
  {
    if style.None? then (Color(0, 0, 0, 0), false)
    else
      match Get(style.value, "BGColor")
      case Str(h) => (hex(h), true)
      case Table(items) => (Color(Channel8(items, 0), Channel8(items, 1), Channel8(items, 2), Channel8(items, 3)), true)
      case _ => (Color(0, 0, 0, 0), false)
  }

  /** What slot `i` of a colour table gives when `luaL_optinteger(.., 255)`
      accepts it: 255 for nil or a missing slot, else the number. */
  predicate SlotReads(items: seq<Value>, i: nat, v: int)
  {
    OptInteger(RawGet(items, i), 255) == Some(v)
  }

  /** A table colour takes each of the four channels from slots 1..4: a
      missing or nil slot reads 255, a number is kept modulo 256. */
  lemma TableColorFills(items: seq<Value>, hex: string -> Color, r: int, g: int, b: int, a: int)
    ensures var c := Background(Some(map["BGColor" := Table(items)]), hex).0;
      && (SlotReads(items, 0, r) ==> c.r == r % 256) && (SlotReads(items, 1, g) ==> c.g == g % 256)
      && (SlotReads(items, 2, b) ==> c.b == b % 256) && (SlotReads(items, 3, a) ==> c.a == a % 256)
      && (|items| < 4 ==> c.a == 255)
  {
  }

  function TypeName(d: Desc): string
  {
    match Field(d, "type")
    case Str(s) => s
    case _ => ""
  }

  /** Build a node and its subtree.  The node takes the next identity, then
      its children are built in order; the click handler is registered as
      the older constructor does. */
  function Build(d: Desc, w: World, hex: string -> Color): (r: (Node, World))
    requires ValidWorld(w)
    ensures ValidWorld(r.1) && r.1.nextId > w.nextId && r.1.reg.next >= w.reg.next
    ensures r.0.id == w.nextId
    ensures |r.0.children| == (if d.hasChildren then |d.children| else 0)
    decreases d, 1
  {
    var (ref, reg1) := RegisterClick(Field(d, "onClick"), w.reg);
    var bg := Background(d.style, hex);
    var st := if d.style.Some? then StyleOf(d.style.value) else DefaultStyle;
    var (cs, w') := if d.hasChildren then BuildAll(d, 0, World(w.nextId + 1, reg1), hex) else ([], World(w.nextId + 1, reg1));
    (Node(w.nextId, KindOf(TypeName(d)), EntryKey(d), 0, 0, 0, 0, st, bg.0, bg.1, ref, false, false, cs), w')
  }

  /** Build `parent.children[i..]`, in order. */
  function BuildAll(parent: Desc, i: nat, w: World, hex: string -> Color): (r: (seq<Node>, World))
    requires ValidWorld(w)
    requires i <= |parent.children|
    ensures ValidWorld(r.1) && r.1.nextId >= w.nextId && r.1.reg.next >= w.reg.next
    ensures |r.0| == |parent.children| - i
    decreases parent, 0, |parent.children| - i
  {
    if i == |parent.children| then ([], w)
    else
      var (c, w1) := Build(parent.children[i], w, hex);
      var (rest, w2) := BuildAll(parent, i + 1, w1, hex);
      ([c] + rest, w2)
  }

  // ---------------------------------------------------------------------
  // What a freshly built node looks like

  /** A built node sits at the origin with no size, is clean, carries the
      style table's properties (defaults without one) and the description's
      key and kind. */
  lemma BuildFields(d: Desc, w: World, hex: string -> Color)
    requires ValidWorld(w)
    ensures var n := Build(d, w, hex).0;
      && n.x == 0 && n.y == 0 && n.w == 0 && n.h == 0
      && !n.layoutDirty && !n.paintDirty
      && n.style == (if d.style.Some? then StyleOf(d.style.value) else DefaultStyle)
      && n.key == EntryKey(d) && n.kind == KindOf(TypeName(d))
      && (n.hasBackground <==> Background(d.style, hex).1)
  {
  }

  // ---------------------------------------------------------------------
  // Identities of built subtrees

  /** Every identity in the subtree lies in [lo, hi). */
  predicate IdsWithin(n: Node, lo: nat, hi: nat)
  {
    forall x :: x in IdSet(n) ==> lo <= x < hi
  }

  /** A built subtree uses exactly fresh identities from the counter, and
      no identity twice. */
  lemma {:induction false} BuildIds(d: Desc, w: World, hex: string -> Color)
    requires ValidWorld(w)
    ensures var (n, w') := Build(d, w, hex);
      IdsWithin(n, w.nextId, w'.nextId) && UniqueIds(n)
    decreases d, 1
  {
    var (n, w') := Build(d, w, hex);
    var (ref, reg1) := RegisterClick(Field(d, "onClick"), w.reg);
    var w1 := World(w.nextId + 1, reg1);
    if d.hasChildren {
      BuildAllIds(d, 0, w1, hex);
      assert n.children == BuildAll(d, 0, w1, hex).0;
    }
    forall x | x in SeqIds(n.children) ensures w.nextId + 1 <= x < w'.nextId {
      var i :| 0 <= i < |n.children| && x in IdSet(n.children[i]);
    }
  }

  lemma {:induction false} BuildAllIds(parent: Desc, i: nat, w: World, hex: string -> Color)
    requires ValidWorld(w)
    requires i <= |parent.children|
    ensures var (cs, w') := BuildAll(parent, i, w, hex);
      && (forall k :: 0 <= k < |cs| ==> IdsWithin(cs[k], w.nextId, w'.nextId) && UniqueIds(cs[k]))
      && SiblingsDisjoint(cs)
    decreases parent, 0, |parent.children| - i
  {
    if i < |parent.children| {
      var (c, w1) := Build(parent.children[i], w, hex);
      var (rest, w2) := BuildAll(parent, i + 1, w1, hex);
      BuildIds(parent.children[i], w, hex);
      BuildAllIds(parent, i + 1, w1, hex);
      assert BuildAll(parent, i, w, hex) == ([c] + rest, w2);
      ConsFresh(c, rest, w.nextId, w1.nextId, w2.nextId);
    }
  }

  /** A subtree on fresh identities `lo..mid` put in front of siblings on
      fresh identities `mid..hi`: the list is on `lo..hi` and disjoint. */
  lemma ConsFresh(c: Node, rest: seq<Node>, lo: nat, mid: nat, hi: nat)
    requires IdsWithin(c, lo, mid) && UniqueIds(c) && lo <= mid <= hi
    requires forall k :: 0 <= k < |rest| ==> IdsWithin(rest[k], mid, hi) && UniqueIds(rest[k])
    requires SiblingsDisjoint(rest)
    ensures var cs := [c] + rest;
      && (forall k :: 0 <= k < |cs| ==> IdsWithin(cs[k], lo, hi) && UniqueIds(cs[k]))
      && SiblingsDisjoint(cs)
  {
    var cs := [c] + rest;
    forall k | 0 <= k < |cs| ensures IdsWithin(cs[k], lo, hi) && UniqueIds(cs[k]) {
      if k > 0 {
        assert cs[k] == rest[k - 1];
      }
    }
    forall a, b | 0 <= a < |cs| && 0 <= b < |cs| && a != b ensures IdSet(cs[a]) !! IdSet(cs[b]) {
      if a > 0 && b > 0 {
        assert cs[a] == rest[a - 1] && cs[b] == rest[b - 1];
      } else if a == 0 {
        assert cs[b] == rest[b - 1];
        assert IdsWithin(cs[b], mid, hi);
      } else {
        assert cs[a] == rest[a - 1];
        assert IdsWithin(cs[a], mid, hi);
      }
    }
  }
}

=== FILE: callbacks.dfy ===
/** The Lua registry as the engine uses it for click handlers: `luaL_ref`
    stores a function under a fresh integer reference, `luaL_unref`
    releases one, and `updateCallback` rebinds a node's handler. */
module Callbacks {
  import opened Lua
  import opened UiTypes

  /** Live references and the function each one holds; `next` is where the
      following reference will be handed out. */
  datatype Registry = Registry(slots: map<int, nat>, next: int)

  /** References are positive and all below `next`; the sentinel -2 is
      therefore never live. */
  predicate Valid(reg: Registry)
  {
    reg.next >= 1 && forall r :: r in reg.slots ==> 1 <= r < reg.next
  }

  const EmptyRegistry: Registry := Registry(map[], 1)

  /** `luaL_ref`: a reference nobody holds, now bound to `fid`. */
  function Ref(reg: Registry, fid: nat): (res: (int, Registry))
    requires Valid(reg)
    ensures Valid(res.1)
    ensures res.0 !in reg.slots && res.0 != NoRef
    ensures res.1.slots == reg.slots[res.0 := fid]
    ensures res.1.next > reg.next
  {
    (reg.next, Registry(reg.slots[reg.next := fid], reg.next + 1))
  }

  /** `luaL_unref`: the reference is no longer live. */
  function Unref(reg: Registry, r: int): (res: Registry)
    requires Valid(reg)
    ensures Valid(res)
    ensures res.slots == reg.slots - {r}
    ensures res.next == reg.next
  {
    reg.(slots := reg.slots - {r})
  }

  /** `updateCallback`: when the description holds a function, release the
      old reference (unless it is the sentinel) and bind a fresh one; any
      other value leaves reference and registry alone. */
  function UpdateCallback(ref: int, v: Value, reg: Registry): (res: (int, Registry))
    requires Valid(reg)
    ensures Valid(res.1) && res.1.next >= reg.next
  {
    if v.Func? then
      var reg1 := if ref != NoRef then Unref(reg, ref) else reg;
      Ref(reg1, v.fid)
    else
      (ref, reg)
  }

  /** With a function: exactly one new live reference, bound to that
      function; the old one is released; every other reference is kept.
      Without: nothing changes. */
  lemma UpdateCallbackSpec(ref: int, v: Value, reg: Registry)
    requires Valid(reg)
    ensures var (r, reg') := UpdateCallback(ref, v, reg);
      && (v.Func? ==>
            && r != NoRef && r !in reg.slots
            && reg'.slots == (reg.slots - {ref})[r := v.fid])
      && (!v.Func? ==> r == ref && reg' == reg)
  {
    if v.Func? {
      var reg1 := if ref != NoRef then Unref(reg, ref) else reg;
      assert reg1.slots == reg.slots - {ref};
      var (r, reg') := Ref(reg1, v.fid);
      assert r >= reg.next;
    }
  }

  /** The click-handler registration of the older `buildNode`: the function
      is referenced once, then `updateCallback` releases that reference and
      takes another, so one live reference remains. */
  function RegisterClick(v: Value, reg: Registry): (res: (int, Registry))
    requires Valid(reg)
    ensures Valid(res.1) && res.1.next >= reg.next
  {
    if v.Func? then
      var (r1, reg1) := Ref(reg, v.fid);
      UpdateCallback(r1, v, reg1)
    else
      UpdateCallback(NoRef, v, reg)
  }

  /** Registering a handler at construction leaves exactly one live
      reference to it, a new one, and no trace of the intermediate one;
      without a function the node gets the sentinel and the registry is
      untouched. */
  lemma RegisterClickOnce(v: Value, reg: Registry)
    requires Valid(reg)
    ensures var (r, reg') := RegisterClick(v, reg);
      && (v.Func? ==> r != NoRef && r !in reg.slots && reg'.slots == reg.slots[r := v.fid])
      && (!v.Func? ==> r == NoRef && reg' == reg)
  {
    if v.Func? {
      var (r1, reg1) := Ref(reg, v.fid);
      UpdateCallbackSpec(r1, v, reg1);
      var (r, reg') := UpdateCallback(r1, v, reg1);
      assert reg'.slots == (reg1.slots - {r1})[r := v.fid];
      assert reg1.slots - {r1} == reg.slots;
    }
  }
}

=== FILE: commands.dfy ===
/** The render command list the renderer consumes: a sequence of drawing
    commands, appended one at a time and cleared between frames. */
module Commands {
  /** An 8-bit colour channel. */
  newtype byte = x: int | 0 <= x < 256

  datatype CmdColor = CmdColor(r: byte, g: byte, b: byte, a: byte)

  /** Rectangles are floats in the engine; the list never computes with
      them, so `real` stands for `float`. */
  datatype Rect = Rect(x: real, y: real, w: real, h: real)

  /** Exactly one of the four commands; a text command names its font by
      the registry id. */
  datatype RenderCommand =
    | DrawRect(rect: Rect, color: CmdColor)
    | PushClip(clip: Rect)
    | PopClip
    | DrawText(text: string, font: nat, x: real, y: real, textColor: CmdColor)

  datatype CommandList = CommandList(commands: seq<RenderCommand>)

  /** `push`: one more command, at the end, the earlier ones untouched. */
  function Push(l: CommandList, c: RenderCommand): (r: CommandList)
    ensures |r.commands| == |l.commands| + 1
    ensures r.commands[|l.commands|] == c
    ensures r.commands[..|l.commands|] == l.commands
  {
    CommandList(l.commands + [c])
  }

  /** `clear`: nothing left. */
  function Clear(l: CommandList): (r: CommandList)
    ensures |r.commands| == 0
  {
    CommandList([])
  }

  /** Pushing `cs` one by one, first to last. */
  function PushAll(l: CommandList, cs: seq<RenderCommand>): (r: CommandList)
    decreases |cs|
  {
    if |cs| == 0 then l else PushAll(Push(l, cs[0]), cs[1..])
  }

  /** The list holds the commands in the order they were pushed: pushing a
      sequence onto a list appends exactly that sequence. */
  lemma {:induction false} PushAllAppends(l: CommandList, cs: seq<RenderCommand>)
    ensures PushAll(l, cs).commands == l.commands + cs
    decreases |cs|
  {
    if |cs| > 0 {
      PushAllAppends(Push(l, cs[0]), cs[1..]);
      assert [cs[0]] + cs[1..] == cs;
      assert l.commands + [cs[0]] + cs[1..] == l.commands + cs;
    }
  }

  /** After `clear`, the list holds exactly what was pushed since, and a
      single push gives a singleton. */
  lemma ClearThenPush(l: CommandList, c: RenderCommand, cs: seq<RenderCommand>)
    ensures Push(Clear(l), c).commands == [c]
    ensures PushAll(Clear(l), cs).commands == cs
  {
    PushAllAppends(Clear(l), cs);
  }

  /** The commands of one clip scope: a push, the drawing, the pop. */
  lemma ClipScopeOrder(l: CommandList, clip: Rect, body: seq<RenderCommand>)
    ensures var r := PushAll(l, [PushClip(clip)] + body + [PopClip]).commands;
      && |r| == |l.commands| + |body| + 2
      && r[|l.commands|] == PushClip(clip)
      && r[|r| - 1] == PopClip
      && r[|l.commands| + 1..|r| - 1] == body
  {
    PushAllAppends(l, [PushClip(clip)] + body + [PopClip]);
    var r := PushAll(l, [PushClip(clip)] + body + [PopClip]).commands;
    assert r == l.commands + [PushClip(clip)] + body + [PopClip];
  }
}

=== FILE: early.dfy ===
/** The earliest revision of the engine: a node with a type name, one
    uniform margin and padding, and a colour; a builder that reads the
    description table with `luaL_optinteger`; a measure pass that always
    overwrites the size of a stack; and a cursor-based layout. */
module EarlyEngine {
  import opened Base
  import opened Lua
  import opened Layout
  import opened Builder

  /** An 8-bit-per-channel colour; every channel is stored modulo 256, as
      the assignment to an `Uint8` does. */
  datatype Rgba = Rgba(r: int, g: int, b: int, a: int)

  const White: Rgba := Rgba(255, 255, 255, 255)

  datatype ENode = ENode(
    kind: string,
    children: seq<ENode>,
    x: int, y: int, w: int, h: int,
    spacing: int, margin: int, padding: int,
    color: Rgba)

  /** Building either succeeds or stops with a Lua error naming what was
      wrong: the integer field or `color` whose value was not a number, or
      `table` for a description slot that is not a table. */
  datatype Result<T> = Ok(value: T) | Err(field: string)

  // ---------------------------------------------------------------------
  // buildNode

  /** `lua_isstring` holds for strings and numbers; a number is converted
      to its decimal text. Any other value leaves the type empty. */
  function EarlyType(v: Value): string
  {
    match v
    case Str(s) => s
    case Num(n) => ShowInt(n)
    case _ => ""
  }

  /** Slots 1 to 3 of a colour table are each missing, nil or a number, so
      `luaL_optinteger` accepts all three. */
  predicate ColorSlotsOk(items: seq<Value>)
  {
    forall i :: 0 <= i < 3 ==> OptInteger(RawGet(items, i), 255).Some?
  }

  /** The colour: a table fills red, green and blue from slots 1 to 3
      (255 when missing) and forces alpha to 255, and a slot holding
      anything but nil or a number raises (`None`); a colour that is not a
      table leaves the node white. */
  function EarlyColor(v: Value): (c: Option<Rgba>)
    ensures c.None? <==> v.Table? && !ColorSlotsOk(v.items)
    ensures !v.Table? ==> c == Some(White)
    ensures c.Some? ==> c.value.a == 255 && 0 <= c.value.r < 256 && 0 <= c.value.g < 256 && 0 <= c.value.b < 256
    ensures c.Some? && v.Table? ==>
      && (RawGet(v.items, 0).Nil? ==> c.value.r == 255) && (RawGet(v.items, 0).Num? ==> c.value.r == RawGet(v.items, 0).n % 256)
      && (RawGet(v.items, 1).Nil? ==> c.value.g == 255) && (RawGet(v.items, 1).Num? ==> c.value.g == RawGet(v.items, 1).n % 256)
      && (RawGet(v.items, 2).Nil? ==> c.value.b == 255) && (RawGet(v.items, 2).Num? ==> c.value.b == RawGet(v.items, 2).n % 256)
  {
    match v
    case Table(items) =>
      var r := OptInteger(RawGet(items, 0), 255);
      var g := OptInteger(RawGet(items, 1), 255);
      var b := OptInteger(RawGet(items, 2), 255);
      if r.None? || g.None? || b.None? then None
      else Some(Rgba(r.value % 256, g.value % 256, b.value % 256, 255))
    case _ => Some(White)
  }

  /** The five integer fields the builder reads, in order. */
  const IntFields: seq<string> := ["spacing", "w", "h", "padding", "margin"]

  /** `v` is what `luaL_optinteger(.., 0)` returns for field `key`. */
  predicate IntField(d: Desc, key: string, v: int)
  {
    OptInteger(Field(d, key), 0) == Some(v)
  }

  /** `buildNode`: the table check, the integer fields, the colour, then
      the children in array order. */
  function EarlyBuild(d: Desc): (r: Result<ENode>)
    ensures !d.isTable ==> r == Err("table")
    ensures r.Ok? ==>
      && r.value.kind == EarlyType(Field(d, "type"))
      && IntField(d, "spacing", r.value.spacing) && IntField(d, "w", r.value.w) && IntField(d, "h", r.value.h)
      && IntField(d, "padding", r.value.padding) && IntField(d, "margin", r.value.margin)
      && EarlyColor(Field(d, "color")) == Some(r.value.color)
      && r.value.x == 0 && r.value.y == 0
      && |r.value.children| == (if d.hasChildren then |d.children| else 0)
    decreases d, 1
  {
    if !d.isTable then Err("table")
    else
      var sp := OptInteger(Field(d, "spacing"), 0);
      var w := OptInteger(Field(d, "w"), 0);
      var h := OptInteger(Field(d, "h"), 0);
      var pad := OptInteger(Field(d, "padding"), 0);
      var mar := OptInteger(Field(d, "margin"), 0);
      var col := EarlyColor(Field(d, "color"));
      if sp.None? then Err("spacing")
      else if w.None? then Err("w")
      else if h.None? then Err("h")
      else if pad.None? then Err("padding")
      else if mar.None? then Err("margin")
      else if col.None? then Err("color")
      else
        var cs := if d.hasChildren then EarlyBuildAll(d, 0) else Ok([]);
        match cs
        case Err(f) => Err(f)
        case Ok(kids) =>
          Ok(ENode(EarlyType(Field(d, "type")), kids, 0, 0, w.value, h.value, sp.value, mar.value, pad.value, col.value))
  }

  /** Children `i..` of `parent`, stopping at the first error. */
  function EarlyBuildAll(parent: Desc, i: nat): (r: Result<seq<ENode>>)
    requires i <= |parent.children|
    ensures r.Ok? ==> |r.value| == |parent.children| - i
    ensures r.Ok? ==> forall k :: 0 <= k < |r.value| ==> EarlyBuild(parent.children[i + k]) == Ok(r.value[k])
    decreases parent, 0, |parent.children| - i
  {
    if i == |parent.children| then Ok([])
    else
      match EarlyBuild(parent.children[i])
      case Err(f) => Err(f)
      case Ok(c) =>
        match EarlyBuildAll(parent, i + 1)
        case Err(f) => Err(f)
        case Ok(rest) => Ok([c] + rest)
  }

  /** A colour the builder accepts: anything but a table, or a table whose
      first three slots are nil or numbers. */
  predicate ColorOk(v: Value)
  {
    v.Table? ==> ColorSlotsOk(v.items)
  }

  /** The description and every description below it is a table, every
      integer field the builder reads is nil or a number, and every colour
      is accepted. */
  predicate WellTyped(d: Desc)
    decreases d, 1
  {
    && d.isTable
    && (forall k :: 0 <= k < |IntFields| ==> Field(d, IntFields[k]).Nil? || Field(d, IntFields[k]).Num?)
    && ColorOk(Field(d, "color"))
    && (d.hasChildren ==> ChildrenWellTyped(d, 0))
  }

  predicate ChildrenWellTyped(d: Desc, i: nat)
    requires i <= |d.children|
    decreases d, 0, |d.children| - i
  {
    i < |d.children| ==> WellTyped(d.children[i]) && ChildrenWellTyped(d, i + 1)
  }

  /** The builder raises an error exactly when some child slot in the tree
      is not a table, or some integer field or colour slot holds something
      other than nil or a number. */
  lemma {:induction false} EarlyBuildOk(d: Desc)
    ensures EarlyBuild(d).Ok? <==> WellTyped(d)
    decreases d, 1
  {
    var ok := forall k :: 0 <= k < |IntFields| ==> Field(d, IntFields[k]).Nil? || Field(d, IntFields[k]).Num?;
    assert ok <==> forall key :: key in IntFields ==> Field(d, key).Nil? || Field(d, key).Num?;
    if d.hasChildren {
      EarlyBuildAllOk(d, 0);
    }
  }

  lemma {:induction false} EarlyBuildAllOk(d: Desc, i: nat)
    requires i <= |d.children|
    ensures EarlyBuildAll(d, i).Ok? <==> ChildrenWellTyped(d, i)
    decreases d, 0, |d.children| - i
  {
    if i < |d.children| {
      EarlyBuildOk(d.children[i]);
      EarlyBuildAllOk(d, i + 1);
    }
  }

  /** Colour slots: missing ones read 255, alpha is 255 whatever the
      fourth slot holds (it is never read), values wrap modulo 256, and a
      string in one of the first three slots raises. */
  lemma EarlyColorExamples()
    ensures EarlyColor(Table([Num(10)])) == Some(Rgba(10, 255, 255, 255))
    ensures EarlyColor(Table([Num(1), Num(2), Num(3), Str("x")])) == Some(Rgba(1, 2, 3, 255))
    ensures EarlyColor(Table([Num(300), Nil, Num(-1)])) == Some(Rgba(44, 255, 255, 255))
    ensures EarlyColor(Table([Num(1), Str("x")])).None?
    ensures EarlyColor(Str("#ff0000")) == Some(White)
  {
  }

  /** A description with no fields at all builds a childless node whose
      numbers are all 0, whose type is empty and whose colour is white. */
  lemma EarlyBuildDefaults()
    ensures EarlyBuild(Desc(map[], None, false, [], true)) == Ok(ENode("", [], 0, 0, 0, 0, 0, 0, 0, White))
  {
  }

  /** `children = {5}` raises at the child's table check, and
      `color = {"x"}` raises at the colour, even with well-typed numbers. */
  lemma EarlyBuildErrors()
    ensures var five := Desc(map[], None, false, [], false);
      EarlyBuild(Desc(map[], None, true, [five], true)) == Err("table")
    ensures EarlyBuild(Desc(map["w" := Num(3), "color" := Table([Str("x")])], None, false, [], true)) == Err("color")
  {
    var five := Desc(map[], None, false, [], false);
    assert EarlyBuild(five) == Err("table");
    assert EarlyBuildAll(Desc(map[], None, true, [five], true), 0) == Err("table");
  }

  // ---------------------------------------------------------------------
  // measure

  /** Outer size along the horizontal axis when `row`: the size plus the
      margin on both sides. */
  function EOuter(c: ENode, row: bool): int
  {
    (if row then c.w else c.h) + 2 * c.margin
  }

  function ESum(cs: seq<ENode>, row: bool): int
  {
    if |cs| == 0 then 0 else EOuter(cs[0], row) + ESum(cs[1..], row)
  }

  /** Running maximum from 0, as the accumulator starts. */
  function EMax(cs: seq<ENode>, row: bool): int
  {
    if |cs| == 0 then 0 else Max(EOuter(cs[0], row), EMax(cs[1..], row))
  }

  /** The accumulation loop over measured children `i..`: the main total
      gains each outer size and one spacing; the cross maximum takes each
      outer size on the other axis. */
  function StackLoop(cs: seq<ENode>, i: nat, row: bool, spacing: int, total: int, mx: int): (int, int)
    requires i <= |cs|
    decreases |cs| - i
  {
    if i == |cs| then (total, mx)
    else StackLoop(cs, i + 1, row, spacing, total + EOuter(cs[i], row) + spacing, Max(mx, EOuter(cs[i], !row)))
  }

  /** `measure`: a stack measures its children, then takes the padded sum
      and maximum (the last spacing taken back); any other node is left as
      it is, children included. */
  function EarlyMeasure(n: ENode): (r: ENode)
    ensures r.kind == n.kind && r.x == n.x && r.y == n.y && r.spacing == n.spacing
    ensures r.margin == n.margin && r.padding == n.padding && r.color == n.color
    ensures |r.children| == |n.children|
    ensures n.kind != "vstack" && n.kind != "hstack" ==> r == n
    decreases n, 1
  {
    if n.kind == "vstack" || n.kind == "hstack" then
      var row := n.kind == "hstack";
      var cs := EarlyMeasureAll(n.children);
      var (total, mx) := StackLoop(cs, 0, row, n.spacing, 0, 0);
      var main := if |cs| > 0 then total - n.spacing else total;
      if row then n.(w := main + 2 * n.padding, h := mx + 2 * n.padding, children := cs)
      else n.(w := mx + 2 * n.padding, h := main + 2 * n.padding, children := cs)
    else n
  }

  function EarlyMeasureAll(cs: seq<ENode>): (rs: seq<ENode>)
    ensures |rs| == |cs|
    ensures forall i :: 0 <= i < |cs| ==> rs[i] == EarlyMeasure(cs[i])
    decreases cs, 0
  {
    if |cs| == 0 then [] else [EarlyMeasure(cs[0])] + EarlyMeasureAll(cs[1..])
  }

  /** The loop's closed form: the total is the sum of outer sizes plus one
      spacing per child, and the maximum is the largest cross size. */
  lemma {:induction false} StackLoopClosed(cs: seq<ENode>, i: nat, row: bool, spacing: int, total: int, mx: int)
    requires i <= |cs| && mx >= 0
    ensures StackLoop(cs, i, row, spacing, total, mx)
      == (total + ESum(cs[i..], row) + (|cs| - i) * spacing, Max(mx, EMax(cs[i..], !row)))
    decreases |cs| - i
  {
    if i < |cs| {
      var c := cs[i];
      StackLoopClosed(cs, i + 1, row, spacing, total + EOuter(c, row) + spacing, Max(mx, EOuter(c, !row)));
      assert cs[i..] == [c] + cs[i + 1..];
      assert ESum(cs[i..], row) == EOuter(c, row) + ESum(cs[i + 1..], row);
      assert EMax(cs[i..], !row) == Max(EOuter(c, !row), EMax(cs[i + 1..], !row));
      assert (|cs| - i) * spacing == (|cs| - (i + 1)) * spacing + spacing;
    } else {
      assert cs[i..] == [];
    }
  }

  /** A vstack is as tall as its children's outer heights plus the spacing
      between them plus twice the padding, and as wide as its widest
      child's outer width plus twice the padding; an hstack is the mirror
      case. The children are measured first. */
  lemma EarlyMeasureStack(n: ENode)
    requires n.kind == "vstack" || n.kind == "hstack"
    ensures var r := EarlyMeasure(n);
      var row := n.kind == "hstack";
      var main := ESum(r.children, row) + Gaps(n.spacing, |n.children|) + 2 * n.padding;
      var cross := EMax(r.children, !row) + 2 * n.padding;
      && (forall i :: 0 <= i < |n.children| ==> r.children[i] == EarlyMeasure(n.children[i]))
      && (row ==> r.w == main && r.h == cross)
      && (!row ==> r.h == main && r.w == cross)
  {
    var row := n.kind == "hstack";
    var cs := EarlyMeasureAll(n.children);
    EarlyMeasureShape(n);
    StackTotals(cs, row, n.spacing);
  }

  /** The loop's results as sums: the main total less the spacing taken
      back is the outer sizes plus the gaps, and the maximum is the
      largest outer cross size. */
  lemma StackTotals(cs: seq<ENode>, row: bool, sp: int)
    ensures var loop := StackLoop(cs, 0, row, sp, 0, 0);
      && (if |cs| > 0 then loop.0 - sp else loop.0) == ESum(cs, row) + Gaps(sp, |cs|)
      && loop.1 == EMax(cs, !row)
  {
    var loop := StackLoop(cs, 0, row, sp, 0, 0);
    assert loop == (ESum(cs, row) + |cs| * sp, EMax(cs, !row)) by {
      StackLoopClosed(cs, 0, row, sp, 0, 0);
      assert cs[0..] == cs;
      EMaxNonNegative(cs, !row);
    }
    assert |cs| > 0 ==> |cs| * sp - sp == sp * (|cs| - 1);
  }

  /** `measure` on a stack, in terms of the loop's results. */
  lemma EarlyMeasureShape(n: ENode)
    requires n.kind == "vstack" || n.kind == "hstack"
    ensures var r := EarlyMeasure(n);
      var row := n.kind == "hstack";
      var cs := EarlyMeasureAll(n.children);
      var loop := StackLoop(cs, 0, row, n.spacing, 0, 0);
      var main := (if |cs| > 0 then loop.0 - n.spacing else loop.0) + 2 * n.padding;
      var cross := loop.1 + 2 * n.padding;
      && r.children == cs
      && (row ==> r.w == main && r.h == cross)
      && (!row ==> r.h == main && r.w == cross)
  {
  }

  lemma {:induction false} EMaxNonNegative(cs: seq<ENode>, row: bool)
    ensures EMax(cs, row) >= 0
  {
    if |cs| > 0 {
      EMaxNonNegative(cs[1..], row);
    }
  }

  /** Stack sizes are recomputed from scratch, so a stack's own `w` and
      `h` never matter: measuring again gives the same tree. */
  lemma {:induction false} EarlyMeasureIdempotent(n: ENode)
    ensures EarlyMeasure(EarlyMeasure(n)) == EarlyMeasure(n)
    decreases n
  {
    if n.kind == "vstack" || n.kind == "hstack" {
      var r := EarlyMeasure(n);
      var rr := EarlyMeasure(r);
      forall i | 0 <= i < |n.children| ensures rr.children[i] == r.children[i] {
        EarlyMeasureIdempotent(n.children[i]);
      }
      assert rr.children == r.children;
    }
  }

  /** The size a stack was given is overwritten: a vstack declared 500
      pixels tall with no children measures to twice its padding. */
  lemma EarlyMeasureOverwrites()
    ensures var n := ENode("vstack", [], 0, 0, 500, 500, 4, 0, 3, White);
      EarlyMeasure(n).w == 6 && EarlyMeasure(n).h == 6
  {
  }

  // ---------------------------------------------------------------------
  // layout

  /** `layout`: the node takes the given origin; a stack places its
      children along a cursor that starts inside the padding and advances
      by each child's size, the spacing and twice its margin; other kinds
      do not lay out their children. */
  function EarlyLayout(n: ENode, x: int, y: int): (r: ENode)
    ensures r == n.(x := x, y := y, children := r.children)
    ensures |r.children| == |n.children|
    ensures n.kind != "vstack" && n.kind != "hstack" ==> r.children == n.children
    decreases n, 1
  {
    var cs := if n.kind == "vstack" then EarlyPlace(n, 0, y + n.padding, x, y)
              else if n.kind == "hstack" then EarlyPlace(n, 0, x + n.padding, x, y)
              else n.children;
    n.(x := x, y := y, children := cs)
  }

  /** Where a stack puts a child when the cursor stands at `run`. */
  function ESlot(n: ENode, c: ENode, run: int, x: int, y: int): (int, int)
  {
    if n.kind == "vstack" then (x + n.padding + c.margin, run + c.margin)
    else (run + c.margin, y + n.padding + c.margin)
  }

  /** Children `i..` of a stack, the cursor standing at `cursor`. */
  function EarlyPlace(n: ENode, i: nat, cursor: int, x: int, y: int): (rs: seq<ENode>)
    requires (n.kind == "vstack" || n.kind == "hstack") && i <= |n.children|
    ensures |rs| == |n.children| - i
    decreases n, 0, |n.children| - i
  {
    if i == |n.children| then []
    else
      var c := n.children[i];
      if n.kind == "vstack" then
        [EarlyLayout(c, x + n.padding + c.margin, cursor + c.margin)]
          + EarlyPlace(n, i + 1, cursor + c.h + n.spacing + 2 * c.margin, x, y)
      else
        [EarlyLayout(c, cursor + c.margin, y + n.padding + c.margin)]
          + EarlyPlace(n, i + 1, cursor + c.w + n.spacing + 2 * c.margin, x, y)
  }

  lemma EarlyPlaceStep(n: ENode, i: nat, cursor: int, x: int, y: int)
    requires (n.kind == "vstack" || n.kind == "hstack") && i < |n.children|
    ensures var c := n.children[i];
      var rs := EarlyPlace(n, i, cursor, x, y);
      && rs[1..] == EarlyPlace(n, i + 1, cursor + EOuter(c, n.kind == "hstack") + n.spacing, x, y)
      && (rs[0].x, rs[0].y) == ESlot(n, c, cursor, x, y)
  {
  }

  lemma EarlyPlaceFirst(n: ENode, i: nat, cursor: int, x: int, y: int)
    requires (n.kind == "vstack" || n.kind == "hstack") && i < |n.children|
    ensures PlacedAt(n, i, cursor, x, y, i)
         == ESlot(n, n.children[i], ERun(n.children, i, i, n.kind == "hstack", n.spacing, cursor), x, y)
  {
    assert n.children[i..i] == [];
    EarlyPlaceStep(n, i, cursor, x, y);
  }

  /** The cursor when child `k` is reached, having started at `cursor`
      before child `i`: past the outer sizes of children `i..k-1` and one
      spacing after each. */
  function ERun(cs: seq<ENode>, i: nat, k: nat, row: bool, sp: int, cursor: int): int
    requires i <= k <= |cs|
  {
    cursor + ESum(cs[i..k], row) + (k - i) * sp
  }

  /** The origin given to child `k` when children `i..` are placed. */
  function PlacedAt(n: ENode, i: nat, cursor: int, x: int, y: int, k: nat): (int, int)
    requires (n.kind == "vstack" || n.kind == "hstack") && i <= k < |n.children|
  {
    var r := EarlyPlace(n, i, cursor, x, y)[k - i];
    (r.x, r.y)
  }

  /** Child `k`, placed from position `i` on, sits where its slot puts it
      with the cursor at `ERun`. */
  lemma {:induction false} EarlyPlaceAt(n: ENode, i: nat, cursor: int, x: int, y: int, k: nat)
    requires (n.kind == "vstack" || n.kind == "hstack") && i <= k < |n.children|
    ensures PlacedAt(n, i, cursor, x, y, k)
         == ESlot(n, n.children[k], ERun(n.children, i, k, n.kind == "hstack", n.spacing, cursor), x, y)
    decreases k - i
  {
    if k > i {
      var next := cursor + EOuter(n.children[i], n.kind == "hstack") + n.spacing;
      EarlyPlaceShift(n, i, cursor, x, y, k);
      EarlyPlaceAt(n, i + 1, next, x, y, k);
    } else {
      EarlyPlaceFirst(n, i, cursor, x, y);
    }
  }

  /** One step of `EarlyPlaceAt`: placing from `i` or, with the cursor
      moved past child `i`, from `i + 1` gives child `k` the same origin
      and the same cursor. */
  lemma EarlyPlaceShift(n: ENode, i: nat, cursor: int, x: int, y: int, k: nat)
    requires (n.kind == "vstack" || n.kind == "hstack") && i < k < |n.children|
    ensures var row := n.kind == "hstack";
      var next := cursor + EOuter(n.children[i], row) + n.spacing;
      && PlacedAt(n, i, cursor, x, y, k) == PlacedAt(n, i + 1, next, x, y, k)
      && ERun(n.children, i, k, row, n.spacing, cursor) == ERun(n.children, i + 1, k, row, n.spacing, next)
  {
    var row := n.kind == "hstack";
    var next := cursor + EOuter(n.children[i], row) + n.spacing;
    assert EarlyPlace(n, i, cursor, x, y)[k - i] == EarlyPlace(n, i + 1, next, x, y)[k - (i + 1)] by {
      EarlyPlaceStep(n, i, cursor, x, y);
    }
    ERunStep(n.children, i, k, row, n.spacing, cursor);
  }

  /** The cursor before child `k`, counted from child `i`, is the cursor
      after child `i` counted from child `i + 1`. */
  lemma ERunStep(cs: seq<ENode>, i: nat, k: nat, row: bool, sp: int, cursor: int)
    requires i < k <= |cs|
    ensures ERun(cs, i, k, row, sp, cursor) == ERun(cs, i + 1, k, row, sp, cursor + EOuter(cs[i], row) + sp)
  {
    assert cs[i..k] == [cs[i]] + cs[i + 1..k];
    assert ESum(cs[i..k], row) == EOuter(cs[i], row) + ESum(cs[i + 1..k], row);
    assert (k - i) * sp == (k - (i + 1)) * sp + sp;
  }

  /** Child `k` of a laid-out vstack sits at `(x + padding + margin,
      y + padding + outer heights before it + k spacings + margin)`; an
      hstack is the mirror case. */
  lemma EarlyLayoutChildOrigin(n: ENode, x: int, y: int, k: nat)
    requires (n.kind == "vstack" || n.kind == "hstack") && k < |n.children|
    ensures var r := EarlyLayout(n, x, y);
      var c := n.children[k];
      && (n.kind == "vstack" ==>
            && r.children[k].x == x + n.padding + c.margin
            && r.children[k].y == y + n.padding + ESum(n.children[..k], false) + k * n.spacing + c.margin)
      && (n.kind == "hstack" ==>
            && r.children[k].x == x + n.padding + ESum(n.children[..k], true) + k * n.spacing + c.margin
            && r.children[k].y == y + n.padding + c.margin)
  {
    var cursor := if n.kind == "vstack" then y + n.padding else x + n.padding;
    EarlyPlaceAt(n, 0, cursor, x, y, k);
    assert n.children[0..k] == n.children[..k];
    assert EarlyLayout(n, x, y).children == EarlyPlace(n, 0, cursor, x, y);
    assert ERun(n.children, 0, k, n.kind == "hstack", n.spacing, cursor)
        == cursor + ESum(n.children[..k], n.kind == "hstack") + k * n.spacing;
  }

  /** Layout moves nodes but never resizes them. */
  lemma {:induction false} EarlyLayoutKeepsSizes(n: ENode, x: int, y: int, k: nat)
    requires k < |n.children|
    ensures var r := EarlyLayout(n, x, y);
      r.w == n.w && r.h == n.h && r.children[k].w == n.children[k].w && r.children[k].h == n.children[k].h
  {
    if n.kind == "vstack" || n.kind == "hstack" {
      var cursor := if n.kind == "vstack" then y + n.padding else x + n.padding;
      EarlyPlaceSizes(n, 0, cursor, x, y, k);
      assert EarlyLayout(n, x, y).children == EarlyPlace(n, 0, cursor, x, y);
    }
  }

  lemma {:induction false} EarlyPlaceSizes(n: ENode, i: nat, cursor: int, x: int, y: int, k: nat)
    requires (n.kind == "vstack" || n.kind == "hstack") && i <= k < |n.children|
    ensures var r := EarlyPlace(n, i, cursor, x, y)[k - i];
      r.w == n.children[k].w && r.h == n.children[k].h
    decreases k - i
  {
    var c := n.children[i];
    var next := cursor + EOuter(c, n.kind == "hstack") + n.spacing;
    EarlyPlaceStep(n, i, cursor, x, y);
    if k > i {
      var rs := EarlyPlace(n, i, cursor, x, y);
      var rest := EarlyPlace(n, i + 1, next, x, y);
      assert rs[k - i] == rest[k - (i + 1)];
      EarlyPlaceSizes(n, i + 1, next, x, y, k);
    }
  }
}

=== FILE: fonts.dfy ===
/** Fonts: the process-wide registry that hands out font ids and loads a
    given (path, size) once, the shelf packing of the printable ASCII
    glyphs into a 1024-pixel-wide atlas, and glyph lookup with its
    fallbacks. */
module Fonts {
  import opened Base

  // ---------------------------------------------------------------------
  // The registry

  /** The pixel size is stored as an `unsigned int`, so a negative
      request wraps around modulo 2^32. */
  function U32(size: int): (r: nat)
    ensures r < 0x1_0000_0000
    ensures 0 <= size < 0x1_0000_0000 ==> r == size
  {
    size % 0x1_0000_0000
  }

  datatype FontKey = FontKey(path: string, size: nat)

  datatype FontRegistry = FontRegistry(fonts: map<int, FontKey>, nextId: int)

  /** The registry as the process starts, and after shutdown. */
  const EmptyFonts: FontRegistry := FontRegistry(map[], 1)

  /** Ids are at least 1 and below the counter, and no two ids hold the
      same (path, size). */
  predicate ValidFonts(reg: FontRegistry)
  {
    && reg.nextId >= 1
    && (forall id :: id in reg.fonts ==> 1 <= id < reg.nextId)
    && (forall a, b :: a in reg.fonts && b in reg.fonts && reg.fonts[a] == reg.fonts[b] ==> a == b)
  }

  /** The scan for an already-loaded font, over ids `from ..` up to the
      counter. Since at most one id holds a key, the order of the scan
      does not matter. */
  function FindFont(reg: FontRegistry, key: FontKey, from: int): (r: Option<int>)
    requires ValidFonts(reg) && from >= 1
    ensures r.Some? ==> r.value in reg.fonts && reg.fonts[r.value] == key
    ensures r.None? <==> forall id :: id in reg.fonts && id >= from ==> reg.fonts[id] != key
    decreases reg.nextId - from
  {
    if from >= reg.nextId then None
    else if from in reg.fonts && reg.fonts[from] == key then Some(from)
    else FindFont(reg, key, from + 1)
  }

  /** `UI_LoadFont`: the id already holding (path, size), with the registry
      unchanged; otherwise the counter's id, now bound to the key, and the
      counter moved on. */
  function LoadFont(reg: FontRegistry, path: string, size: int): (r: (int, FontRegistry))
    requires ValidFonts(reg)
    ensures ValidFonts(r.1)
    ensures r.0 in r.1.fonts && r.1.fonts[r.0] == FontKey(path, U32(size))
  {
    var key := FontKey(path, U32(size));
    match FindFont(reg, key, 1)
    case Some(id) => (id, reg)
    case None =>
      var reg' := FontRegistry(reg.fonts[reg.nextId := key], reg.nextId + 1);
      assert forall a :: a in reg'.fonts && a != reg.nextId ==> reg'.fonts[a] == reg.fonts[a] && reg.fonts[a] != key;
      (reg.nextId, reg')
  }

  /** A key already present returns its id and changes nothing; a new key
      takes the counter's id without disturbing any other font. */
  lemma LoadFontSpec(reg: FontRegistry, path: string, size: int)
    requires ValidFonts(reg)
    ensures var key := FontKey(path, U32(size));
      var (id, reg') := LoadFont(reg, path, size);
      && ((exists a :: a in reg.fonts && reg.fonts[a] == key) ==> reg' == reg && id in reg.fonts)
      && ((forall a :: a in reg.fonts ==> reg.fonts[a] != key) ==>
            id == reg.nextId && id !in reg.fonts && reg'.nextId == reg.nextId + 1 && reg'.fonts == reg.fonts[id := key])
  {
  }

  /** Loading the same (path, size) twice yields one font: the same id,
      and the second load changes nothing. */
  lemma LoadFontTwice(reg: FontRegistry, path: string, size: int)
    requires ValidFonts(reg)
    ensures var (id1, reg1) := LoadFont(reg, path, size);
      var (id2, reg2) := LoadFont(reg1, path, size);
      id2 == id1 && reg2 == reg1
  {
    var (id1, reg1) := LoadFont(reg, path, size);
    var key := FontKey(path, U32(size));
    assert reg1.fonts[id1] == key;
  }

  /** Different (path, size) pairs get different ids. */
  lemma DistinctKeysDistinctIds(reg: FontRegistry, p1: string, s1: int, p2: string, s2: int)
    requires ValidFonts(reg) && FontKey(p1, U32(s1)) != FontKey(p2, U32(s2))
    ensures var (id1, reg1) := LoadFont(reg, p1, s1);
      var (id2, reg2) := LoadFont(reg1, p2, s2);
      id1 != id2
  {
  }

  /** The cast of the size: a request for size -1 finds the font loaded
      at size 4294967295. */
  lemma NegativeSizeWraps(reg: FontRegistry, path: string)
    requires ValidFonts(reg)
    ensures var (id1, reg1) := LoadFont(reg, path, 0xFFFF_FFFF);
      LoadFont(reg1, path, -1).0 == id1
  {
    assert U32(-1) == U32(0xFFFF_FFFF);
    LoadFontTwice(reg, path, 0xFFFF_FFFF);
  }

  /** `UI_GetFontById`: nothing for an id that was never handed out or was
      dropped at shutdown. */
  function GetFontById(reg: FontRegistry, id: int): (r: Option<FontKey>)
    ensures r.None? <==> id !in reg.fonts
    ensures r.Some? ==> r.value == reg.fonts[id]
  {
    if id in reg.fonts then Some(reg.fonts[id]) else None
  }

  /** `UI_ShutdownFonts`: no font left and ids start again from 1. */
  function ShutdownFonts(reg: FontRegistry): (r: FontRegistry)
    ensures ValidFonts(r) && r.fonts == map[] && r.nextId == 1
  {
    EmptyFonts
  }

  /** After shutdown every old id reads as absent, and the first load gets
      id 1 again. */
  lemma ShutdownForgets(reg: FontRegistry, id: int, path: string, size: int)
    ensures GetFontById(ShutdownFonts(reg), id).None?
    ensures LoadFont(ShutdownFonts(reg), path, size).0 == 1
  {
  }

  // ---------------------------------------------------------------------
  // The glyph atlas

  const AtlasWidth: int := 1024
  const FirstCode: int := 32
  const EndCode: int := 128

  /** What the rasteriser reports for one glyph (bitmap size, bearing and
      advance as the engine stores them). */
  datatype Bitmap = Bitmap(width: nat, rows: nat, left: int, top: int, advance: nat)

  /** A packed glyph: its metrics and its top-left corner in the atlas
      (the texture coordinates are these divided by the atlas size). */
  datatype Character = Character(width: nat, rows: nat, left: int, top: int, advance: nat, ax: int, ay: int)

  /** Two glyph rectangles share no pixel. */
  predicate Disjoint(a: Character, b: Character)
  {
    a.ax + a.width <= b.ax || b.ax + b.width <= a.ax || a.ay + a.rows <= b.ay || b.ay + b.rows <= a.ay
  }

  /** `c` was placed from bitmap `b`. */
  predicate PlacedFrom(c: Character, b: Bitmap)
  {
    c.width == b.width && c.rows == b.rows && c.left == b.left && c.top == b.top && c.advance == b.advance
  }

  /** A glyph on a finished shelf lies wholly above `y`; one on the current
      shelf starts at `y`, ends left of `x` (with the one-pixel gap) and
      is no taller than the shelf. */
  predicate Behind(c: Character, x: int, y: int, rowHeight: int)
  {
    c.ay + c.rows <= y || (c.ay == y && c.ax + c.width < x && c.rows <= rowHeight)
  }

  /** The packing cursor: pen position `x`, shelf top `y` and the height of
      the tallest glyph on the current shelf. */
  datatype Cursor = Cursor(x: int, y: int, rowHeight: int)

  /** Where a glyph of bitmap `b` goes from cursor `cur`: a glyph that would
      reach the atlas width starts a new shelf below the tallest glyph of
      the current one. */
  function Slot(cur: Cursor, b: Bitmap): (int, int)
  {
    if cur.x + b.width >= AtlasWidth then (0, cur.y + cur.rowHeight) else (cur.x, cur.y)
  }

  /** The cursor after code `32 + k`: unchanged for a glyph that failed to
      load; otherwise one pixel past the placed glyph, with the shelf height
      raised to it. */
  function Advance(cur: Cursor, g: Option<Bitmap>): Cursor
  {
    match g
    case None => cur
    case Some(b) =>
      var (x, y) := Slot(cur, b);
      var rh := if cur.x + b.width >= AtlasWidth then 0 else cur.rowHeight;
      Cursor(x + b.width + 1, y, Max(rh, b.rows))
  }

  /** The cursor before code `32 + k`, starting from the top-left corner. */
  function CursorAt(glyphs: seq<Option<Bitmap>>, k: nat): Cursor
    requires k <= |glyphs|
  {
    if k == 0 then Cursor(0, 0, 0) else Advance(CursorAt(glyphs, k - 1), glyphs[k - 1])
  }

  /** The shelf facts the packing loop keeps: every placed glyph lies behind
      the cursor, no two overlap, and each starts at the left edge or ends
      inside the atlas width. */
  predicate Shelved(chars: map<int, Character>, cur: Cursor)
  {
    && cur.x >= 0 && cur.y >= 0 && cur.rowHeight >= 0
    && (forall k :: k in chars ==> Behind(chars[k], cur.x, cur.y, cur.rowHeight))
    && (forall k, d :: k in chars && d in chars && k != d ==> Disjoint(chars[k], chars[d]))
    && (forall k :: k in chars ==> chars[k].ax >= 0 && chars[k].ay >= 0 && (chars[k].ax == 0 || chars[k].ax + chars[k].width < AtlasWidth))
  }

  /** Placing one more glyph at its slot and advancing the cursor keeps the
      shelf facts. */
  lemma ShelfStep(chars: map<int, Character>, cur: Cursor, b: Bitmap, c: int)
    requires Shelved(chars, cur) && c !in chars
    ensures var (x, y) := Slot(cur, b);
      Shelved(chars[c := Character(b.width, b.rows, b.left, b.top, b.advance, x, y)], Advance(cur, Some(b)))
  {
    var (x, y) := Slot(cur, b);
    var placed := Character(b.width, b.rows, b.left, b.top, b.advance, x, y);
    var rh := if cur.x + b.width >= AtlasWidth then 0 else cur.rowHeight;
    assert forall k :: k in chars ==> Behind(chars[k], x, y, rh);
    assert forall k :: k in chars ==> Disjoint(chars[k], placed);
  }

  /** The packing loop of `Font::Load` over the codes 32 to 127; `glyphs[i]`
      is the outcome of rasterising code `32 + i` (`None` when it failed).
      Every code that loaded is placed, no two placed glyphs overlap, and
      each starts at the left edge or ends inside the atlas width. */
  method PackAtlas(glyphs: seq<Option<Bitmap>>) returns (chars: map<int, Character>)
    requires |glyphs| == EndCode - FirstCode
    ensures forall c :: c in chars <==> FirstCode <= c < EndCode && glyphs[c - FirstCode].Some?
    ensures forall c :: c in chars ==> PlacedFrom(chars[c], glyphs[c - FirstCode].value)
    ensures forall c, d :: c in chars && d in chars && c != d ==> Disjoint(chars[c], chars[d])
    ensures forall c :: c in chars ==> chars[c].ax >= 0 && chars[c].ay >= 0 && (chars[c].ax == 0 || chars[c].ax + chars[c].width < AtlasWidth)
    ensures forall c :: c in chars ==>
      (chars[c].ax, chars[c].ay) == Slot(CursorAt(glyphs, c - FirstCode), glyphs[c - FirstCode].value)
  {
    chars := map[];
    var x, y, rowHeight := 0, 0, 0;
    var c := FirstCode;
    while c < EndCode
      invariant FirstCode <= c <= EndCode
      invariant forall k :: k in chars <==> FirstCode <= k < c && glyphs[k - FirstCode].Some?
      invariant forall k :: k in chars ==> PlacedFrom(chars[k], glyphs[k - FirstCode].value)
      invariant Shelved(chars, Cursor(x, y, rowHeight))
      invariant Cursor(x, y, rowHeight) == CursorAt(glyphs, c - FirstCode)
      invariant forall k :: k in chars ==>
        (chars[k].ax, chars[k].ay) == Slot(CursorAt(glyphs, k - FirstCode), glyphs[k - FirstCode].value)
    {
      var g := glyphs[c - FirstCode];
      if g.None? {
        c := c + 1;
        continue;
      }
      var b := g.value;
      ghost var before := Cursor(x, y, rowHeight);
      if x + b.width >= AtlasWidth {
        x, y, rowHeight := 0, y + rowHeight, 0;
      }
      var placed := Character(b.width, b.rows, b.left, b.top, b.advance, x, y);
      assert (x, y) == Slot(before, b);
      ShelfStep(chars, before, b, c);
      chars := chars[c := placed];
      x := x + b.width + 1;
      rowHeight := Max(rowHeight, b.rows);
      assert Cursor(x, y, rowHeight) == Advance(before, g);
      c := c + 1;
    }
  }

  /** Two 600-pixel glyphs cannot share a 1024-pixel shelf: the second
      starts a new shelf under the first; a glyph that failed to load moves
      nothing, so the next one continues the shelf one pixel after. */
  lemma ShelfWraps(glyphs: seq<Option<Bitmap>>)
    requires |glyphs| == EndCode - FirstCode
    requires glyphs[0] == Some(Bitmap(600, 10, 0, 0, 600))
    requires glyphs[1] == Some(Bitmap(600, 20, 0, 0, 600))
    requires glyphs[2].None?
    requires glyphs[3] == Some(Bitmap(5, 5, 0, 0, 5))
    ensures Slot(CursorAt(glyphs, 0), glyphs[0].value) == (0, 0)
    ensures Slot(CursorAt(glyphs, 1), glyphs[1].value) == (0, 10)
    ensures Slot(CursorAt(glyphs, 3), glyphs[3].value) == (601, 10)
  {
    assert CursorAt(glyphs, 1) == Cursor(601, 0, 10);
    assert CursorAt(glyphs, 2) == Cursor(601, 10, 20);
    assert CursorAt(glyphs, 3) == CursorAt(glyphs, 2);
  }

  /** The glyph used when nothing else is found: all zero. */
  const Emergency: Character := Character(0, 0, 0, 0, 0, 0, 0)

  const Question: int := 63

  /** `Font::GetCharacter`: the glyph itself, else the `'?'` glyph, else
      the all-zero one.  The lookup never fails: it returns a stored glyph
      whenever the map holds the code or `'?'`, and the all-zero glyph only
      when it holds neither. */
  function GetCharacter(chars: map<int, Character>, c: int): (r: Character)
    ensures (c in chars || Question in chars) ==> r in chars.Values
    ensures r !in chars.Values ==> c !in chars && Question !in chars && r == Emergency
  {
    if c in chars then chars[c]
    else if Question in chars then chars[Question]
    else Emergency
  }

  /** Looked up in a packed atlas: a code that loaded gets its own bitmap;
      any other code gets the bitmap of `'?'` when that loaded. */
  lemma GetCharacterFromAtlas(glyphs: seq<Option<Bitmap>>, chars: map<int, Character>, c: int)
    requires |glyphs| == EndCode - FirstCode
    requires forall k :: k in chars <==> FirstCode <= k < EndCode && glyphs[k - FirstCode].Some?
    requires forall k :: k in chars ==> PlacedFrom(chars[k], glyphs[k - FirstCode].value)
    ensures FirstCode <= c < EndCode && glyphs[c - FirstCode].Some? ==>
      PlacedFrom(GetCharacter(chars, c), glyphs[c - FirstCode].value)
    ensures !(FirstCode <= c < EndCode && glyphs[c - FirstCode].Some?) && glyphs[Question - FirstCode].Some? ==>
      PlacedFrom(GetCharacter(chars, c), glyphs[Question - FirstCode].value)
    ensures !(FirstCode <= c < EndCode && glyphs[c - FirstCode].Some?) && glyphs[Question - FirstCode].None? ==>
      GetCharacter(chars, c) == Emergency
  {
  }

  /** Storing a glyph under a code makes the lookup of that code return
      it, and leaves the lookup of every other stored code as it was. */
  lemma GetCharacterAfterInsert(chars: map<int, Character>, c: int, g: Character, d: int)
    ensures GetCharacter(chars[c := g], c) == g
    ensures d != c && d in chars ==> GetCharacter(chars[c := g], d) == GetCharacter(chars, d)
  {
  }

  /** A code that is not stored looks up exactly as `'?'` does: the `'?'`
      glyph when that is stored, else the all-zero one. */
  lemma MissingCodeIsQuestion(chars: map<int, Character>, c: int)
    requires c !in chars
    ensures GetCharacter(chars, c) == GetCharacter(chars, Question)
    ensures Question in chars ==> GetCharacter(chars, c) == chars[Question]
  {
  }
}

=== FILE: identities.dfy ===
/** Node identities under reconciliation: a reconciled subtree holds only
    identities the old subtree had or the counter handed out meanwhile, no
    identity twice, and none of the identities reported as freed. */
module Identities {
  import opened Base
  import opened UiTypes
  import opened Lua
  import opened Builder
  import opened Patch
  import opened Matching
  import opened Reconciler

  /** `x` belongs to the old child entry `k` is paired with, if any. */
  predicate InOwn(prev: seq<Node>, m: seq<Option<nat>>, k: nat, x: nat)
    requires k < |m| && InRange(prev, m)
  {
    m[k].Some? && x in IdSet(prev[m[k].value])
  }

  /** `x` was in the old subtree or is fresh from the counter between `lo`
      and `hi`. */
  predicate OldOrFresh(before: set<nat>, lo: nat, hi: nat, x: nat)
  {
    x in before || lo <= x < hi
  }

  /** No old child is paired with two entries. */
  predicate Injective(m: seq<Option<nat>>)
  {
    forall a, b :: 0 <= a < |m| && 0 <= b < |m| && a != b && m[a].Some? ==> m[a] != m[b]
  }

  lemma MatchInjective(n: Node, d: Desc)
    ensures Injective(Pairing(n, d))
  {
    var m := Pairing(n, d);
    forall a, b | 0 <= a < |m| && 0 <= b < |m| && a != b && m[a].Some? ensures m[a] != m[b] {
      if a > b && m[b].Some? {
        assert m[a] != m[b];
      }
    }
  }

  /** Old identities all lie below `lo`. */
  predicate OldBelow(prev: seq<Node>, lo: nat)
  {
    forall j :: 0 <= j < |prev| ==> IdsBelow(prev[j], lo)
  }

  /** `bounds` never decreases. */
  predicate Ascending(bounds: seq<nat>)
  {
    forall a, b :: 0 <= a <= b < |bounds| ==> bounds[a] <= bounds[b]
  }

  /** Every identity of `cs[k]` and of `fs[k]` is from entry `k`'s paired old
      child or fresh from the counter while entry `k` was reconciled. */
  predicate EntriesFromOwn(prev: seq<Node>, m: seq<Option<nat>>, cs: seq<Node>, fs: seq<set<nat>>, bounds: seq<nat>)
    requires InRange(prev, m) && |cs| == |m| && |fs| == |m| && |bounds| == |m| + 1
  {
    && (forall k, x :: 0 <= k < |m| && x in IdSet(cs[k]) ==> InOwn(prev, m, k, x) || bounds[k] <= x < bounds[k + 1])
    && (forall k, x :: 0 <= k < |m| && x in fs[k] ==> InOwn(prev, m, k, x) || bounds[k] <= x < bounds[k + 1])
  }

  /** The per-entry facts add up: distinct entries hold disjoint identities,
      no entry holds what another freed, and none holds an identity of an
      old child nobody took. */
  lemma CombineEntries(prev: seq<Node>, m: seq<Option<nat>>, cs: seq<Node>, fs: seq<set<nat>>, bounds: seq<nat>, lo: nat)
    requires InRange(prev, m) && Injective(m) && SiblingsDisjoint(prev) && OldBelow(prev, lo)
    requires |cs| == |m| && |fs| == |m| && |bounds| == |m| + 1
    requires Ascending(bounds) && lo <= bounds[0]
    requires EntriesFromOwn(prev, m, cs, fs, bounds)
    requires forall k :: 0 <= k < |m| ==> IdSet(cs[k]) !! fs[k]
    ensures SiblingsDisjoint(cs)
    ensures forall a, b :: 0 <= a < |m| && 0 <= b < |m| ==> IdSet(cs[a]) !! fs[b]
    ensures forall a, j :: 0 <= a < |m| && 0 <= j < |prev| && Unused(m, j) ==> IdSet(cs[a]) !! IdSet(prev[j])
  {
    forall a, b, x | 0 <= a < |m| && 0 <= b < |m| && a != b && x in IdSet(cs[a]) ensures x !in IdSet(cs[b]) && x !in fs[b] {
      if InOwn(prev, m, a, x) {
        assert x < lo;
      } else if a < b {
        assert bounds[a + 1] <= bounds[b];
      } else {
        assert bounds[b + 1] <= bounds[a];
      }
    }
    forall a, j, x | 0 <= a < |m| && 0 <= j < |prev| && Unused(m, j) && x in IdSet(cs[a]) ensures x !in IdSet(prev[j]) {
      if InOwn(prev, m, a, x) {
        assert m[a] != Some(j);
      } else {
        assert lo <= bounds[a];
      }
    }
  }

  // ---------------------------------------------------------------------
  // Reconciling a node, an entry, and a child list

  /** Reconciling a subtree with distinct identities, all older than the
      counter: the result and the freed set hold only old or newly handed
      out identities, the result holds none of the freed ones, and no
      identity twice. */
  lemma {:induction false} ReconcileIds(n: Node, d: Desc, w: World, hex: string -> Color)
    requires ValidWorld(w) && UniqueIds(n) && IdsBelow(n, w.nextId)
    ensures var r := Reconcile(n, d, w, hex);
      && (forall x :: x in IdSet(r.node) ==> OldOrFresh(IdSet(n), w.nextId, r.world.nextId, x))
      && (forall x :: x in r.freed ==> OldOrFresh(IdSet(n), w.nextId, r.world.nextId, x))
      && IdSet(r.node) !! r.freed
      && UniqueIds(r.node)
    decreases d, 3
  {
    var r := Reconcile(n, d, w, hex);
    var p := PatchNode(n, d, w.reg, hex);
    if !d.hasChildren {
      assert r.node == p.node && r.freed == {};
      assert p.node.children == n.children;
      assert IdSet(r.node) == IdSet(n);
    } else {
      ChildrenIds(n, d, w, hex);
    }
  }

  /** The child-list half of `ReconcileIds`. */
  lemma {:induction false} ChildrenIds(n: Node, d: Desc, w: World, hex: string -> Color)
    requires ValidWorld(w) && UniqueIds(n) && IdsBelow(n, w.nextId) && d.hasChildren
    ensures var r := Reconcile(n, d, w, hex);
      && (forall x :: x in IdSet(r.node) ==> OldOrFresh(IdSet(n), w.nextId, r.world.nextId, x))
      && (forall x :: x in r.freed ==> OldOrFresh(IdSet(n), w.nextId, r.world.nextId, x))
      && IdSet(r.node) !! r.freed
      && UniqueIds(r.node)
    decreases d, 2
  {
    var r := Reconcile(n, d, w, hex);
    var p := PatchNode(n, d, w.reg, hex);
    var prev := n.children;
    var m := Pairing(n, d);
    var w0 := w.(reg := p.reg);
    ReconcileUnfold(n, d, w, hex);
    MatchInjective(n, d);
    UniqueParts(n, w.nextId);
    EntriesIds(prev, m, d, w0, hex, w.nextId);
    ChildrenIdsConclude(n, r, prev, m, ReconcileEntries(prev, m, d, 0, w0, hex), w.nextId);
  }

  /** The entry list: each child comes from its paired old child or from the
      counter, siblings are disjoint, and no child holds a freed identity or
      one of an old child nobody took. */
  lemma {:induction false} EntriesIds(prev: seq<Node>, m: seq<Option<nat>>, parent: Desc, w: World, hex: string -> Color, lo: nat)
    requires ValidWorld(w) && InRange(prev, m) && |m| == |parent.children|
    requires Injective(m) && SiblingsDisjoint(prev) && OldBelow(prev, lo) && lo <= w.nextId
    requires forall j :: 0 <= j < |prev| ==> UniqueIds(prev[j])
    ensures var e := ReconcileEntries(prev, m, parent, 0, w, hex);
      && (forall k :: 0 <= k < |m| ==> UniqueIds(e.children[k]))
      && SiblingsDisjoint(e.children)
      && (forall k, x :: 0 <= k < |m| && x in IdSet(e.children[k]) ==> InOwn(prev, m, k, x) || w.nextId <= x < e.world.nextId)
      && (forall x :: x in e.freed ==> x in SeqIds(prev) || w.nextId <= x < e.world.nextId)
      && (forall k :: 0 <= k < |m| ==> IdSet(e.children[k]) !! e.freed)
      && (forall k, j :: 0 <= k < |m| && 0 <= j < |prev| && Unused(m, j) ==> IdSet(e.children[k]) !! IdSet(prev[j]))
    decreases parent, 1
  {
    var e := ReconcileEntries(prev, m, parent, 0, w, hex);
    var cs := e.children;
    var fs := seq(|m|, k requires 0 <= k < |m| => Nth(prev, m, parent, 0, w, hex, k).freed);
    var bounds := seq(|m| + 1, k requires 0 <= k <= |m| => WorldAt(prev, m, parent, 0, w, hex, k).nextId);
    EntriesSummary(prev, m, parent, w, hex, fs, bounds);
    CombineEntries(prev, m, cs, fs, bounds, lo);
    FreedFacts(prev, m, cs, fs, bounds, e.freed);
  }

  /** The per-entry facts of the list, with the counter at its ends and
      the freed set as the union of the entries' freed sets. */
  lemma EntriesSummary(prev: seq<Node>, m: seq<Option<nat>>, parent: Desc, w: World, hex: string -> Color,
                       fs: seq<set<nat>>, bounds: seq<nat>)
    requires ValidWorld(w) && InRange(prev, m) && |m| == |parent.children|
    requires forall j :: 0 <= j < |prev| ==> UniqueIds(prev[j])
    requires OldBelow(prev, w.nextId)
    requires |fs| == |m| && |bounds| == |m| + 1
    requires forall k :: 0 <= k < |m| ==> fs[k] == Nth(prev, m, parent, 0, w, hex, k).freed
    requires forall k :: 0 <= k <= |m| ==> bounds[k] == WorldAt(prev, m, parent, 0, w, hex, k).nextId
    ensures var e := ReconcileEntries(prev, m, parent, 0, w, hex);
      && |e.children| == |m| && EntriesFromOwn(prev, m, e.children, fs, bounds) && Ascending(bounds)
      && (forall k :: 0 <= k < |m| ==> UniqueIds(e.children[k]) && IdSet(e.children[k]) !! fs[k])
      && bounds[0] == w.nextId && bounds[|m|] == e.world.nextId
      && (forall x :: x in e.freed ==> exists k :: 0 <= k < |m| && x in fs[k])
    decreases parent, 0, 2
  {
    var e := ReconcileEntries(prev, m, parent, 0, w, hex);
    EntriesCollect(prev, m, parent, w, hex);
    EntryFacts(prev, m, parent, w, hex, e.children, fs, bounds);
    FreedUnion(prev, m, parent, w, hex, fs);
  }

  /** The freed set of the list is covered by the entries' freed sets. */
  lemma FreedUnion(prev: seq<Node>, m: seq<Option<nat>>, parent: Desc, w: World, hex: string -> Color, fs: seq<set<nat>>)
    requires ValidWorld(w) && InRange(prev, m) && |m| == |parent.children|
    requires |fs| == |m|
    requires forall k :: 0 <= k < |m| ==> fs[k] == Nth(prev, m, parent, 0, w, hex, k).freed
    ensures forall x :: x in ReconcileEntries(prev, m, parent, 0, w, hex).freed ==> exists k :: 0 <= k < |m| && x in fs[k]
  {
    EntriesFreed(prev, m, parent, 0, w, hex);
    forall x | x in ReconcileEntries(prev, m, parent, 0, w, hex).freed ensures exists k :: 0 <= k < |m| && x in fs[k] {
      var k :| 0 <= k < |m| && x in Nth(prev, m, parent, 0, w, hex, k).freed;
      assert x in fs[k];
    }
  }

  /** Every identity an entry holds comes from its paired old child or the
      counter; what the entries freed comes from the old children or the
      counter, and no entry keeps any of it. */
  lemma FreedFacts(prev: seq<Node>, m: seq<Option<nat>>, cs: seq<Node>, fs: seq<set<nat>>, bounds: seq<nat>, freed: set<nat>)
    requires InRange(prev, m) && |cs| == |m| && |fs| == |m| && |bounds| == |m| + 1 && Ascending(bounds)
    requires EntriesFromOwn(prev, m, cs, fs, bounds)
    requires forall a, b :: 0 <= a < |m| && 0 <= b < |m| ==> IdSet(cs[a]) !! fs[b]
    requires forall x :: x in freed ==> exists k :: 0 <= k < |m| && x in fs[k]
    ensures forall k, x :: 0 <= k < |m| && x in IdSet(cs[k]) ==> InOwn(prev, m, k, x) || bounds[0] <= x < bounds[|m|]
    ensures forall x :: x in freed ==> x in SeqIds(prev) || bounds[0] <= x < bounds[|m|]
    ensures forall k :: 0 <= k < |m| ==> IdSet(cs[k]) !! freed
  {
    forall k, x | 0 <= k < |m| && x in IdSet(cs[k]) ensures InOwn(prev, m, k, x) || bounds[0] <= x < bounds[|m|] {
      assert bounds[0] <= bounds[k] && bounds[k + 1] <= bounds[|m|];
    }
    forall x | x in freed ensures (x in SeqIds(prev) || bounds[0] <= x < bounds[|m|]) && forall a :: 0 <= a < |m| ==> x !in IdSet(cs[a]) {
      var k :| 0 <= k < |m| && x in fs[k];
      assert bounds[0] <= bounds[k] && bounds[k + 1] <= bounds[|m|];
      forall a | 0 <= a < |m| ensures x !in IdSet(cs[a]) {
        assert IdSet(cs[a]) !! fs[k];
      }
    }
  }

  /** The facts `UniqueIds` and `IdsBelow` give about the children. */
  lemma UniqueParts(n: Node, lo: nat)
    requires UniqueIds(n) && IdsBelow(n, lo)
    ensures SiblingsDisjoint(n.children) && OldBelow(n.children, lo)
    ensures forall j :: 0 <= j < |n.children| ==> UniqueIds(n.children[j])
    ensures forall j :: 0 <= j < |n.children| ==> IdSet(n.children[j]) <= IdSet(n) && n.id !in IdSet(n.children[j])
  {
    forall j | 0 <= j < |n.children| ensures IdSet(n.children[j]) <= IdSet(n) {
      forall x | x in IdSet(n.children[j]) ensures x in SeqIds(n.children) {
      }
    }
  }

  /** Each entry, seen through the sequences of its node, its freed set and
      the counter before it. */
  lemma EntryFacts(prev: seq<Node>, m: seq<Option<nat>>, parent: Desc, w: World, hex: string -> Color,
                   cs: seq<Node>, fs: seq<set<nat>>, bounds: seq<nat>)
    requires ValidWorld(w) && InRange(prev, m) && |m| == |parent.children|
    requires forall j :: 0 <= j < |prev| ==> UniqueIds(prev[j])
    requires OldBelow(prev, w.nextId)
    requires |cs| == |m| && |fs| == |m| && |bounds| == |m| + 1
    requires forall k :: 0 <= k < |m| ==> cs[k] == Nth(prev, m, parent, 0, w, hex, k).node
    requires forall k :: 0 <= k < |m| ==> fs[k] == Nth(prev, m, parent, 0, w, hex, k).freed
    requires forall k :: 0 <= k <= |m| ==> bounds[k] == WorldAt(prev, m, parent, 0, w, hex, k).nextId
    requires forall k :: 0 <= k < |m| ==> WorldAt(prev, m, parent, 0, w, hex, k + 1) == Nth(prev, m, parent, 0, w, hex, k).world
    ensures EntriesFromOwn(prev, m, cs, fs, bounds)
    ensures forall k :: 0 <= k < |m| ==> UniqueIds(cs[k]) && IdSet(cs[k]) !! fs[k]
    ensures Ascending(bounds)
    decreases parent, 0, 1
  {
    forall k | 0 <= k < |m|
      ensures UniqueIds(cs[k]) && IdSet(cs[k]) !! fs[k]
      ensures forall x :: x in IdSet(cs[k]) ==> InOwn(prev, m, k, x) || bounds[k] <= x < bounds[k + 1]
      ensures forall x :: x in fs[k] ==> InOwn(prev, m, k, x) || bounds[k] <= x < bounds[k + 1]
    {
      var wk := WorldAt(prev, m, parent, 0, w, hex, k);
      WorldAtMonotone(prev, m, parent, 0, w, hex, 0, k);
      EntryIds(prev, m, parent, k, wk, hex);
    }
    forall a, b | 0 <= a <= b < |bounds| ensures bounds[a] <= bounds[b] {
      WorldAtMonotone(prev, m, parent, 0, w, hex, a, b);
    }
  }

  /** The conclusion of `ChildrenIds` from the list-level facts alone. */
  lemma ChildrenIdsConclude(n: Node, r: Outcome, prev: seq<Node>, m: seq<Option<nat>>, e: Entries, lo: nat)
    requires prev == n.children && UniqueIds(n) && IdsBelow(n, lo)
    requires InRange(prev, m) && |e.children| == |m| && lo <= e.world.nextId
    requires r.node.id == n.id && r.node.children == e.children && r.world == e.world
    requires r.freed == e.freed + FreedChildren(prev, m)
    requires forall k :: 0 <= k < |m| ==> UniqueIds(e.children[k])
    requires SiblingsDisjoint(e.children)
    requires forall k, x :: 0 <= k < |m| && x in IdSet(e.children[k]) ==> InOwn(prev, m, k, x) || lo <= x < e.world.nextId
    requires forall x :: x in e.freed ==> x in SeqIds(prev) || lo <= x < e.world.nextId
    requires forall k :: 0 <= k < |m| ==> IdSet(e.children[k]) !! e.freed
    requires forall k, j :: 0 <= k < |m| && 0 <= j < |prev| && Unused(m, j) ==> IdSet(e.children[k]) !! IdSet(prev[j])
    ensures forall x :: x in IdSet(r.node) ==> OldOrFresh(IdSet(n), lo, r.world.nextId, x)
    ensures forall x :: x in r.freed ==> OldOrFresh(IdSet(n), lo, r.world.nextId, x)
    ensures IdSet(r.node) !! r.freed
    ensures UniqueIds(r.node)
  {
    var cs := e.children;
    ConcludeKept(n, m, cs, lo, e.world.nextId);
    ConcludeFreed(n, cs, e.freed, lo, e.world.nextId);
    ConcludeUnused(n, m, cs);
    assert IdSet(r.node) == {n.id} + SeqIds(cs);
  }

  /** The old children's identities lie inside the parent's and miss the
      parent's own. */
  lemma OldChildIds(n: Node)
    requires UniqueIds(n)
    ensures forall j :: 0 <= j < |n.children| ==> IdSet(n.children[j]) <= IdSet(n) && n.id !in IdSet(n.children[j])
  {
    forall j | 0 <= j < |n.children| ensures IdSet(n.children[j]) <= IdSet(n) && n.id !in IdSet(n.children[j]) {
    }
  }

  /** What the new children hold is old or fresh, and never the parent's
      own identity. */
  lemma ConcludeKept(n: Node, m: seq<Option<nat>>, cs: seq<Node>, lo: nat, hi: nat)
    requires UniqueIds(n) && IdsBelow(n, lo) && InRange(n.children, m) && |cs| == |m|
    requires forall k, x :: 0 <= k < |m| && x in IdSet(cs[k]) ==> InOwn(n.children, m, k, x) || lo <= x < hi
    ensures forall x :: x in SeqIds(cs) ==> OldOrFresh(IdSet(n), lo, hi, x) && x != n.id
  {
    OldChildIds(n);
    forall x | x in SeqIds(cs) ensures OldOrFresh(IdSet(n), lo, hi, x) && x != n.id {
      var k :| 0 <= k < |cs| && x in IdSet(cs[k]);
    }
  }

  /** What the entries freed is old or fresh, never the parent's own
      identity, and held by no new child. */
  lemma ConcludeFreed(n: Node, cs: seq<Node>, freed: set<nat>, lo: nat, hi: nat)
    requires UniqueIds(n) && IdsBelow(n, lo)
    requires forall x :: x in freed ==> x in SeqIds(n.children) || lo <= x < hi
    requires forall k :: 0 <= k < |cs| ==> IdSet(cs[k]) !! freed
    ensures forall x :: x in freed ==> OldOrFresh(IdSet(n), lo, hi, x) && x != n.id && x !in SeqIds(cs)
  {
    OldChildIds(n);
    forall x | x in freed ensures OldOrFresh(IdSet(n), lo, hi, x) && x != n.id && x !in SeqIds(cs) {
      if x in SeqIds(n.children) {
        var j :| 0 <= j < |n.children| && x in IdSet(n.children[j]);
      }
      forall a | 0 <= a < |cs| ensures x !in IdSet(cs[a]) {
        assert IdSet(cs[a]) !! freed;
      }
    }
  }

  /** The old children nobody took are the parent's, not the parent
      itself, and held by no new child. */
  lemma ConcludeUnused(n: Node, m: seq<Option<nat>>, cs: seq<Node>)
    requires UniqueIds(n)
    requires forall k, j :: 0 <= k < |cs| && 0 <= j < |n.children| && Unused(m, j) ==> IdSet(cs[k]) !! IdSet(n.children[j])
    ensures forall x :: x in FreedChildren(n.children, m) ==> x in IdSet(n) && x != n.id && x !in SeqIds(cs)
  {
    OldChildIds(n);
    forall x | x in FreedChildren(n.children, m) ensures x in IdSet(n) && x != n.id && x !in SeqIds(cs) {
      var j :| 0 <= j < |n.children| && Unused(m, j) && x in IdSet(n.children[j]);
      forall a | 0 <= a < |cs| ensures x !in IdSet(cs[a]) {
        assert IdSet(cs[a]) !! IdSet(n.children[j]);
      }
    }
  }

  /** One entry: its node and what it frees come from its paired old child
      or from the counter while the entry was reconciled. */
  lemma {:induction false} EntryIds(prev: seq<Node>, m: seq<Option<nat>>, parent: Desc, k: nat, w: World, hex: string -> Color)
    requires ValidWorld(w) && InRange(prev, m)
    requires |m| == |parent.children| && k < |m|
    requires m[k].Some? ==> UniqueIds(prev[m[k].value]) && IdsBelow(prev[m[k].value], w.nextId)
    ensures var o := EntryOutcome(prev, m, parent, k, w, hex);
      && UniqueIds(o.node) && IdSet(o.node) !! o.freed
      && (forall x :: x in IdSet(o.node) ==> InOwn(prev, m, k, x) || w.nextId <= x < o.world.nextId)
      && (forall x :: x in o.freed ==> InOwn(prev, m, k, x) || w.nextId <= x < o.world.nextId)
    decreases parent, 0, 0
  {
    var base := EntryBase(prev, m[k], parent.children[k], w, hex);
    if m[k].Some? {
      ReconcileIds(base.0, parent.children[k], base.1, hex);
    } else {
      var b := Build(parent.children[k], w, hex);
      BuildIds(parent.children[k], w, hex);
      assert base.0 == b.0.(layoutDirty := true) && base.1 == b.1;
      assert IdSet(base.0) == IdSet(b.0);
      ReconcileIds(base.0, parent.children[k], base.1, hex);
    }
  }
}

=== FILE: input.dfy ===
/** Mouse input: `hitTest` finds the deepest node under a point, searching
    later children first, and `handleEvent` walks from that node towards
    the root until it meets a node whose click reference holds a function,
    and calls that one handler. */
module Input {
  import opened Base
  import opened UiTypes
  import opened Callbacks

  /** The half-open box test: the left and top edges belong to the node,
      the right and bottom edges do not. */
  predicate Inside(n: Node, x: int, y: int)
  {
    n.x <= x < n.x + n.w && n.y <= y < n.y + n.h
  }

  /** The chain of nodes `hitTest` descends through, from `n` down to the
      node it returns; `None` when the point is outside `n`. */
  function HitPath(n: Node, x: int, y: int): (r: Option<seq<Node>>)
    ensures r.Some? <==> Inside(n, x, y)
    ensures r.Some? ==> |r.value| > 0 && r.value[0] == n
    decreases n, 1
  {
    if !Inside(n, x, y) then None
    else match ChildHit(n.children, |n.children|, x, y)
      case Some((_, p)) => Some([n] + p)
      case None => Some([n])
  }

  /** The children loop of `hitTest`: children `i-1` down to 0, the first
      whose subtree is hit wins; the result names that child's index and
      the chain below it. */
  function ChildHit(cs: seq<Node>, i: nat, x: int, y: int): (r: Option<(nat, seq<Node>)>)
    requires i <= |cs|
    ensures r.None? <==> forall j :: 0 <= j < i ==> !Inside(cs[j], x, y)
    ensures r.Some? ==> r.value.0 < i && Winner(cs, i, r.value.0, x, y) && HitPath(cs[r.value.0], x, y) == Some(r.value.1)
    decreases cs, 0, i
  {
    if i == 0 then None
    else match HitPath(cs[i - 1], x, y)
      case Some(p) => Some((i - 1, p))
      case None => ChildHit(cs, i - 1, x, y)
  }

  /** Child `k` is hit and no child after it (below `i`) is. */
  predicate Winner(cs: seq<Node>, i: nat, k: nat, x: int, y: int)
    requires k < i <= |cs|
  {
    Inside(cs[k], x, y) && forall j :: k < j < i ==> !Inside(cs[j], x, y)
  }

  /** `hitTest`: no node for a null root or a point outside it; otherwise
      the last node of the hit chain. */
  function HitTest(root: Option<Node>, x: int, y: int): (r: Option<Node>)
    ensures root.None? ==> r.None?
    ensures root.Some? ==> (r.Some? <==> Inside(root.value, x, y))
  {
    match root
    case None => None
    case Some(n) =>
      match HitPath(n, x, y)
      case None => None
      case Some(p) => Some(p[|p| - 1])
  }

  /** `c` is drawn on top of every other child of `parent` that contains
      the point: it is the last such child. */
  predicate TopmostChild(parent: Node, c: Node, x: int, y: int)
  {
    exists k :: 0 <= k < |parent.children| && parent.children[k] == c && Winner(parent.children, |parent.children|, k, x, y)
  }

  /** The hit chain starts at the root, every node on it contains the
      point, each step goes to the topmost child containing the point, and
      the last node has no child containing the point. */
  predicate HitChain(p: seq<Node>, root: Node, x: int, y: int)
  {
    && |p| > 0 && p[0] == root
    && (forall j :: 0 <= j < |p| ==> Inside(p[j], x, y))
    && (forall j :: 0 <= j < |p| - 1 ==> TopmostChild(p[j], p[j + 1], x, y))
    && NoChildHit(p[|p| - 1], x, y)
  }

  /** None of the node's children contains the point. */
  predicate NoChildHit(n: Node, x: int, y: int)
  {
    forall k :: 0 <= k < |n.children| ==> !Inside(n.children[k], x, y)
  }

  lemma {:induction false} HitPathIsChain(n: Node, x: int, y: int)
    requires Inside(n, x, y)
    ensures HitChain(HitPath(n, x, y).value, n, x, y)
    decreases n
  {
    var p := HitPath(n, x, y).value;
    var q := ChildHit(n.children, |n.children|, x, y);
    if q.Some? {
      var k := q.value.0;
      var c := n.children[k];
      HitPathIsChain(c, x, y);
      assert TopmostChild(n, c, x, y);
      ChainCons(n, c, q.value.1, x, y);
      assert p == [n] + q.value.1;
    } else {
      assert p == [n];
    }
  }

  /** A hit chain below the topmost child that contains the point, with
      the parent put in front, is a hit chain of the parent. */
  lemma ChainCons(n: Node, c: Node, t: seq<Node>, x: int, y: int)
    requires Inside(n, x, y) && TopmostChild(n, c, x, y) && HitChain(t, c, x, y)
    ensures HitChain([n] + t, n, x, y)
  {
    var p := [n] + t;
    forall j | 0 <= j < |p| ensures Inside(p[j], x, y) {
      if j > 0 { assert p[j] == t[j - 1]; }
    }
    forall j | 0 <= j < |p| - 1 ensures TopmostChild(p[j], p[j + 1], x, y) {
      if j == 0 {
        assert p[1] == c;
      } else {
        assert p[j] == t[j - 1] && p[j + 1] == t[j];
      }
    }
    assert p[|p| - 1] == t[|t| - 1];
  }

  /** What `hitTest` returns: a node containing the point, reached from
      the root along topmost children, none of whose own children contains
      the point. */
  lemma HitTestSpec(root: Node, x: int, y: int)
    requires Inside(root, x, y)
    ensures var r := HitTest(Some(root), x, y);
      && r.Some? && Inside(r.value, x, y)
      && r.value == HitPath(root, x, y).value[|HitPath(root, x, y).value| - 1]
      && HitChain(HitPath(root, x, y).value, root, x, y)
      && NoChildHit(r.value, x, y)
  {
    HitPathIsChain(root, x, y);
  }

  /** Two overlapping siblings: the later one is hit. */
  lemma LaterSiblingWins()
    ensures var a := DefaultNode(1, Other("rect")).(x := 0, y := 0, w := 10, h := 10);
      var b := DefaultNode(2, Other("rect")).(x := 5, y := 5, w := 10, h := 10);
      var root := DefaultNode(0, HStack).(x := 0, y := 0, w := 100, h := 100, children := [a, b]);
      && HitTest(Some(root), 7, 7) == Some(b)
      && HitTest(Some(root), 2, 2) == Some(a)
      && HitTest(Some(root), 50, 50) == Some(root)
      && HitTest(Some(root), 100, 50).None?
  {
    var a := DefaultNode(1, Other("rect")).(x := 0, y := 0, w := 10, h := 10);
    var b := DefaultNode(2, Other("rect")).(x := 5, y := 5, w := 10, h := 10);
    var root := DefaultNode(0, HStack).(x := 0, y := 0, w := 100, h := 100, children := [a, b]);
    assert a.children == [] && b.children == [];
    assert ChildHit(root.children, 2, 7, 7) == Some((1, [b]));
    assert ChildHit(root.children, 1, 2, 2) == Some((0, [a]));
    assert ChildHit(root.children, 2, 2, 2) == Some((0, [a]));
    assert ChildHit(root.children, 2, 50, 50).None?;
  }

  // ---------------------------------------------------------------------
  // handleEvent

  datatype Event = MouseDown(x: int, y: int) | OtherEvent

  /** A handler call: the node it belongs to and the function it runs. */
  datatype Click = Click(target: nat, fid: nat)

  /** The reference is not the sentinel and the registry holds a function
      under it (a released reference reads as nil, which is skipped). */
  predicate Live(n: Node, reg: Registry)
  {
    n.onClickRef != NoRef && n.onClickRef in reg.slots
  }

  /** The walk of `handleEvent` from the end of `p` towards its start:
      the first node with a live handler is the one called, and the walk
      stops there whether the call fails or not. */
  function Bubble(p: seq<Node>, reg: Registry): (r: Option<Click>)
    ensures r.None? <==> forall j :: 0 <= j < |p| ==> !Live(p[j], reg)
    ensures r.Some? ==> exists j :: 0 <= j < |p| && Nearest(p, reg, j) && r.value == Click(p[j].id, reg.slots[p[j].onClickRef])
  {
    if |p| == 0 then None
    else
      var t := p[|p| - 1];
      if Live(t, reg) then
        assert Nearest(p, reg, |p| - 1);
        Some(Click(t.id, reg.slots[t.onClickRef]))
      else
        var q := p[..|p| - 1];
        var r := Bubble(q, reg);
        assert r.Some? ==> exists j :: 0 <= j < |p| && Nearest(p, reg, j) && r.value == Click(p[j].id, reg.slots[p[j].onClickRef]) by {
          if r.Some? {
            var j :| 0 <= j < |q| && Nearest(q, reg, j) && r.value == Click(q[j].id, reg.slots[q[j].onClickRef]);
            assert q[j] == p[j];
            forall i | j < i < |p| ensures !Live(p[i], reg) {
              if i < |q| { assert q[i] == p[i]; }
            }
            assert Nearest(p, reg, j);
          }
        }
        assert r.None? ==> forall j :: 0 <= j < |p| ==> !Live(p[j], reg) by {
          if r.None? {
            forall j | 0 <= j < |p| ensures !Live(p[j], reg) {
              if j < |q| { assert q[j] == p[j]; }
            }
          }
        }
        r
  }

  /** Node `j` has a live handler and no node after it on the chain does. */
  predicate Nearest(p: seq<Node>, reg: Registry, j: nat)
    requires j < |p|
  {
    Live(p[j], reg) && forall i :: j < i < |p| ==> !Live(p[i], reg)
  }

  /** `handleEvent`: only a mouse press does anything; it calls the live
      handler nearest to the hit node on the way to the root, if any. */
  function HandleEvent(ev: Event, root: Option<Node>, reg: Registry): (r: Option<Click>)
    ensures ev.OtherEvent? || root.None? ==> r.None?
    ensures ev.MouseDown? && root.Some? && !Inside(root.value, ev.x, ev.y) ==> r.None?
  {
    match ev
    case OtherEvent => None
    case MouseDown(x, y) =>
      if root.None? then None
      else match HitPath(root.value, x, y)
        case None => None
        case Some(p) => Bubble(p, reg)
  }

  /** A press inside the root calls a handler exactly when some node on
      the hit chain has a live one, and then the deepest such node's; a
      hit node with its own live handler shadows all its ancestors. */
  lemma HandleEventSpec(root: Node, x: int, y: int, reg: Registry)
    requires Inside(root, x, y)
    ensures var p := HitPath(root, x, y).value;
      var r := HandleEvent(MouseDown(x, y), Some(root), reg);
      && (r.Some? <==> exists j :: 0 <= j < |p| && Live(p[j], reg))
      && (r.Some? ==> exists j :: 0 <= j < |p| && Nearest(p, reg, j) && r.value == Click(p[j].id, reg.slots[p[j].onClickRef]))
      && (Live(p[|p| - 1], reg) ==> r == Some(Click(p[|p| - 1].id, reg.slots[p[|p| - 1].onClickRef])))
  {
  }

  /** With a valid registry the sentinel reference is never live, so a
      node without a handler is always passed over. */
  lemma SentinelNeverCalled(n: Node, reg: Registry)
    requires Valid(reg) && n.onClickRef == NoRef
    ensures !Live(n, reg)
  {
  }
}

=== FILE: layout.dfy ===
/** The flex/stack layout solver: a post-order `Measure` pass that computes
    intrinsic sizes and a pre-order `Compute` pass that places children,
    distributing flex growth, justifying along the main axis and aligning
    along the cross axis.  All arithmetic is on integers, as in the engine
    (flex weights are integers here; see README). */
module Layout {
  import opened Base
  import opened UiTypes

  // ---------------------------------------------------------------------
  // Outer sizes and their sums

  function OuterW(c: Node): int
  {
    c.w + c.style.margin.left + c.style.margin.right
  }

  function OuterH(c: Node): int
  {
    c.h + c.style.margin.top + c.style.margin.bottom
  }

  /** Outer size along the horizontal axis when `row`, else the vertical one. */
  function Outer(c: Node, row: bool): int
  {
    if row then OuterW(c) else OuterH(c)
  }

  function SumOuter(cs: seq<Node>, row: bool): int
  {
    if |cs| == 0 then 0 else Outer(cs[0], row) + SumOuter(cs[1..], row)
  }

  /** Running maximum starting from 0, as the engine's accumulator does. */
  function MaxOuter(cs: seq<Node>, row: bool): int
  {
    if |cs| == 0 then 0 else Max(Outer(cs[0], row), MaxOuter(cs[1..], row))
  }

  /** `spacing * (n - 1)`, only when there is at least one child. */
  function Gaps(spacing: int, count: nat): int
  {
    if count > 0 then spacing * (count - 1) else 0
  }

  function SumFlex(cs: seq<Node>): int
  {
    if |cs| == 0 then 0 else cs[0].style.flexGrow + SumFlex(cs[1..])
  }

  lemma {:induction false} SumOuterSnoc(cs: seq<Node>, c: Node, row: bool)
    ensures SumOuter(cs + [c], row) == SumOuter(cs, row) + Outer(c, row)
    decreases |cs|
  {
    if |cs| > 0 {
      assert (cs + [c])[1..] == cs[1..] + [c];
      SumOuterSnoc(cs[1..], c, row);
    }
  }

  lemma {:induction false} MaxOuterSnoc(cs: seq<Node>, c: Node, row: bool)
    ensures MaxOuter(cs + [c], row) == Max(MaxOuter(cs, row), Outer(c, row))
    decreases |cs|
  {
    if |cs| == 0 {
      assert MaxOuter([c], row) == Max(Outer(c, row), 0);
    } else {
      assert (cs + [c])[1..] == cs[1..] + [c];
      MaxOuterSnoc(cs[1..], c, row);
    }
  }

  /** The running maximum is the maximum of 0 and the children's outer
      sizes: it bounds every child and is reached by one of them unless it
      is the starting 0. */
  lemma {:induction false} MaxOuterIsMax(cs: seq<Node>, row: bool)
    ensures MaxOuter(cs, row) >= 0
    ensures forall i :: 0 <= i < |cs| ==> Outer(cs[i], row) <= MaxOuter(cs, row)
    ensures MaxOuter(cs, row) == 0 || exists i :: 0 <= i < |cs| && Outer(cs[i], row) == MaxOuter(cs, row)
    decreases |cs|
  {
    if |cs| > 0 {
      MaxOuterIsMax(cs[1..], row);
      forall i | 1 <= i < |cs|
        ensures Outer(cs[i], row) <= MaxOuter(cs, row)
      {
        assert cs[i] == cs[1..][i - 1];
      }
      if MaxOuter(cs, row) != 0 && MaxOuter(cs, row) != Outer(cs[0], row) {
        var j :| 0 <= j < |cs[1..]| && Outer(cs[1..][j], row) == MaxOuter(cs[1..], row);
        assert cs[j + 1] == cs[1..][j];
      }
    }
  }

  // ---------------------------------------------------------------------
  // Measure (post-order)

  /** Intrinsic content size (before padding) of a node of `kind` whose
      children, already measured, are `cs`: a vstack sums outer heights
      and maxes outer widths, an hstack the mirror, any other kind is 0. */
  function Content(kind: Kind, spacing: int, cs: seq<Node>): (int, int)
  {
    match kind
    case VStack => (MaxOuter(cs, true), SumOuter(cs, false) + Gaps(spacing, |cs|))
    case HStack => (SumOuter(cs, true) + Gaps(spacing, |cs|), MaxOuter(cs, false))
    case Other(_) => (0, 0)
  }

  /** The engine's accumulation loop for the content size, step by step. */
  method MeasureContent(kind: Kind, spacing: int, cs: seq<Node>) returns (contentW: int, contentH: int)
    ensures (contentW, contentH) == Content(kind, spacing, cs)
  {
    contentW, contentH := 0, 0;
    if kind == VStack {
      var i := 0;
      while i < |cs|
        invariant 0 <= i <= |cs|
        invariant contentH == SumOuter(cs[..i], false)
        invariant contentW == MaxOuter(cs[..i], true)
      {
        assert cs[..i + 1] == cs[..i] + [cs[i]];
        SumOuterSnoc(cs[..i], cs[i], false);
        MaxOuterSnoc(cs[..i], cs[i], true);
        contentH := contentH + OuterH(cs[i]);
        contentW := Max(contentW, OuterW(cs[i]));
        i := i + 1;
      }
      assert cs[..i] == cs;
      if |cs| > 0 {
        contentH := contentH + spacing * (|cs| - 1);
      }
    } else if kind == HStack {
      var i := 0;
      while i < |cs|
        invariant 0 <= i <= |cs|
        invariant contentW == SumOuter(cs[..i], true)
        invariant contentH == MaxOuter(cs[..i], false)
      {
        assert cs[..i + 1] == cs[..i] + [cs[i]];
        SumOuterSnoc(cs[..i], cs[i], true);
        MaxOuterSnoc(cs[..i], cs[i], false);
        contentW := contentW + OuterW(cs[i]);
        contentH := Max(contentH, OuterH(cs[i]));
        i := i + 1;
      }
      assert cs[..i] == cs;
      if |cs| > 0 {
        contentW := contentW + spacing * (|cs| - 1);
      }
    }
  }

  /** Size a node whose children, already measured, are `cs`: its padded
      content size replaces a zero width/height, then both are clamped. */
  function Resize(n: Node, cs: seq<Node>): (r: Node)
    ensures r.w >= n.style.minWidth && r.h >= n.style.minHeight
    ensures n.style.minWidth <= n.style.maxWidth ==> r.w <= n.style.maxWidth
    ensures n.style.minHeight <= n.style.maxHeight ==> r.h <= n.style.maxHeight
    ensures n.w != 0 && n.style.minWidth <= n.w <= n.style.maxWidth ==> r.w == n.w
    ensures n.h != 0 && n.style.minHeight <= n.h <= n.style.maxHeight ==> r.h == n.h
    ensures SameAttrs(r, n) && r.x == n.x && r.y == n.y && r.children == cs
  {
    var content := Content(n.kind, n.style.spacing, cs);
    var pad := n.style.padding;
    var w := if n.w == 0 then content.0 + pad.left + pad.right else n.w;
    var h := if n.h == 0 then content.1 + pad.top + pad.bottom else n.h;
    n.(w := Clamp(w, n.style.minWidth, n.style.maxWidth),
       h := Clamp(h, n.style.minHeight, n.style.maxHeight),
       children := cs)
  }

  /** Measure a subtree: children first, then the node itself. */
  function Measure(n: Node): (r: Node)
    ensures r.w >= n.style.minWidth && r.h >= n.style.minHeight
    ensures n.style.minWidth <= n.style.maxWidth ==> r.w <= n.style.maxWidth
    ensures n.style.minHeight <= n.style.maxHeight ==> r.h <= n.style.maxHeight
    ensures n.w != 0 && n.style.minWidth <= n.w <= n.style.maxWidth ==> r.w == n.w
    ensures n.h != 0 && n.style.minHeight <= n.h <= n.style.maxHeight ==> r.h == n.h
    ensures |r.children| == |n.children|
    ensures SameAttrs(r, n) && r.x == n.x && r.y == n.y
    // an unset size is derived from the MEASURED children (post-order)
    ensures n.w == 0 ==> r.w == Clamp(Content(n.kind, n.style.spacing, r.children).0 + n.style.padding.left + n.style.padding.right,
                                      n.style.minWidth, n.style.maxWidth)
    ensures n.h == 0 ==> r.h == Clamp(Content(n.kind, n.style.spacing, r.children).1 + n.style.padding.top + n.style.padding.bottom,
                                      n.style.minHeight, n.style.maxHeight)
    decreases n, 1
  {
    Resize(n, MeasureAll(n.children))
  }

  /** Measure every node of `cs`, in order. */
  function MeasureAll(cs: seq<Node>): (rs: seq<Node>)
    ensures |rs| == |cs|
    ensures forall i :: 0 <= i < |cs| ==> rs[i] == Measure(cs[i])
    decreases cs, 0
  {
    if |cs| == 0 then [] else [Measure(cs[0])] + MeasureAll(cs[1..])
  }

  /** Post-order: every child of the result is that child measured. */
  lemma MeasureIsPostOrder(n: Node)
    ensures forall i :: 0 <= i < |n.children| ==> Measure(n).children[i] == Measure(n.children[i])
  {
  }

  /** A vstack with unset height: the sum of the children's outer heights
      plus spacing between them plus vertical padding, clamped. */
  lemma {:induction false} MeasureVStackHeight(n: Node)
    requires n.kind == VStack && n.h == 0
    ensures Measure(n).h == Clamp(SumOuter(Measure(n).children, false) + Gaps(n.style.spacing, |n.children|)
                                  + n.style.padding.top + n.style.padding.bottom, n.style.minHeight, n.style.maxHeight)
  {
    var r := Measure(n);
    var pad := n.style.padding;
    var main := SumOuter(r.children, false) + Gaps(n.style.spacing, |n.children|);
    assert r.h == Clamp(Content(n.kind, n.style.spacing, r.children).1 + pad.top + pad.bottom, n.style.minHeight, n.style.maxHeight);
    assert Content(n.kind, n.style.spacing, r.children).1 == main;
  }

  /** A vstack with unset width: the widest child's outer width plus
      horizontal padding, clamped. */
  lemma {:induction false} MeasureVStackWidth(n: Node)
    requires n.kind == VStack && n.w == 0
    ensures Measure(n).w == Clamp(MaxOuter(Measure(n).children, true) + n.style.padding.left + n.style.padding.right,
                                  n.style.minWidth, n.style.maxWidth)
  {
    var r := Measure(n);
    var pad := n.style.padding;
    var cross := MaxOuter(r.children, true);
    assert r.w == Clamp(Content(n.kind, n.style.spacing, r.children).0 + pad.left + pad.right, n.style.minWidth, n.style.maxWidth);
    assert Content(n.kind, n.style.spacing, r.children).0 == cross;
  }

  /** Non-stack nodes have zero content: only padding contributes. */
  lemma {:induction false} MeasureLeafKind(n: Node)
    requires n.kind.Other? && n.w == 0 && n.h == 0
    ensures var pad := n.style.padding;
      && Measure(n).w == Clamp(pad.left + pad.right, n.style.minWidth, n.style.maxWidth)
      && Measure(n).h == Clamp(pad.top + pad.bottom, n.style.minHeight, n.style.maxHeight)
  {
  }

  /** Sizes are non-negative and every clamp interval is sane, everywhere
      in the subtree. */
  predicate WellSized(n: Node)
  {
    && SaneClamps(n.style)
    && n.w >= 0 && n.h >= 0
    && forall i :: 0 <= i < |n.children| ==> WellSized(n.children[i])
  }

  /** Re-measuring an unchanged tree changes nothing. */
  lemma {:induction false} MeasureIdempotent(n: Node)
    requires WellSized(n)
    ensures Measure(Measure(n)) == Measure(n)
  {
    var r := Measure(n);
    var rr := Measure(r);
    forall i | 0 <= i < |n.children|
      ensures rr.children[i] == r.children[i]
    {
      MeasureIdempotent(n.children[i]);
    }
    assert rr.children == r.children;
  }

  /** Without the non-negative sizes the promise fails: a width of -5 is
      clamped up to the minimum 0 by the first pass, and the second pass
      then reads 0 as unset and takes the padding, 30. */
  lemma NegativeWidthNotIdempotent()
    ensures var n := DefaultNode(0, Other("rect")).(w := -5, style := DefaultStyle.(padding := Edges(15, 15, 15, 15, 15)));
      Measure(n).w == 0 && Measure(Measure(n)).w == 30
  {
    var n := DefaultNode(0, Other("rect")).(w := -5, style := DefaultStyle.(padding := Edges(15, 15, 15, 15, 15)));
    assert MeasureAll(n.children) == [];
    assert MeasureAll(Measure(n).children) == [];
  }

  // ---------------------------------------------------------------------
  // Compute (pre-order)

  /** What a parent decides once for all of its children. */
  datatype Frame = Frame(
    row: bool,        // an hstack lays out horizontally, everything else vertically
    innerX: int,
    innerY: int,
    innerW: int,
    innerH: int,
    flex: bool,       // flex growth is distributed
    free: int,        // free main-axis space before growth
    totalFlex: int,
    start: int,       // justify offset before the first child
    gap: int,         // main-axis gap between consecutive children
    align: Align)

  function InnerMain(fr: Frame): int
  {
    if fr.row then fr.innerW else fr.innerH
  }

  /** Start offset and gap chosen by `justifyContent` when no child has
      flex weight; `used` includes the spacing between children. */
  function JustifyOffsets(j: Justify, innerMain: int, used: int, spacing: int, count: nat): (int, int)
  {
    var children := used - spacing * (count - 1);
    if j == Justify.Center then (CDiv(innerMain - used, 2), spacing)
    else if j == Justify.End then (innerMain - used, spacing)
    else if j == Justify.SpaceBetween && count > 1 then (0, CDiv(innerMain - children, count - 1))
    else if j == Justify.SpaceAround && count > 0 then
      var gap := CDiv(innerMain - children, count); (CDiv(gap, 2), gap)
    else if j == Justify.SpaceEvenly && count > 0 then
      var gap := CDiv(innerMain - children, count + 1); (gap, gap)
    else (0, spacing)
  }

  function MakeFrame(n: Node, x: int, y: int, w: int, h: int): Frame
  {
    var pad := n.style.padding;
    var row := n.kind == HStack;
    var innerW := w - pad.left - pad.right;
    var innerH := h - pad.top - pad.bottom;
    var innerMain := if row then innerW else innerH;
    var count := |n.children|;
    var used := SumOuter(n.children, row) + Gaps(n.style.spacing, count);
    var free := innerMain - used;
    var total := SumFlex(n.children);
    var flex := total > 0 && free > 0;
    var usedAfter := if flex then innerMain else used;
    var offsets := if total == 0 then JustifyOffsets(n.style.justifyContent, innerMain, usedAfter, n.style.spacing, count)
                   else (0, n.style.spacing);
    Frame(row, x + pad.left, y + pad.top, innerW, innerH, flex, free, total, offsets.0, offsets.1, n.style.alignItems)
  }

  /** The truncated share `flexGrow / total * free` of a growing child. */
  function Share(weight: int, free: int, total: int): int
    requires weight > 0 && free > 0 && total > 0
  {
    (weight * free) / total
  }

  /** How much a child grows along the main axis. */
  function Growth(fr: Frame, c: Node): int
  {
    if fr.flex && c.style.flexGrow > 0 && fr.free > 0 && fr.totalFlex > 0
    then Share(c.style.flexGrow, fr.free, fr.totalFlex) else 0
  }

  /** The width the parent hands a child: grown in a row, stretched in a
      column with `stretch` alignment, else unchanged. */
  function ChildW(fr: Frame, c: Node): int
  {
    if fr.row then c.w + Growth(fr, c)
    else if fr.align == Align.Stretch then fr.innerW - c.style.margin.left - c.style.margin.right
    else c.w
  }

  function ChildH(fr: Frame, c: Node): int
  {
    if !fr.row then c.h + Growth(fr, c)
    else if fr.align == Align.Stretch then fr.innerH - c.style.margin.top - c.style.margin.bottom
    else c.h
  }

  /** Cross-axis coordinate of a child: its y in a row, its x in a column. */
  function CrossPos(fr: Frame, c: Node): int
  {
    var m := c.style.margin;
    if fr.row then
      (if fr.align == Align.Center then fr.innerY + CDiv(fr.innerH - c.h, 2)
       else if fr.align == Align.End then fr.innerY + fr.innerH - c.h - m.bottom
       else fr.innerY + m.top)
    else
      (if fr.align == Align.Center then fr.innerX + CDiv(fr.innerW - c.w, 2)
       else if fr.align == Align.End then fr.innerX + fr.innerW - c.w - m.right
       else fr.innerX + m.left)
  }

  /** Leading main-axis margin. */
  function Lead(fr: Frame, c: Node): int
  {
    if fr.row then c.style.margin.left else c.style.margin.top
  }

  /** Main-axis outer size of a child after growth. */
  function GrownOuter(fr: Frame, c: Node): int
  {
    Outer(c, fr.row) + Growth(fr, c)
  }

  /** Main-axis coordinate of a placed node. */
  function MainPos(fr: Frame, r: Node): int
  {
    if fr.row then r.x else r.y
  }

  /** Cross-axis coordinate of a placed node. */
  function CrossPosOf(fr: Frame, r: Node): int
  {
    if fr.row then r.y else r.x
  }

  /** Place `n` with its box at (x, y) sized w × h, and its subtree. */
  function Place(n: Node, x: int, y: int, w: int, h: int): (r: Node)
    ensures SameAttrs(r, n) && r.x == x && r.y == y && r.w == w && r.h == h
    ensures |r.children| == |n.children|
    decreases n, 1
  {
    var fr := MakeFrame(n, x, y, w, h);
    var cursor := if fr.row then fr.innerX + fr.start else fr.innerY + fr.start;
    n.(x := x, y := y, w := w, h := h, children := PlaceChildren(n, fr, 0, cursor))
  }

  /** Place children `i..` of `n`, the main-axis cursor standing at `cursor`. */
  function PlaceChildren(n: Node, fr: Frame, i: nat, cursor: int): (rs: seq<Node>)
    requires i <= |n.children|
    ensures |rs| == |n.children| - i
    ensures forall k :: i <= k < |n.children| ==>
      var c := n.children[k];
      && SameAttrs(rs[k - i], c) && rs[k - i].w == ChildW(fr, c) && rs[k - i].h == ChildH(fr, c)
      && CrossPosOf(fr, rs[k - i]) == CrossPos(fr, c)
      && |rs[k - i].children| == |c.children|
    decreases n, 0, |n.children| - i
  {
    if i == |n.children| then []
    else
      var c := n.children[i];
      var main := cursor + Lead(fr, c);
      var cross := CrossPos(fr, c);
      var placed := if fr.row then Place(c, main, cross, ChildW(fr, c), ChildH(fr, c))
                    else Place(c, cross, main, ChildW(fr, c), ChildH(fr, c));
      [placed] + PlaceChildren(n, fr, i + 1, cursor + GrownOuter(fr, c) + fr.gap)
  }

  /** Lay out the subtree with its origin at (x, y), keeping its own size. */
  function Compute(n: Node, x: int, y: int): (r: Node)
    ensures r.x == x && r.y == y && r.w == n.w && r.h == n.h
    ensures |r.children| == |n.children|
    ensures SameAttrs(r, n)
  {
    Place(n, x, y, n.w, n.h)
  }

  /** Sum of `GrownOuter + gap` over cs: how far the cursor moves past them. */
  function Advance(fr: Frame, cs: seq<Node>): int
  {
    if |cs| == 0 then 0 else GrownOuter(fr, cs[0]) + fr.gap + Advance(fr, cs[1..])
  }

  /** Closed form of the cursor: child k starts after the outer sizes and
      gaps of every earlier child, plus its own leading margin. */
  lemma {:induction false} PlaceChildrenMainPos(n: Node, fr: Frame, i: nat, cursor: int)
    requires i <= |n.children|
    ensures var rs := PlaceChildren(n, fr, i, cursor);
      forall k :: i <= k < |n.children| ==>
        MainPos(fr, rs[k - i]) == cursor + Advance(fr, n.children[i..k]) + Lead(fr, n.children[k])
    decreases |n.children| - i
  {
    if i < |n.children| {
      var rs := PlaceChildren(n, fr, i, cursor);
      var c := n.children[i];
      var next := cursor + GrownOuter(fr, c) + fr.gap;
      PlaceChildrenMainPos(n, fr, i + 1, next);
      var tail := PlaceChildren(n, fr, i + 1, next);
      assert rs == [rs[0]] + tail;
      forall k | i <= k < |n.children|
        ensures MainPos(fr, rs[k - i]) == cursor + Advance(fr, n.children[i..k]) + Lead(fr, n.children[k])
      {
        if k == i {
          assert n.children[i..k] == [];
        } else {
          assert rs[k - i] == tail[k - (i + 1)];
          assert n.children[i..k][1..] == n.children[i + 1..k];
        }
      }
    }
  }

  /** Origin of child k of a computed node, stated without the cursor. */
  function ChildMainPos(n: Node, x: int, y: int, k: nat): int
    requires k <= |n.children|
  {
    var fr := MakeFrame(n, x, y, n.w, n.h);
    (if fr.row then fr.innerX else fr.innerY) + fr.start + Advance(fr, n.children[..k])
  }

  /** Every child of a computed node sits at the justify offset plus the
      advance of the children before it plus its leading margin, and at
      the cross position its parent's alignment gives. */
  lemma ComputeChildOrigins(n: Node, x: int, y: int)
    ensures var r := Compute(n, x, y);
      var fr := MakeFrame(n, x, y, n.w, n.h);
      forall k :: 0 <= k < |n.children| ==>
        && MainPos(fr, r.children[k]) == ChildMainPos(n, x, y, k) + Lead(fr, n.children[k])
        && CrossPosOf(fr, r.children[k]) == CrossPos(fr, n.children[k])
  {
    var fr := MakeFrame(n, x, y, n.w, n.h);
    var cursor := if fr.row then fr.innerX + fr.start else fr.innerY + fr.start;
    var rs := PlaceChildren(n, fr, 0, cursor);
    assert Compute(n, x, y).children == rs;
    PlaceChildrenMainPos(n, fr, 0, cursor);
    forall k | 0 <= k < |n.children| ensures MainPos(fr, rs[k]) == ChildMainPos(n, x, y, k) + Lead(fr, n.children[k]) {
      assert n.children[0..k] == n.children[..k];
    }
  }

  // ---------------------------------------------------------------------
  // Flex growth

  function SumGrowth(fr: Frame, cs: seq<Node>): int
  {
    if |cs| == 0 then 0 else Growth(fr, cs[0]) + SumGrowth(fr, cs[1..])
  }

  predicate NonNegativeWeights(cs: seq<Node>)
  {
    forall i :: 0 <= i < |cs| ==> cs[i].style.flexGrow >= 0
  }

  lemma FloorSuperAdditive(a: int, b: int, t: int)
    requires a >= 0 && b >= 0 && t > 0
    ensures a / t + b / t <= (a + b) / t
  {
    var qa, ra := a / t, a % t;
    var qb, rb := b / t, b % t;
    assert a + b == (qa + qb) * t + (ra + rb);
    assert 0 <= ra + rb;
    DivLowerBound(a + b, qa + qb, t);
  }

  /** If q * t <= x then q <= x / t. */
  lemma DivLowerBound(x: int, q: int, t: int)
    requires t > 0 && q * t <= x
    ensures q <= x / t
  {
    var d := x / t;
    var r := x % t;
    assert x == d * t + r && r < t;
    assert (d + 1 - q) * t == (d + 1) * t - q * t;
    assert (d + 1 - q) * t > 0;
    PositiveFactor(d + 1 - q, t);
  }

  /** A product with a positive factor is positive only if the other one is. */
  lemma PositiveFactor(a: int, t: int)
    requires t > 0 && a * t > 0
    ensures a > 0
  {
  }

  lemma MulDivCancel(t: int, f: int)
    requires t > 0
    ensures (t * f) / t == f
  {
    var x := t * f;
    assert x == f * t + 0;
    DivLowerBound(x, f, t);
    var d := x / t;
    assert x == d * t + x % t;
    assert d * t <= f * t;
    assert (d - f) * t <= 0;
  }

  /** The shares handed out never add up to more than the weighted total. */
  lemma {:induction false} SumGrowthBound(fr: Frame, cs: seq<Node>)
    requires fr.flex && fr.free > 0 && fr.totalFlex > 0
    requires NonNegativeWeights(cs)
    ensures SumGrowth(fr, cs) <= (SumFlex(cs) * fr.free) / fr.totalFlex
    ensures SumFlex(cs) >= 0
    decreases |cs|
  {
    if |cs| > 0 {
      assert NonNegativeWeights(cs[1..]) by {
        forall i | 0 <= i < |cs[1..]| ensures cs[1..][i].style.flexGrow >= 0 {
          assert cs[1..][i] == cs[i + 1];
        }
      }
      SumGrowthBound(fr, cs[1..]);
      var a := cs[0].style.flexGrow * fr.free;
      var b := SumFlex(cs[1..]) * fr.free;
      assert a >= 0 && b >= 0;
      FloorSuperAdditive(a, b, fr.totalFlex);
      assert a + b == SumFlex(cs) * fr.free;
    }
  }

  /** Flex distribution never hands out more than the free space, and
      children without weight keep their main-axis size. */
  lemma FlexFitsFreeSpace(n: Node, x: int, y: int)
    requires NonNegativeWeights(n.children)
    ensures var fr := MakeFrame(n, x, y, n.w, n.h);
      && (fr.flex ==> 0 <= SumGrowth(fr, n.children) <= fr.free)
      && (fr.flex ==> SumOuter(n.children, fr.row) + SumGrowth(fr, n.children) + Gaps(n.style.spacing, |n.children|) <= InnerMain(fr))
  {
    var fr := MakeFrame(n, x, y, n.w, n.h);
    if fr.flex {
      assert fr.totalFlex == SumFlex(n.children);
      assert fr.free == InnerMain(fr) - SumOuter(n.children, fr.row) - Gaps(n.style.spacing, |n.children|);
      SumGrowthBound(fr, n.children);
      MulDivCancel(fr.totalFlex, fr.free);
      SumGrowthNonNegative(fr, n.children);
    }
  }

  /** Two children of weights 2 and -1 with 10 pixels free: the total
      weight is 1, so the first child alone takes 20. */
  lemma PairGrowth(fr: Frame, a: Node, b: Node)
    requires fr.flex && fr.free == 10 && fr.totalFlex == 1
    requires a.style.flexGrow == 2 && b.style.flexGrow == -1
    ensures SumGrowth(fr, [a, b]) == 20
  {
    assert [a, b][0] == a && [a, b][1..] == [b] && [b][0] == b && [b][1..] == [];
    assert Growth(fr, a) == 20 && Growth(fr, b) == 0;
    assert SumGrowth(fr, [b]) == Growth(fr, b) + SumGrowth(fr, []);
    assert SumGrowth(fr, [a, b]) == Growth(fr, a) + SumGrowth(fr, [b]);
  }

  lemma PairSums(a: Node, b: Node, row: bool)
    ensures SumFlex([a, b]) == a.style.flexGrow + b.style.flexGrow
    ensures SumOuter([a, b], row) == Outer(a, row) + Outer(b, row)
  {
    assert [a, b][0] == a && [a, b][1..] == [b] && [b][0] == b && [b][1..] == [];
    assert SumFlex([b]) == b.style.flexGrow + SumFlex([]);
    assert SumFlex([a, b]) == a.style.flexGrow + SumFlex([b]);
    assert SumOuter([b], row) == Outer(b, row) + SumOuter([], row);
    assert SumOuter([a, b], row) == Outer(a, row) + SumOuter([b], row);
  }

  /** Without the non-negative weights the bound fails: a weight of -1
      lowers the total without growing its own child, so with 10 pixels
      free the weights 2 and -1 hand out 20, past the end of the inner
      box. */
  lemma NegativeWeightOvershoots(n: Node, x: int, y: int)
    requires |n.children| == 2 && n.children[0].style.flexGrow == 2 && n.children[1].style.flexGrow == -1
    requires MakeFrame(n, x, y, n.w, n.h).free == 10
    ensures var fr := MakeFrame(n, x, y, n.w, n.h);
      && fr.flex && fr.totalFlex == 1
      && SumGrowth(fr, n.children) == 20
      && SumOuter(n.children, fr.row) + SumGrowth(fr, n.children) + Gaps(n.style.spacing, |n.children|) > InnerMain(fr)
  {
    var fr := MakeFrame(n, x, y, n.w, n.h);
    assert n.children == [n.children[0], n.children[1]];
    PairSums(n.children[0], n.children[1], fr.row);
    PairGrowth(fr, n.children[0], n.children[1]);
  }

  /** Children without flex weight keep their main-axis size. */
  lemma UnweightedKeepSize(n: Node, x: int, y: int)
    ensures var fr := MakeFrame(n, x, y, n.w, n.h);
      forall k :: 0 <= k < |n.children| && n.children[k].style.flexGrow == 0 ==>
        (if fr.row then ChildW(fr, n.children[k]) == n.children[k].w else ChildH(fr, n.children[k]) == n.children[k].h)
  {
  }

  lemma {:induction false} SumGrowthNonNegative(fr: Frame, cs: seq<Node>)
    ensures SumGrowth(fr, cs) >= 0
    decreases |cs|
  {
    if |cs| > 0 {
      SumGrowthNonNegative(fr, cs[1..]);
    }
  }

  /** In a computed node where flex applies, every weighted child grows by
      its truncated share of the free space along the main axis; the cross
      size follows the alignment. */
  lemma ComputeFlexSizes(n: Node, x: int, y: int)
    ensures var r := Compute(n, x, y);
      var fr := MakeFrame(n, x, y, n.w, n.h);
      forall k :: 0 <= k < |n.children| ==>
        var c := n.children[k];
        var add := if fr.flex && c.style.flexGrow > 0 then (c.style.flexGrow * fr.free) / fr.totalFlex else 0;
        && (fr.row ==> r.children[k].w == c.w + add)
        && (!fr.row ==> r.children[k].h == c.h + add)
  {
  }

  /** Flex is used only with positive total weight and positive free
      space; justification only with zero total weight. */
  lemma FlexAndJustifyExclusive(n: Node, x: int, y: int)
    ensures var fr := MakeFrame(n, x, y, n.w, n.h);
      && (fr.flex <==> SumFlex(n.children) > 0 && fr.free > 0)
      && (SumFlex(n.children) != 0 ==> fr.start == 0 && fr.gap == n.style.spacing)
  {
  }

  // ---------------------------------------------------------------------
  // Justification consequences

  /** Where the block of children ends along the main axis: the outer end of
      the last child. */
  function BlockEnd(n: Node, x: int, y: int): int
    requires |n.children| > 0
  {
    var fr := MakeFrame(n, x, y, n.w, n.h);
    var last := |n.children| - 1;
    ChildMainPos(n, x, y, last) + GrownOuter(fr, n.children[last])
  }

  function InnerStart(fr: Frame): int
  {
    if fr.row then fr.innerX else fr.innerY
  }

  lemma {:induction false} AdvanceNoFlex(fr: Frame, cs: seq<Node>)
    requires !fr.flex
    ensures Advance(fr, cs) == SumOuter(cs, fr.row) + |cs| * fr.gap
    decreases |cs|
  {
    if |cs| > 0 {
      AdvanceNoFlex(fr, cs[1..]);
    }
  }

  lemma {:induction false} AdvanceGrown(fr: Frame, cs: seq<Node>)
    ensures Advance(fr, cs) == SumOuter(cs, fr.row) + SumGrowth(fr, cs) + |cs| * fr.gap
    decreases |cs|
  {
    if |cs| > 0 {
      AdvanceGrown(fr, cs[1..]);
    }
  }

  lemma {:induction false} SumOuterPrefix(cs: seq<Node>, row: bool)
    requires |cs| > 0
    ensures SumOuter(cs[..|cs| - 1], row) + Outer(cs[|cs| - 1], row) == SumOuter(cs, row)
  {
    SumOuterSnoc(cs[..|cs| - 1], cs[|cs| - 1], row);
    assert cs[..|cs| - 1] + [cs[|cs| - 1]] == cs;
  }

  /** The main-axis end of the children block: start offset, all outer
      sizes with growth, and the gaps between them. */
  lemma BlockEndFormula(n: Node, x: int, y: int)
    requires |n.children| > 0
    ensures var fr := MakeFrame(n, x, y, n.w, n.h);
      BlockEnd(n, x, y) == InnerStart(fr) + fr.start + SumOuter(n.children, fr.row)
                           + SumGrowth(fr, n.children) + (|n.children| - 1) * fr.gap
  {
    var fr := MakeFrame(n, x, y, n.w, n.h);
    var cs := n.children;
    var last := |cs| - 1;
    AdvanceGrown(fr, cs[..last]);
    SumOuterPrefix(cs, fr.row);
    SumGrowthSnoc(fr, cs[..last], cs[last]);
    assert cs[..last] + [cs[last]] == cs;
  }

  lemma {:induction false} SumGrowthSnoc(fr: Frame, cs: seq<Node>, c: Node)
    ensures SumGrowth(fr, cs + [c]) == SumGrowth(fr, cs) + Growth(fr, c)
    decreases |cs|
  {
    if |cs| > 0 {
      assert (cs + [c])[1..] == cs[1..] + [c];
      SumGrowthSnoc(fr, cs[1..], c);
    }
  }

  /** `end`: with no flex weight the children end flush with the inner box. */
  lemma JustifyEndIsFlush(n: Node, x: int, y: int)
    requires |n.children| > 0
    requires SumFlex(n.children) == 0
    requires n.style.justifyContent == Justify.End
    ensures var fr := MakeFrame(n, x, y, n.w, n.h);
      BlockEnd(n, x, y) == InnerStart(fr) + InnerMain(fr)
  {
    var fr := MakeFrame(n, x, y, n.w, n.h);
    BlockEndFormula(n, x, y);
    SumGrowthZeroWithoutFlex(fr, n.children);
  }

  /** `start` and `center`: the gap stays the spacing; `start` begins at the
      inner start, and `center` begins half the free space in, so that when
      the free space is even and non-negative the space left before the
      first child equals the space right of the last. */
  lemma JustifyStartAndCenter(n: Node, x: int, y: int)
    requires |n.children| > 0
    requires SumFlex(n.children) == 0
    ensures var fr := MakeFrame(n, x, y, n.w, n.h);
      && (n.style.justifyContent == Justify.Start ==>
            fr.start == 0 && fr.gap == n.style.spacing && ChildMainPos(n, x, y, 0) == InnerStart(fr))
      && (n.style.justifyContent == Justify.Center ==> fr.start == CDiv(fr.free, 2) && fr.gap == n.style.spacing)
      && (n.style.justifyContent == Justify.Center && fr.free >= 0 && fr.free % 2 == 0 ==>
            ChildMainPos(n, x, y, 0) - InnerStart(fr) == InnerStart(fr) + InnerMain(fr) - BlockEnd(n, x, y))
  {
    var fr := MakeFrame(n, x, y, n.w, n.h);
    assert n.children[..0] == [];
    BlockEndFormula(n, x, y);
    SumGrowthZeroWithoutFlex(fr, n.children);
  }

  lemma {:induction false} SumGrowthZeroWithoutFlex(fr: Frame, cs: seq<Node>)
    requires !fr.flex
    ensures SumGrowth(fr, cs) == 0
    decreases |cs|
  {
    if |cs| > 0 {
      SumGrowthZeroWithoutFlex(fr, cs[1..]);
    }
  }

  /** `space-between`: the first child starts at the inner start and, when
      the free space divides evenly, the last ends at the inner end. */
  lemma SpaceBetweenSpansInnerBox(n: Node, x: int, y: int)
    requires |n.children| > 1
    requires SumFlex(n.children) == 0
    requires n.style.justifyContent == Justify.SpaceBetween
    ensures var fr := MakeFrame(n, x, y, n.w, n.h);
      && ChildMainPos(n, x, y, 0) == InnerStart(fr)
      && ((InnerMain(fr) - SumOuter(n.children, fr.row)) % (|n.children| - 1) == 0 ==>
           BlockEnd(n, x, y) == InnerStart(fr) + InnerMain(fr))
  {
    var fr := MakeFrame(n, x, y, n.w, n.h);
    var count := |n.children|;
    var spare := InnerMain(fr) - SumOuter(n.children, fr.row);
    SpaceBetweenFrame(n, x, y);
    assert n.children[..0] == [];
    BlockEndFormula(n, x, y);
    SumGrowthZeroWithoutFlex(fr, n.children);
    if spare % (count - 1) == 0 {
      DivExact(spare, count - 1);
    }
  }

  lemma SpaceBetweenFrame(n: Node, x: int, y: int)
    requires |n.children| > 1
    requires SumFlex(n.children) == 0
    requires n.style.justifyContent == Justify.SpaceBetween
    ensures var fr := MakeFrame(n, x, y, n.w, n.h);
      && !fr.flex && fr.start == 0
      && fr.gap == CDiv(InnerMain(fr) - SumOuter(n.children, fr.row), |n.children| - 1)
  {
  }

  lemma DivExact(a: int, b: int)
    requires b > 0 && a % b == 0
    ensures CDiv(a, b) * b == a
  {
    var q := a / b;
    assert a == q * b + a % b;
    if a < 0 {
      assert -a == b * (-q);
      MulDivCancel(b, -q);
    }
  }

  /** `space-evenly`: the first child starts one gap in. */
  lemma SpaceEvenlyStartsOneGapIn(n: Node, x: int, y: int)
    requires |n.children| > 0
    requires SumFlex(n.children) == 0
    requires n.style.justifyContent == Justify.SpaceEvenly
    ensures var fr := MakeFrame(n, x, y, n.w, n.h);
      && fr.start == fr.gap
      && fr.gap == CDiv(InnerMain(fr) - SumOuter(n.children, fr.row), |n.children| + 1)
      && ChildMainPos(n, x, y, 0) == InnerStart(fr) + fr.gap
  {
    assert n.children[..0] == [];
  }

  /** `space-around`: half a gap before the first child, a full gap between. */
  lemma SpaceAroundHalfGap(n: Node, x: int, y: int)
    requires |n.children| > 0
    requires SumFlex(n.children) == 0
    requires n.style.justifyContent == Justify.SpaceAround
    ensures var fr := MakeFrame(n, x, y, n.w, n.h);
      && fr.gap == CDiv(InnerMain(fr) - SumOuter(n.children, fr.row), |n.children|)
      && fr.start == CDiv(fr.gap, 2)
  {
  }

  /** Alignment on the cross axis: `stretch` overwrites the child's cross
      size to the inner size minus its cross margins; `center` and `end`
      only move it; `start` puts it at the inner edge plus its margin. */
  lemma ComputeCrossAxis(n: Node, x: int, y: int)
    ensures var r := Compute(n, x, y);
      var fr := MakeFrame(n, x, y, n.w, n.h);
      forall k :: 0 <= k < |n.children| ==>
        var c := n.children[k];
        var m := c.style.margin;
        && (fr.align == Align.Stretch && fr.row ==> r.children[k].h == fr.innerH - m.top - m.bottom)
        && (fr.align == Align.Stretch && !fr.row ==> r.children[k].w == fr.innerW - m.left - m.right)
        && (fr.align != Align.Stretch && fr.row ==> r.children[k].h == c.h)
        && (fr.align != Align.Stretch && !fr.row ==> r.children[k].w == c.w)
        && (fr.align == Align.Start || fr.align == Align.Stretch ==>
              CrossPosOf(fr, r.children[k]) == (if fr.row then fr.innerY + m.top else fr.innerX + m.left))
        && (fr.align == Align.End && fr.row ==> r.children[k].y + c.h + m.bottom == fr.innerY + fr.innerH)
        && (fr.align == Align.End && !fr.row ==> r.children[k].x + c.w + m.right == fr.innerX + fr.innerW)
        && (fr.align == Align.Center && fr.row ==> r.children[k].y == fr.innerY + CDiv(fr.innerH - c.h, 2))
        && (fr.align == Align.Center && !fr.row ==> r.children[k].x == fr.innerX + CDiv(fr.innerW - c.w, 2))
  {
  }

  /** The inner box is the node's box less its padding. */
  lemma FrameInnerBox(n: Node, x: int, y: int)
    ensures var fr := MakeFrame(n, x, y, n.w, n.h);
      var p := n.style.padding;
      && fr.innerX == x + p.left && fr.innerY == y + p.top
      && fr.innerW == n.w - p.left - p.right && fr.innerH == n.h - p.top - p.bottom
      && fr.free == InnerMain(fr) - SumOuter(n.children, fr.row) - Gaps(n.style.spacing, |n.children|)
  {
  }
}

=== FILE: legacy.dfy ===
/** The older revision of the UI engine: percent sizes resolved against the
    parent's content box, a measure pass that fills in only unset sizes and
    never clamps, a cursor-based layout of stacks, `freeTree`, and a
    reconcile that either keeps every child at its index or rebuilds the
    whole child list. */
module LegacyUi {
  import opened Base
  import opened UiTypes
  import opened Lua
  import opened Builder
  import opened Patch
  import opened Matching
  import opened Layout
  import opened Reconciler

  // ---------------------------------------------------------------------
  // resolveStyles

  /** `Length::resolve` (not part of this model; assumed): pixels as given,
      a percentage of the parent size, truncated toward zero by the store
      into an `int`. */
  function Resolve(len: Length, parent: int): int
  {
    match len.unit
    case Pixel => len.value
    case Percent => CDiv(len.value * parent, 100)
  }

  /** A percentage between 0 and 100 of a non-negative size stays within
      that size; 100% is the whole size. */
  lemma ResolvePercentBounds(v: int, parent: int)
    requires 0 <= v <= 100 && parent >= 0
    ensures 0 <= Resolve(Length(v, Percent), parent) <= parent
    ensures v == 100 ==> Resolve(Length(v, Percent), parent) == parent
  {
    assert v * parent <= 100 * parent;
  }

  /** The content box handed to the children: the size minus the padding
      on both sides, and never negative. */
  function ContentSize(size: int, before: int, after: int): (r: int)
    ensures r >= 0 && r >= size - (before + after)
    ensures size >= before + after ==> r == size - (before + after)
  {
    Max(0, size - (before + after))
  }

  /** `resolveStyles`: a non-zero width or height style replaces the size;
      the children are resolved against the content box. */
  function ResolveStyles(n: Node, parentW: int, parentH: int): (r: Node)
    ensures SameAttrs(r, n) && r.x == n.x && r.y == n.y
    ensures |r.children| == |n.children|
    decreases n, 1
  {
    var w := if n.style.widthStyle.value != 0 then Resolve(n.style.widthStyle, parentW) else n.w;
    var h := if n.style.heightStyle.value != 0 then Resolve(n.style.heightStyle, parentH) else n.h;
    var cw := ContentSize(w, n.style.padding.left, n.style.padding.right);
    var ch := ContentSize(h, n.style.padding.top, n.style.padding.bottom);
    n.(w := w, h := h, children := ResolveAll(n.children, cw, ch))
  }

  function ResolveAll(cs: seq<Node>, parentW: int, parentH: int): (rs: seq<Node>)
    ensures |rs| == |cs|
    ensures forall i :: 0 <= i < |cs| ==> rs[i] == ResolveStyles(cs[i], parentW, parentH)
    decreases cs, 0
  {
    if |cs| == 0 then [] else [ResolveStyles(cs[0], parentW, parentH)] + ResolveAll(cs[1..], parentW, parentH)
  }

  /** A zero style leaves the size alone; a non-zero one replaces it. */
  lemma ResolveKeepsUnstyled(n: Node, parentW: int, parentH: int)
    ensures var r := ResolveStyles(n, parentW, parentH);
      && (n.style.widthStyle.value == 0 ==> r.w == n.w)
      && (n.style.heightStyle.value == 0 ==> r.h == n.h)
      && (n.style.widthStyle.value != 0 ==> r.w == Resolve(n.style.widthStyle, parentW))
      && (n.style.heightStyle.value != 0 ==> r.h == Resolve(n.style.heightStyle, parentH))
  {
  }

  /** Every child is resolved against a non-negative content box: the
      parent's resolved size minus its padding, or 0. */
  lemma ResolveChildrenBox(n: Node, parentW: int, parentH: int, k: nat)
    requires k < |n.children|
    ensures var r := ResolveStyles(n, parentW, parentH);
      var cw := ContentSize(r.w, n.style.padding.left, n.style.padding.right);
      var ch := ContentSize(r.h, n.style.padding.top, n.style.padding.bottom);
      && cw >= 0 && ch >= 0
      && r.children[k] == ResolveStyles(n.children[k], cw, ch)
  {
  }

  /** Resolving again against the same parent size changes nothing. */
  lemma {:induction false} ResolveIdempotent(n: Node, parentW: int, parentH: int)
    ensures ResolveStyles(ResolveStyles(n, parentW, parentH), parentW, parentH) == ResolveStyles(n, parentW, parentH)
    decreases n
  {
    var r := ResolveStyles(n, parentW, parentH);
    var rr := ResolveStyles(r, parentW, parentH);
    var cw := ContentSize(r.w, n.style.padding.left, n.style.padding.right);
    var ch := ContentSize(r.h, n.style.padding.top, n.style.padding.bottom);
    forall k | 0 <= k < |n.children| ensures rr.children[k] == r.children[k] {
      ResolveIdempotent(n.children[k], cw, ch);
    }
  }

  /** Nested percentages: a 200-pixel-wide root with a 50% child with a 50%
      child yields widths 200, 100 and 50. */
  lemma NestedPercent()
    ensures var leaf := DefaultNode(2, Other("rect")).(style := DefaultStyle.(widthStyle := Length(50, Percent)));
      var mid := DefaultNode(1, VStack).(style := DefaultStyle.(widthStyle := Length(50, Percent)), children := [leaf]);
      var root := DefaultNode(0, VStack).(w := 200, children := [mid]);
      var r := ResolveStyles(root, 800, 600);
      r.w == 200 && r.children[0].w == 100 && r.children[0].children[0].w == 50
  {
  }

  // ---------------------------------------------------------------------
  // measure

  /** The older `measure`: only stacks are measured (and only their
      subtrees visited); an unset width or height takes the padded content
      size; nothing is clamped. */
  function LegacyMeasure(n: Node): (r: Node)
    ensures SameAttrs(r, n) && r.x == n.x && r.y == n.y
    ensures |r.children| == |n.children|
    ensures n.w != 0 ==> r.w == n.w
    ensures n.h != 0 ==> r.h == n.h
    ensures n.kind.Other? ==> r == n
    decreases n, 1
  {
    if n.kind.Other? then n
    else
      var cs := LegacyMeasureAll(n.children);
      var content := Content(n.kind, n.style.spacing, cs);
      var pad := n.style.padding;
      n.(w := if n.w == 0 then content.0 + pad.left + pad.right else n.w,
         h := if n.h == 0 then content.1 + pad.top + pad.bottom else n.h,
         children := cs)
  }

  function LegacyMeasureAll(cs: seq<Node>): (rs: seq<Node>)
    ensures |rs| == |cs|
    ensures forall i :: 0 <= i < |cs| ==> rs[i] == LegacyMeasure(cs[i])
    decreases cs, 0
  {
    if |cs| == 0 then [] else [LegacyMeasure(cs[0])] + LegacyMeasureAll(cs[1..])
  }

  /** An unset vstack height: the children's outer heights with spacing
      only between them, plus vertical padding; an unset width: the widest
      outer width (at least 0) plus horizontal padding. */
  lemma {:induction false} LegacyMeasureVStack(n: Node)
    requires n.kind == VStack
    ensures var r := LegacyMeasure(n);
      && (n.h == 0 ==> r.h == SumOuter(r.children, false) + Gaps(n.style.spacing, |n.children|) + n.style.padding.top + n.style.padding.bottom)
      && (n.w == 0 ==> r.w == MaxOuter(r.children, true) + n.style.padding.left + n.style.padding.right)
      && (forall i :: 0 <= i < |n.children| ==> r.children[i] == LegacyMeasure(n.children[i]))
  {
    var r := LegacyMeasure(n);
    assert Content(n.kind, n.style.spacing, r.children) == (MaxOuter(r.children, true), SumOuter(r.children, false) + Gaps(n.style.spacing, |r.children|));
  }

  /** The mirror case for an hstack. */
  lemma {:induction false} LegacyMeasureHStack(n: Node)
    requires n.kind == HStack
    ensures var r := LegacyMeasure(n);
      && (n.w == 0 ==> r.w == SumOuter(r.children, true) + Gaps(n.style.spacing, |n.children|) + n.style.padding.left + n.style.padding.right)
      && (n.h == 0 ==> r.h == MaxOuter(r.children, false) + n.style.padding.top + n.style.padding.bottom)
  {
    var r := LegacyMeasure(n);
    assert Content(n.kind, n.style.spacing, r.children) == (SumOuter(r.children, true) + Gaps(n.style.spacing, |r.children|), MaxOuter(r.children, false));
  }

  /** Unlike the newer solver, the older measure does not clamp: an
      unpadded vstack of unset width around one unmargined child wider than
      the stack's maximum width takes the child's width, where the newer
      `Measure` stops at the maximum. */
  lemma LegacyMeasureNoClamp(n: Node, c: Node)
    requires n.kind == VStack && n.w == 0 && n.children == [c] && c.kind.Other?
    requires n.style.padding.left == 0 && n.style.padding.right == 0
    requires c.style.margin.left == 0 && c.style.margin.right == 0
    requires 0 <= n.style.minWidth <= n.style.maxWidth < c.w
    requires c.style.minWidth <= c.w <= c.style.maxWidth
    ensures LegacyMeasure(n).w == c.w
    ensures Measure(n).w == n.style.maxWidth
  {
    LegacyMeasureVStack(n);
    assert LegacyMeasure(n).children == [c];
    assert MaxOuter([c], true) == Max(c.w, 0);
    var mc := Measure(c);
    assert mc.w == c.w && mc.style.margin == c.style.margin;
    assert OuterW(mc) == c.w;
    MeasureVStackWidth(n);
    assert Measure(n).children == [mc];
    assert MaxOuter([mc], true) == Max(c.w, 0);
  }

  /** Measuring a measured tree again changes nothing. */
  lemma {:induction false} LegacyMeasureIdempotent(n: Node)
    ensures LegacyMeasure(LegacyMeasure(n)) == LegacyMeasure(n)
    decreases n
  {
    if !n.kind.Other? {
      var r := LegacyMeasure(n);
      var rr := LegacyMeasure(r);
      forall i | 0 <= i < |n.children| ensures rr.children[i] == r.children[i] {
        LegacyMeasureIdempotent(n.children[i]);
      }
      assert rr.children == r.children;
    }
  }

  // ---------------------------------------------------------------------
  // layout

  /** The older `layout`: the node takes the given origin; a stack places
      its children along a cursor that starts inside the padding and
      advances by each child's outer size plus spacing; other kinds do not
      lay out their children. */
  function LegacyLayout(n: Node, x: int, y: int): (r: Node)
    ensures SameAttrs(r, n) && r.x == x && r.y == y && r.w == n.w && r.h == n.h
    ensures |r.children| == |n.children|
    ensures n.kind.Other? ==> r.children == n.children
    decreases n, 1
  {
    var cs := match n.kind
      case VStack => LegacyPlace(n, 0, y + n.style.padding.top, x, y)
      case HStack => LegacyPlace(n, 0, x + n.style.padding.left, x, y)
      case Other(_) => n.children;
    n.(x := x, y := y, children := cs)
  }

  /** Children `i..` of a stack, the cursor standing at `cursor`. */
  function LegacyPlace(n: Node, i: nat, cursor: int, x: int, y: int): (rs: seq<Node>)
    requires !n.kind.Other? && i <= |n.children|
    ensures |rs| == |n.children| - i
    decreases n, 0, |n.children| - i
  {
    if i == |n.children| then []
    else
      var c := n.children[i];
      if n.kind == VStack then
        [LegacyLayout(c, x + n.style.padding.left + c.style.margin.left, cursor + c.style.margin.top)]
          + LegacyPlace(n, i + 1, cursor + c.h + n.style.spacing + c.style.margin.top + c.style.margin.bottom, x, y)
      else
        [LegacyLayout(c, cursor + c.style.margin.left, y + n.style.padding.top + c.style.margin.top)]
          + LegacyPlace(n, i + 1, cursor + c.w + n.style.spacing + c.style.margin.right + c.style.margin.left, x, y)
  }

  /** Where a stack puts a child when the cursor stands at `run`: on the
      main axis at the cursor plus the leading margin, on the cross axis
      at the padding plus the leading margin. */
  function Slot(n: Node, c: Node, run: int, x: int, y: int): (int, int)
  {
    if n.kind == VStack then (x + n.style.padding.left + c.style.margin.left, run + c.style.margin.top)
    else (run + c.style.margin.left, y + n.style.padding.top + c.style.margin.top)
  }

  /** One step of the cursor: the first child placed from `i` sits at the
      cursor, and the rest are placed from the cursor moved past its outer
      size and one spacing. */
  lemma LegacyPlaceStep(n: Node, i: nat, cursor: int, x: int, y: int)
    requires !n.kind.Other? && i < |n.children|
    ensures var c := n.children[i];
      var rs := LegacyPlace(n, i, cursor, x, y);
      && rs[1..] == LegacyPlace(n, i + 1, cursor + Outer(c, n.kind == HStack) + n.style.spacing, x, y)
      && (rs[0].x, rs[0].y) == Slot(n, c, cursor, x, y)
  {
  }

  /** The cursor when child `k` is reached, having started at `cursor`
      before child `i`: past the outer sizes of children `i..k-1` and one
      spacing after each. */
  function Run(cs: seq<Node>, i: nat, k: nat, row: bool, sp: int, cursor: int): int
    requires i <= k <= |cs|
  {
    cursor + SumOuter(cs[i..k], row) + (k - i) * sp
  }

  /** The origin given to child `k` when children `i..` are placed. */
  function LegacyPlacedAt(n: Node, i: nat, cursor: int, x: int, y: int, k: nat): (int, int)
    requires !n.kind.Other? && i <= k < |n.children|
  {
    var r := LegacyPlace(n, i, cursor, x, y)[k - i];
    (r.x, r.y)
  }

  /** The case `k == i` of `LegacyPlaceAt`: nothing has been passed yet. */
  lemma LegacyPlaceFirst(n: Node, i: nat, cursor: int, x: int, y: int)
    requires !n.kind.Other? && i < |n.children|
    ensures LegacyPlacedAt(n, i, cursor, x, y, i)
         == Slot(n, n.children[i], Run(n.children, i, i, n.kind == HStack, n.style.spacing, cursor), x, y)
  {
    assert n.children[i..i] == [];
    LegacyPlaceStep(n, i, cursor, x, y);
  }

  /** Child `k`, placed from position `i` on, sits where its slot puts it
      with the cursor at `Run`. */
  lemma {:induction false} LegacyPlaceAt(n: Node, i: nat, cursor: int, x: int, y: int, k: nat)
    requires !n.kind.Other? && i <= k < |n.children|
    ensures LegacyPlacedAt(n, i, cursor, x, y, k)
         == Slot(n, n.children[k], Run(n.children, i, k, n.kind == HStack, n.style.spacing, cursor), x, y)
    decreases k - i
  {
    if k > i {
      var next := cursor + Outer(n.children[i], n.kind == HStack) + n.style.spacing;
      LegacyPlaceShift(n, i, cursor, x, y, k);
      LegacyPlaceAt(n, i + 1, next, x, y, k);
    } else {
      LegacyPlaceFirst(n, i, cursor, x, y);
    }
  }

  /** One step of `LegacyPlaceAt`: placing from `i` or, with the cursor
      moved past child `i`, from `i + 1` gives child `k` the same origin
      and the same cursor. */
  lemma LegacyPlaceShift(n: Node, i: nat, cursor: int, x: int, y: int, k: nat)
    requires !n.kind.Other? && i < k < |n.children|
    ensures var row := n.kind == HStack;
      var next := cursor + Outer(n.children[i], row) + n.style.spacing;
      && LegacyPlacedAt(n, i, cursor, x, y, k) == LegacyPlacedAt(n, i + 1, next, x, y, k)
      && Run(n.children, i, k, row, n.style.spacing, cursor) == Run(n.children, i + 1, k, row, n.style.spacing, next)
  {
    var row := n.kind == HStack;
    var next := cursor + Outer(n.children[i], row) + n.style.spacing;
    assert LegacyPlace(n, i, cursor, x, y)[k - i] == LegacyPlace(n, i + 1, next, x, y)[k - (i + 1)] by {
      LegacyPlaceStep(n, i, cursor, x, y);
    }
    RunStep(n.children, i, k, row, n.style.spacing, cursor);
  }

  /** The cursor before child `k`, counted from child `i`, is the cursor
      after child `i` counted from child `i + 1`. */
  lemma RunStep(cs: seq<Node>, i: nat, k: nat, row: bool, sp: int, cursor: int)
    requires i < k <= |cs|
    ensures Run(cs, i, k, row, sp, cursor) == Run(cs, i + 1, k, row, sp, cursor + Outer(cs[i], row) + sp)
  {
    assert cs[i..k] == [cs[i]] + cs[i + 1..k];
    assert SumOuter(cs[i..k], row) == Outer(cs[i], row) + SumOuter(cs[i + 1..k], row);
    assert (k - i) * sp == (k - (i + 1)) * sp + sp;
  }

  /** Child `k` of a laid-out vstack sits at `(x + paddingLeft +
      marginLeft, y + paddingTop + outer heights before it + k spacings +
      marginTop)`; an hstack is the mirror case. */
  lemma LegacyLayoutChildOrigin(n: Node, x: int, y: int, k: nat)
    requires !n.kind.Other? && k < |n.children|
    ensures var r := LegacyLayout(n, x, y);
      var c := n.children[k];
      var pad := n.style.padding;
      && (n.kind == VStack ==>
            && r.children[k].x == x + pad.left + c.style.margin.left
            && r.children[k].y == y + pad.top + SumOuter(n.children[..k], false) + k * n.style.spacing + c.style.margin.top)
      && (n.kind == HStack ==>
            && r.children[k].x == x + pad.left + SumOuter(n.children[..k], true) + k * n.style.spacing + c.style.margin.left
            && r.children[k].y == y + pad.top + c.style.margin.top)
  {
    var cursor := if n.kind == VStack then y + n.style.padding.top else x + n.style.padding.left;
    LegacyPlaceAt(n, 0, cursor, x, y, k);
    assert n.children[0..k] == n.children[..k];
    assert LegacyLayout(n, x, y).children == LegacyPlace(n, 0, cursor, x, y);
    assert Run(n.children, 0, k, n.kind == HStack, n.style.spacing, cursor)
        == cursor + SumOuter(n.children[..k], n.kind == HStack) + k * n.style.spacing;
  }

  // ---------------------------------------------------------------------
  // freeTree

  /** The order in which `freeTree` deletes a subtree: each child's subtree
      in turn, then the node itself. */
  function FreeOrder(n: Node): (r: seq<nat>)
    ensures |r| > 0 && r[|r| - 1] == n.id
    decreases n, 1
  {
    FreeOrderAll(n.children) + [n.id]
  }

  function FreeOrderAll(cs: seq<Node>): seq<nat>
    decreases cs, 0
  {
    if |cs| == 0 then [] else FreeOrder(cs[0]) + FreeOrderAll(cs[1..])
  }

  /** `freeTree` deletes exactly the nodes of the subtree. */
  lemma {:induction false} FreeOrderCovers(n: Node)
    ensures forall x :: x in FreeOrder(n) <==> x in IdSet(n)
    decreases n, 1
  {
    FreeOrderAllCovers(n.children);
  }

  lemma {:induction false} FreeOrderAllCovers(cs: seq<Node>)
    ensures forall x :: x in FreeOrderAll(cs) <==> x in SeqIds(cs)
    decreases cs, 0
  {
    if |cs| > 0 {
      FreeOrderCovers(cs[0]);
      FreeOrderAllCovers(cs[1..]);
      forall x | x in SeqIds(cs) ensures x in FreeOrderAll(cs) {
        var i :| 0 <= i < |cs| && x in IdSet(cs[i]);
        if i > 0 {
          assert cs[1..][i - 1] == cs[i];
        }
      }
      forall x | x in SeqIds(cs[1..]) ensures x in SeqIds(cs) {
        var i :| 0 <= i < |cs[1..]| && x in IdSet(cs[1..][i]);
        assert cs[1..][i] == cs[i + 1];
      }
    }
  }

  // ---------------------------------------------------------------------
  // The all-or-nothing reconcile

  /** The older `reconcile`: patch the node; when the description has a
      child list of another length, free every old child subtree, build the
      whole list afresh and mark the node layout-dirty; when the length is
      the same, reconcile each old child with the entry at its index. */
  function LegacyReconcile(n: Node, d: Desc, w: World, hex: string -> Color): (r: Outcome)
    requires ValidWorld(w)
    ensures ValidWorld(r.world) && r.world.nextId >= w.nextId
    ensures r.node.id == n.id && r.node.key == n.key && r.node.kind == n.kind
    ensures |r.node.children| == (if d.hasChildren then |d.children| else |n.children|)
    ensures r.node.layoutDirty <==> n.layoutDirty || r.raised
    decreases d, 1
  {
    var p := PatchNode(n, d, w.reg, hex);
    var w1 := w.(reg := p.reg);
    if !d.hasChildren then Outcome(p.node, w1, {}, p.layoutChanged)
    else if |d.children| != |n.children| then
      var (cs, w2) := BuildAll(d, 0, w1, hex);
      Outcome(p.node.(children := cs, layoutDirty := true), w2, set x | x in FreeOrderAll(n.children), true)
    else
      var e := LegacyEntries(n.children, d, 0, w1, hex);
      Outcome(p.node.(children := e.children, layoutDirty := p.node.layoutDirty || e.raised),
              e.world, e.freed, p.layoutChanged || e.raised)
  }

  /** Old children `i..` reconciled with the entries at the same index. */
  function LegacyEntries(prev: seq<Node>, d: Desc, i: nat, w: World, hex: string -> Color): (r: Entries)
    requires ValidWorld(w) && |prev| == |d.children| && i <= |prev|
    ensures ValidWorld(r.world) && r.world.nextId >= w.nextId
    ensures |r.children| == |prev| - i
    ensures forall k :: 0 <= k < |r.children| ==> r.children[k].id == prev[i + k].id
    decreases d, 0, |prev| - i
  {
    if i == |prev| then Entries([], w, {}, false)
    else
      var o := LegacyReconcile(prev[i], d.children[i], w, hex);
      var rest := LegacyEntries(prev, d, i + 1, o.world, hex);
      Entries([o.node] + rest.children, rest.world, o.freed + rest.freed, o.raised || rest.raised)
  }

  /** A child list of another length: every old subtree is freed, every
      new child is freshly built with identities from the counter, and the
      node is marked layout-dirty. */
  lemma LegacyRebuild(n: Node, d: Desc, w: World, hex: string -> Color)
    requires ValidWorld(w) && d.hasChildren && |d.children| != |n.children|
    ensures var r := LegacyReconcile(n, d, w, hex);
      && r.freed == SeqIds(n.children)
      && r.raised && r.node.layoutDirty
      && forall k :: 0 <= k < |r.node.children| ==> IdsWithin(r.node.children[k], w.nextId, r.world.nextId)
  {
    var p := PatchNode(n, d, w.reg, hex);
    var w1 := w.(reg := p.reg);
    BuildAllIds(d, 0, w1, hex);
    FreeOrderAllCovers(n.children);
  }

  /** A child list of the same length: every old child keeps its place and
      its identity. */
  lemma LegacyKeepsIndex(n: Node, d: Desc, w: World, hex: string -> Color)
    requires ValidWorld(w) && d.hasChildren && |d.children| == |n.children|
    ensures var r := LegacyReconcile(n, d, w, hex);
      forall k :: 0 <= k < |n.children| ==> r.node.children[k].id == n.children[k].id
  {
    assert PatchNode(n, d, w.reg, hex).node.children == n.children;
  }

  /** Where neither old children nor entries carry keys and the lengths
      agree, the keyed reconciler keeps the same node at each index as the
      older one. */
  lemma UnkeyedAgreesWithLegacy(n: Node, d: Desc, w: World, hex: string -> Color)
    requires ValidWorld(w) && d.hasChildren && |d.children| == |n.children|
    requires forall j :: 0 <= j < |n.children| ==> n.children[j].key == ""
    requires forall k :: 0 <= k < |d.children| ==> EntryKey(d.children[k]) == ""
    ensures forall k :: 0 <= k < |d.children| ==>
      Reconcile(n, d, w, hex).node.children[k].id == LegacyReconcile(n, d, w, hex).node.children[k].id
  {
    LegacyKeepsIndex(n, d, w, hex);
    ReconcileKeepsPaired(n, d, w, hex);
    forall k | 0 <= k < |d.children|
      ensures Pairing(n, d)[k] == Some(k)
    {
      UnkeyedByIndex(Keys(n.children), EntryKeys(d.children), k);
    }
  }
}

=== FILE: lua.dfy ===
/** The Lua side of the engine, as data: the values a description table
    can hold, the description tree itself, and the field readers the
    engine uses to turn a `style` table into typed properties
    (`getIntProp`, `getStringProp`, `getLength`, `parseAlign`,
    `parseJustify`). */
module Lua {
  import opened Base
  import opened UiTypes

  /** A Lua value as far as the engine inspects it.  Numbers are integers
      here; a table only matters as a colour array, whose slot `i + 1` is
      `items[i]` (a slot past the end reads as nil). */
  datatype Value =
    | Nil
    | Num(n: int)
    | Str(s: string)
    | Bool(b: bool)
    | Func(fid: nat)
    | Table(items: seq<Value>)

  /** A description table: its scalar fields (`type`, `key`, `onClick`, ...),
      its `style` table if `style` is a table, and its `children` array if
      `children` is a table.  A slot of a `children` array may hold a value
      that is not a table at all (`children = {5}`); such a slot is a
      `Desc` with `isTable` false and nothing else in it. */
  datatype Desc = Desc(
    fields: map<string, Value>,
    style: Option<map<string, Value>>,
    hasChildren: bool,
    children: seq<Desc>,
    isTable: bool)

  /** `lua_getfield`: an absent field reads as nil. */
  function Get(m: map<string, Value>, key: string): (v: Value)
    ensures key !in m ==> v == Nil
    ensures key in m ==> v == m[key]
  {
    if key in m then m[key] else Nil
  }

  function Field(d: Desc, key: string): Value
  {
    Get(d.fields, key)
  }

  /** `lua_rawgeti(t, i + 1)` on a table's array part. */
  function RawGet(items: seq<Value>, i: nat): (v: Value)
    ensures i >= |items| ==> v == Nil
  {
    if i < |items| then items[i] else Nil
  }

  /** `luaL_optinteger`: nil gives the default, a number itself; anything
      else raises a Lua error (`None`). */
  function OptInteger(v: Value, default: int): (r: Option<int>)
    ensures r.None? <==> !v.Nil? && !v.Num?
    ensures v.Nil? ==> r == Some(default)
    ensures v.Num? ==> r == Some(v.n)
  {
    match v
    case Nil => Some(default)
    case Num(n) => Some(n)
    case _ => None
  }

  /** `getIntProp`: the number stored under `key`, else the default. */
  function GetInt(m: map<string, Value>, key: string, default: int): (r: int)
    ensures Get(m, key).Num? ==> r == Get(m, key).n
    ensures !Get(m, key).Num? ==> r == default
  {
    match Get(m, key)
    case Num(v) => v
    case _ => default
  }

  /** `getStringProp`: the string stored under `key`, else the default. */
  function GetString(m: map<string, Value>, key: string, default: string): (r: string)
    ensures Get(m, key).Str? ==> r == Get(m, key).s
    ensures !Get(m, key).Str? ==> r == default
  {
    match Get(m, key)
    case Str(s) => s
    case _ => default
  }

  /** Unrecognised alignment strings fall back to Start. */
  function ParseAlign(s: string): Align
  {
    if s == "center" then Align.Center
    else if s == "end" then Align.End
    else if s == "stretch" then Align.Stretch
    else Align.Start
  }

  /** Unrecognised justification strings fall back to Start. */
  function ParseJustify(s: string): Justify
  {
    if s == "center" then Justify.Center
    else if s == "end" then Justify.End
    else if s == "space-around" then Justify.SpaceAround
    else if s == "space-between" then Justify.SpaceBetween
    else if s == "space-evenly" then Justify.SpaceEvenly
    else Justify.Start
  }

  function AlignName(a: Align): string
  {
    match a
    case Start => "start"
    case Center => "center"
    case End => "end"
    case Stretch => "stretch"
  }

  function JustifyName(j: Justify): string
  {
    match j
    case Start => "start"
    case End => "end"
    case Center => "center"
    case SpaceBetween => "space-between"
    case SpaceAround => "space-around"
    case SpaceEvenly => "space-evenly"
  }

  /** Every alignment has a name that parses back to it, and any string
      that is not one of the four names parses to Start. */
  lemma ParseAlignComplete(a: Align, s: string)
    ensures ParseAlign(AlignName(a)) == a
    ensures s !in {"center", "end", "stretch"} ==> ParseAlign(s) == Align.Start
  {
  }

  /** Every justification has a name that parses back to it, and any other
      string parses to Start. */
  lemma ParseJustifyComplete(j: Justify, s: string)
    ensures ParseJustify(JustifyName(j)) == j
    ensures s !in {"center", "end", "space-around", "space-between", "space-evenly"} ==> ParseJustify(s) == Justify.Start
  {
  }

  // ---------------------------------------------------------------------
  // Decimal numbers (the integer part of `std::stof`)

  predicate IsDigit(c: char)
  {
    '0' <= c <= '9'
  }

  /** Length of the run of digits at the front of `s`. */
  function DigitRun(s: string): (k: nat)
    ensures k <= |s|
    ensures forall i :: 0 <= i < k ==> IsDigit(s[i])
    ensures k < |s| ==> !IsDigit(s[k])
  {
    if |s| > 0 && IsDigit(s[0]) then 1 + DigitRun(s[1..]) else 0
  }

  /** Value of a string of digits, most significant first. */
  function DigitsValue(s: string): (v: int)
    requires forall i :: 0 <= i < |s| ==> IsDigit(s[i])
    ensures v >= 0
  {
    if |s| == 0 then 0
    else
      var last := s[|s| - 1];
      assert IsDigit(last);
      DigitsValue(s[..|s| - 1]) * 10 + (last as int - '0' as int)
  }

  /** The leading integer of `s`: an optional sign followed by at least one
      digit; anything after the digits is ignored, and no digits at all is
      a failed conversion. */
  function ParseLeadingInt(s: string): Option<int>
  {
    var neg := |s| > 0 && s[0] == '-';
    var start := if |s| > 0 && (s[0] == '-' || s[0] == '+') then 1 else 0;
    var k := DigitRun(s[start..]);
    if k == 0 then None
    else
      var v: int := DigitsValue(s[start..][..k]);
      Some(if neg then -v else v)
  }

  function ShowDigit(d: nat): char
    requires d < 10
  {
    ('0' as int + d) as char
  }

  /** Decimal rendering of a natural number. */
  function ShowNat(v: nat): (s: string)
    ensures |s| > 0
    ensures forall i :: 0 <= i < |s| ==> IsDigit(s[i])
  {
    if v < 10 then [ShowDigit(v)] else ShowNat(v / 10) + [ShowDigit(v % 10)]
  }

  function ShowInt(v: int): string
  {
    if v < 0 then "-" + ShowNat(-v) else ShowNat(v)
  }

  lemma {:induction false} DigitsValueShowNat(v: nat)
    ensures DigitsValue(ShowNat(v)) == v
    decreases v
  {
    if v >= 10 {
      var s := ShowNat(v);
      assert s[..|s| - 1] == ShowNat(v / 10);
      DigitsValueShowNat(v / 10);
    }
  }

  lemma {:induction false} DigitRunAll(s: string, rest: string)
    requires forall i :: 0 <= i < |s| ==> IsDigit(s[i])
    requires |rest| == 0 || !IsDigit(rest[0])
    ensures DigitRun(s + rest) == |s|
    decreases |s|
  {
    if |s| > 0 {
      assert (s + rest)[1..] == s[1..] + rest;
      DigitRunAll(s[1..], rest);
    } else {
      assert s + rest == rest;
    }
  }

  /** Rendering an integer and parsing it back gives the integer, whatever
      non-digit text follows it. */
  lemma {:induction false} ParseShowInt(v: int, rest: string)
    requires |rest| == 0 || !IsDigit(rest[0])
    ensures ParseLeadingInt(ShowInt(v) + rest) == Some(v)
  {
    if v < 0 {
      ParseSigned(ShowNat(-v), rest);
      DigitsValueShowNat(-v);
    } else {
      ParseUnsigned(ShowNat(v), rest);
      DigitsValueShowNat(v);
    }
  }

  lemma {:induction false} ParseUnsigned(digits: string, rest: string)
    requires |digits| > 0 && forall i :: 0 <= i < |digits| ==> IsDigit(digits[i])
    requires |rest| == 0 || !IsDigit(rest[0])
    ensures ParseLeadingInt(digits + rest) == Some(DigitsValue(digits))
  {
    var s := digits + rest;
    assert s[0] == digits[0];
    assert s[0..] == s;
    DigitRunAll(digits, rest);
    assert s[..|digits|] == digits;
  }

  lemma {:induction false} ParseSigned(digits: string, rest: string)
    requires |digits| > 0 && forall i :: 0 <= i < |digits| ==> IsDigit(digits[i])
    requires |rest| == 0 || !IsDigit(rest[0])
    ensures ParseLeadingInt("-" + digits + rest) == Some(-DigitsValue(digits))
  {
    var s := "-" + digits + rest;
    assert s[0] == '-';
    assert s[1..] == digits + rest;
    DigitRunAll(digits, rest);
    var k := DigitRun(s[1..]);
    assert k == |digits|;
    assert s[1..][..k] == digits;
    var v: int := DigitsValue(digits);
    assert ParseLeadingInt(s) == Some(-v);
  }

  // ---------------------------------------------------------------------
  // Lengths

  /** `getLength`: a number is a pixel length; a string ending in `%`
      whose prefix converts is a percentage of it; any other string, and
      anything that is neither number nor string, reads as zero pixels. */
  function GetLength(m: map<string, Value>, key: string): Length
  {
    match Get(m, key)
    case Num(v) => Length(v, Pixel)
    case Str(s) =>
      if |s| > 0 && s[|s| - 1] == '%' then
        match ParseLeadingInt(s[..|s| - 1])
        case Some(v) => Length(v, Percent)
        case None => NoLength
      else NoLength
    case _ => NoLength
  }

  /** The rendering a script writes for a length. */
  function ShowLength(len: Length): Value
  {
    match len.unit
    case Pixel => Num(len.value)
    case Percent => Str(ShowInt(len.value) + "%")
  }

  /** Every length survives being written into a style table and read
      back; and anything that is neither a number nor a `%` string reads
      as zero pixels. */
  lemma GetLengthRoundTrip(len: Length, m: map<string, Value>, key: string)
    ensures GetLength(m[key := ShowLength(len)], key) == len
    ensures !Get(m, key).Num? && !Get(m, key).Str? ==> GetLength(m, key) == NoLength
    ensures Get(m, key).Str? && (|Get(m, key).s| == 0 || Get(m, key).s[|Get(m, key).s| - 1] != '%')
            ==> GetLength(m, key) == NoLength
  {
    if len.unit == Percent {
      var s := ShowInt(len.value) + "%";
      assert s[..|s| - 1] == ShowInt(len.value) + "";
      ParseShowInt(len.value, "");
    }
  }

  /** The `key` field of a description as `lua_isstring`/`lua_tostring`
      read it: a string as itself, a number as its decimal text, anything
      else as "". */
  function EntryKey(d: Desc): string
  {
    match Field(d, "key")
    case Str(s) => s
    case Num(n) => ShowInt(n)
    case _ => ""
  }
}

=== FILE: matching.dfy ===
/** How `reconcileChildren` pairs new child descriptions with existing
    child nodes.  Entries are visited in order; an entry with a non-empty
    key takes the first not-yet-reused old child with that key; failing
    that, it takes the old child at its own index, provided that child is
    not yet reused and has no key.  Patching never changes a key, so the
    pairing depends on the keys alone and is computed up front. */
module Matching {
  import opened Base

  /** The first index at or after `j` of an unreused old child keyed `key`. */
  function FirstKeyed(oldKeys: seq<string>, reused: seq<bool>, key: string, j: nat): (r: Option<nat>)
    requires |reused| == |oldKeys| && j <= |oldKeys|
    ensures r.Some? ==> j <= r.value < |oldKeys| && !reused[r.value] && oldKeys[r.value] == key
    ensures r.Some? ==> forall j' :: j <= j' < r.value ==> reused[j'] || oldKeys[j'] != key
    ensures r.None? ==> forall j' :: j <= j' < |oldKeys| ==> reused[j'] || oldKeys[j'] != key
    decreases |oldKeys| - j
  {
    if j == |oldKeys| then None
    else if !reused[j] && oldKeys[j] == key then Some(j)
    else FirstKeyed(oldKeys, reused, key, j + 1)
  }

  /** The old child entry `i` (keyed `key`) takes, given what is reused. */
  function Pick(oldKeys: seq<string>, reused: seq<bool>, key: string, i: nat): (r: Option<nat>)
    requires |reused| == |oldKeys|
    ensures r.Some? ==> r.value < |oldKeys| && !reused[r.value]
    ensures r.Some? ==> (key != "" && oldKeys[r.value] == key) || (r.value == i && oldKeys[i] == "")
  {
    var byKey := if key != "" then FirstKeyed(oldKeys, reused, key, 0) else None;
    if byKey.Some? then byKey
    else if i < |oldKeys| && !reused[i] && oldKeys[i] == "" then Some(i)
    else None
  }

  /** Both matching rules, in both directions: a keyed entry takes the first
      unreused old child with its key whenever there is one; otherwise it
      takes its own index exactly when that child is unreused and unkeyed. */
  lemma PickRules(oldKeys: seq<string>, reused: seq<bool>, key: string, i: nat)
    requires |reused| == |oldKeys|
    ensures var r := Pick(oldKeys, reused, key, i);
      && (key != "" && (exists j :: 0 <= j < |oldKeys| && !reused[j] && oldKeys[j] == key) ==>
            r.Some? && oldKeys[r.value] == key
            && forall j :: 0 <= j < r.value ==> reused[j] || oldKeys[j] != key)
      && ((key == "" || forall j :: 0 <= j < |oldKeys| ==> reused[j] || oldKeys[j] != key) ==>
            (r.Some? <==> i < |oldKeys| && !reused[i] && oldKeys[i] == ""))
  {
  }

  function Mark(reused: seq<bool>, p: Option<nat>): (r: seq<bool>)
    requires p.Some? ==> p.value < |reused|
    ensures |r| == |reused|
  {
    if p.Some? then reused[p.value := true] else reused
  }

  /** Entries `i..` of the pairing, given which old children are reused. */
  function MatchFrom(oldKeys: seq<string>, newKeys: seq<string>, i: nat, reused: seq<bool>): (r: seq<Option<nat>>)
    requires |reused| == |oldKeys| && i <= |newKeys|
    ensures |r| == |newKeys| - i
    ensures forall k :: 0 <= k < |r| && r[k].Some? ==> r[k].value < |oldKeys| && !reused[r[k].value]
    ensures forall k :: 0 <= k < |r| && r[k].Some? ==>
      (newKeys[i + k] != "" && oldKeys[r[k].value] == newKeys[i + k]) || (r[k].value == i + k && oldKeys[i + k] == "")
    ensures forall a, b :: 0 <= a < b < |r| && r[a].Some? ==> r[b] != r[a]
    decreases |newKeys| - i
  {
    if i == |newKeys| then []
    else
      var p := Pick(oldKeys, reused, newKeys[i], i);
      [p] + MatchFrom(oldKeys, newKeys, i + 1, Mark(reused, p))
  }

  /** The pairing: entry `k` is paired with old child `r[k]`, or with none. */
  function Match(oldKeys: seq<string>, newKeys: seq<string>): (r: seq<Option<nat>>)
    ensures |r| == |newKeys|
    ensures forall k :: 0 <= k < |r| && r[k].Some? ==> r[k].value < |oldKeys|
    // an entry is paired with an old child of its own key, or an unkeyed one at its own index
    ensures forall k :: 0 <= k < |r| && r[k].Some? ==>
      (newKeys[k] != "" && oldKeys[r[k].value] == newKeys[k]) || (r[k].value == k && oldKeys[k] == "")
    // no old child is reused twice
    ensures forall a, b :: 0 <= a < |r| && 0 <= b < |r| && a != b && r[a].Some? ==> r[b] != r[a]
  {
    var r := MatchFrom(oldKeys, newKeys, 0, seq(|oldKeys|, _ => false));
    assert forall a, b :: 0 <= a < |r| && 0 <= b < |r| && a != b && r[a].Some? ==> r[b] != r[a] by {
      forall a, b | 0 <= a < |r| && 0 <= b < |r| && a != b && r[a].Some? ensures r[b] != r[a] {
        if b < a {
          assert r[b].Some? ==> r[a] != r[b];
        }
      }
    }
    r
  }

  /** Which old children the first `k` entries have taken. */
  function ReusedBy(n: nat, m: seq<Option<nat>>): (r: seq<bool>)
    ensures |r| == n
  {
    seq(n, j => Some(j) in m)
  }

  /** The pairing is the greedy one: each entry makes the choice `Pick`
      makes given exactly the old children the earlier entries took. */
  lemma MatchIsGreedy(oldKeys: seq<string>, newKeys: seq<string>, k: nat)
    requires k < |newKeys|
    ensures Match(oldKeys, newKeys)[k] == Pick(oldKeys, ReusedBy(|oldKeys|, Match(oldKeys, newKeys)[..k]), newKeys[k], k)
  {
    var reused0 := seq(|oldKeys|, _ => false);
    MatchFromGreedy(oldKeys, newKeys, 0, reused0, k);
    var m := Match(oldKeys, newKeys);
    assert MatchFrom(oldKeys, newKeys, 0, reused0) == m;
    assert MarkAll(reused0, m[..k]) == ReusedBy(|oldKeys|, m[..k]) by {
      MarkAllSpec(reused0, m[..k]);
    }
  }

  /** Mark every old child taken in `ps`. */
  function MarkAll(reused: seq<bool>, ps: seq<Option<nat>>): (r: seq<bool>)
    requires forall k :: 0 <= k < |ps| && ps[k].Some? ==> ps[k].value < |reused|
    ensures |r| == |reused|
    decreases |ps|
  {
    if |ps| == 0 then reused
    else MarkAll(Mark(reused, ps[0]), ps[1..])
  }

  lemma {:induction false} MarkAllSpec(reused: seq<bool>, ps: seq<Option<nat>>)
    requires forall k :: 0 <= k < |ps| && ps[k].Some? ==> ps[k].value < |reused|
    ensures forall j :: 0 <= j < |reused| ==> MarkAll(reused, ps)[j] == (reused[j] || Some(j) in ps)
    decreases |ps|
  {
    if |ps| > 0 {
      MarkAllSpec(Mark(reused, ps[0]), ps[1..]);
      forall j | 0 <= j < |reused| ensures MarkAll(reused, ps)[j] == (reused[j] || Some(j) in ps) {
        assert Some(j) in ps <==> ps[0] == Some(j) || Some(j) in ps[1..] by {
          assert ps == [ps[0]] + ps[1..];
        }
      }
    }
  }

  lemma {:induction false} MatchFromGreedy(oldKeys: seq<string>, newKeys: seq<string>, i: nat, reused: seq<bool>, k: nat)
    requires |reused| == |oldKeys| && i <= k < |newKeys|
    ensures var r := MatchFrom(oldKeys, newKeys, i, reused);
      r[k - i] == Pick(oldKeys, MarkAll(reused, r[..k - i]), newKeys[k], k)
    decreases k - i
  {
    var r := MatchFrom(oldKeys, newKeys, i, reused);
    var p := Pick(oldKeys, reused, newKeys[i], i);
    if k > i {
      var rest := MatchFrom(oldKeys, newKeys, i + 1, Mark(reused, p));
      assert r == [p] + rest;
      MatchFromGreedy(oldKeys, newKeys, i + 1, Mark(reused, p), k);
      assert r[..k - i][0] == p;
      assert r[..k - i][1..] == rest[..k - (i + 1)];
    } else {
      assert r[..0] == [];
    }
  }

  /** The keyed swap: `[A, B]` re-described as `[B, A]` reuses both nodes. */
  lemma KeyedSwap()
    ensures Match(["A", "B"], ["B", "A"]) == [Some(1), Some(0)]
  {
    var r := Match(["A", "B"], ["B", "A"]);
    var reused0 := seq(2, _ => false);
    assert Pick(["A", "B"], reused0, "B", 0) == Some(1) by {
      assert FirstKeyed(["A", "B"], reused0, "B", 1) == Some(1);
    }
    assert Pick(["A", "B"], reused0[1 := true], "A", 1) == Some(0);
  }

  /** Unkeyed children are paired by index, as far as both lists reach. */
  lemma UnkeyedByIndex(oldKeys: seq<string>, newKeys: seq<string>, k: nat)
    requires forall j :: 0 <= j < |oldKeys| ==> oldKeys[j] == ""
    requires forall j :: 0 <= j < |newKeys| ==> newKeys[j] == ""
    requires k < |newKeys|
    ensures Match(oldKeys, newKeys)[k] == (if k < |oldKeys| then Some(k) else None)
  {
    var m := Match(oldKeys, newKeys);
    MatchIsGreedy(oldKeys, newKeys, k);
    if k < |oldKeys| {
      assert Some(k) !in m[..k] by {
        forall a | 0 <= a < k ensures m[a] != Some(k) {
          assert m[a].Some? ==> m[a].value == a;
        }
      }
    }
  }

  /** A node key is compatible with an entry key when it is the same key or
      no key at all (an unkeyed node may have been paired by index). */
  predicate KeyFits(nodeKey: string, entryKey: string)
  {
    nodeKey == entryKey || nodeKey == ""
  }

  /** Non-empty entry keys are pairwise distinct. */
  predicate DistinctKeys(keys: seq<string>)
  {
    forall a, b :: 0 <= a < |keys| && 0 <= b < |keys| && a != b && keys[a] != "" ==> keys[a] != keys[b]
  }

  /** Re-pairing a list against itself: when every node key fits its entry
      and entry keys are distinct, entry `k` takes old child `k`. */
  lemma MatchIdentity(oldKeys: seq<string>, newKeys: seq<string>)
    requires |oldKeys| == |newKeys|
    requires forall k :: 0 <= k < |oldKeys| ==> KeyFits(oldKeys[k], newKeys[k])
    requires DistinctKeys(newKeys)
    ensures forall k :: 0 <= k < |newKeys| ==> Match(oldKeys, newKeys)[k] == Some(k)
  {
    var reused0 := seq(|oldKeys|, _ => false);
    MatchFromIdentity(oldKeys, newKeys, 0, reused0);
  }

  /** Why `MatchIdentity` needs distinct keys: two entries keyed `X`, where
      the first node was unkeyed and the second keyed `X`, fit the list but
      the second entry finds no partner and is rebuilt. */
  lemma DuplicateKeysRebuild()
    ensures Match(["", "X"], ["X", "X"]) == [Some(1), None]
  {
    var reused0 := seq(2, _ => false);
    assert Pick(["", "X"], reused0, "X", 0) == Some(1) by {
      assert FirstKeyed(["", "X"], reused0, "X", 1) == Some(1);
    }
    assert Pick(["", "X"], reused0[1 := true], "X", 1) == None by {
      assert FirstKeyed(["", "X"], reused0[1 := true], "X", 1) == None;
    }
  }

  lemma {:induction false} MatchFromIdentity(oldKeys: seq<string>, newKeys: seq<string>, i: nat, reused: seq<bool>)
    requires |oldKeys| == |newKeys| && |reused| == |oldKeys| && i <= |newKeys|
    requires forall k :: 0 <= k < |oldKeys| ==> KeyFits(oldKeys[k], newKeys[k])
    requires DistinctKeys(newKeys)
    requires forall j :: i <= j < |reused| ==> !reused[j]
    ensures forall k :: 0 <= k < |newKeys| - i ==> MatchFrom(oldKeys, newKeys, i, reused)[k] == Some(i + k)
    decreases |newKeys| - i
  {
    if i < |newKeys| {
      var key := newKeys[i];
      var p := Pick(oldKeys, reused, key, i);
      assert p == Some(i) by {
        if key != "" {
          forall j | 0 <= j < |oldKeys| && j != i ensures oldKeys[j] != key {
            assert KeyFits(oldKeys[j], newKeys[j]);
            assert newKeys[j] != key;
          }
        }
      }
      var rest := MatchFrom(oldKeys, newKeys, i + 1, Mark(reused, p));
      MatchFromIdentity(oldKeys, newKeys, i + 1, Mark(reused, p));
      assert MatchFrom(oldKeys, newKeys, i, reused) == [p] + rest;
    }
  }
}

=== FILE: patch.dfy ===
/** Patching an existing node in place from its description
    (`patchNode`): every style field is assigned through the
    assign-and-flag helper `update`, a change of any layout field marks
    the node layout-dirty, a change of the background alone marks it
    paint-dirty, and the click handler is rebound. */
module Patch {
  import opened Base
  import opened UiTypes
  import opened Lua
  import opened Callbacks
  import opened Builder

  /** `update`: the field ends up holding `v`; the flag is raised exactly
      when the old value differed, and an equal value leaves it as it was. */
  function Update<T(==)>(field: T, v: T, flag: bool): (r: (T, bool))
    ensures r.0 == v
    ensures r.1 <==> flag || field != v
    ensures field == v ==> r == (field, flag)
  {
    if field != v then (v, true) else (field, flag)
  }

  /** `applyBoxModel`: the shorthand, then each edge defaulting to it. */
  function PatchEdges(e: Edges, m: map<string, Value>, base: string, top: string, bottom: string, left: string, right: string, flag: bool): (r: (Edges, bool))
  {
    var v := GetInt(m, base, 0);
    var (all, f0) := Update(e.all, v, flag);
    var (t, f1) := Update(e.top, GetInt(m, top, v), f0);
    var (b, f2) := Update(e.bottom, GetInt(m, bottom, v), f1);
    var (l, f3) := Update(e.left, GetInt(m, left, v), f2);
    var (rt, f4) := Update(e.right, GetInt(m, right, v), f3);
    (Edges(all, t, b, l, rt), f4)
  }

  /** The edge-by-edge patch lands on the box model the table asks for and
      flags exactly when some edge differed. */
  lemma PatchEdgesSpec(e: Edges, m: map<string, Value>, base: string, top: string, bottom: string, left: string, right: string, flag: bool)
    ensures var r := PatchEdges(e, m, base, top, bottom, left, right, flag);
      && r.0 == BoxModel(m, base, top, bottom, left, right)
      && (r.1 <==> flag || e != BoxModel(m, base, top, bottom, left, right))
  {
  }

  /** The field-by-field style patch of `patchNode`, in source order. */
  function PatchStyle(s: Style, m: map<string, Value>): (r: (Style, bool))
  {
    var (ws, f1) := Update(s.widthStyle, GetLength(m, "w"), false);
    var (hs, f2) := Update(s.heightStyle, GetLength(m, "h"), f1);
    var (minW, f3) := Update(s.minWidth, GetInt(m, "minWidth", 0), f2);
    var (maxW, f4) := Update(s.maxWidth, GetInt(m, "maxWidth", MaxSizeDefault), f3);
    var (minH, f5) := Update(s.minHeight, GetInt(m, "minHeight", 0), f4);
    var (maxH, f6) := Update(s.maxHeight, GetInt(m, "maxHeight", MaxSizeDefault), f5);
    var (fg, f7) := Update(s.flexGrow, GetInt(m, "flexGrow", 0), f6);
    var (al, f8) := Update(s.alignItems, ParseAlign(GetString(m, "alignItems", "start")), f7);
    var (js, f9) := Update(s.justifyContent, ParseJustify(GetString(m, "justifyContent", "start")), f8);
    var (sp, f10) := Update(s.spacing, GetInt(m, "gap", GetInt(m, "spacing", 0)), f9);
    var (pad, f11) := PatchEdges(s.padding, m, "padding", "paddingTop", "paddingBottom", "paddingLeft", "paddingRight", f10);
    var (mar, f12) := PatchEdges(s.margin, m, "margin", "marginTop", "marginBottom", "marginLeft", "marginRight", f11);
    (Style(ws, hs, minW, maxW, minH, maxH, fg, al, js, sp, pad, mar), f12)
  }

  /** Field-by-field patching is the same as replacing the whole style by
      the one a fresh node would get, flagging iff the two differ. */
  lemma PatchStyleSpec(s: Style, m: map<string, Value>)
    ensures PatchStyle(s, m).0 == StyleOf(m)
    ensures PatchStyle(s, m).1 <==> s != StyleOf(m)
  {
    PatchEdgesSpec(s.padding, m, "padding", "paddingTop", "paddingBottom", "paddingLeft", "paddingRight", false);
    PatchEdgesSpec(s.padding, m, "padding", "paddingTop", "paddingBottom", "paddingLeft", "paddingRight", true);
    PatchEdgesSpec(s.margin, m, "margin", "marginTop", "marginBottom", "marginLeft", "marginRight", false);
    PatchEdgesSpec(s.margin, m, "margin", "marginTop", "marginBottom", "marginLeft", "marginRight", true);
  }

  /** The `BGColor` step: a string sets the colour (flagging a change) and
      switches the background on; nil switches it off; any other value,
      a colour table included, leaves both alone. */
  function PatchBackground(color: Color, hasBg: bool, v: Value, hex: string -> Color): (r: (Color, bool, bool))
    ensures v.Str? ==> r.0 == hex(v.s) && r.1 && (r.2 <==> color != hex(v.s) || !hasBg)
    ensures v.Nil? ==> r.0 == color && !r.1 && (r.2 <==> hasBg)
    ensures !v.Str? && !v.Nil? ==> r == (color, hasBg, false)
  {
    match v
    case Str(h) =>
      var (c, paint) := Update(color, hex(h), false);
      if !hasBg then (c, true, true) else (c, hasBg, paint)
    case Nil => if hasBg then (color, false, true) else (color, hasBg, false)
    case _ => (color, hasBg, false)
  }

  /** The outcome of patching one node: the node, the registry, and whether
      a layout change was made (which, by assumption, also marks every
      ancestor layout-dirty). */
  datatype Patched = Patched(node: Node, reg: Registry, layoutChanged: bool)

  /** `patchNode`.  Without a style table nothing at all happens, not even
      the handler rebinding. */
  function PatchNode(n: Node, d: Desc, reg: Registry, hex: string -> Color): (r: Patched)
    requires Valid(reg)
    ensures Valid(r.reg) && r.reg.next >= reg.next
    ensures d.style.None? ==> r == Patched(n, reg, false)
    ensures d.style.Some? ==> r.node.style == StyleOf(d.style.value) && (r.layoutChanged <==> n.style != StyleOf(d.style.value))
    ensures r.node.id == n.id && r.node.kind == n.kind && r.node.key == n.key && r.node.children == n.children
    ensures r.node.x == n.x && r.node.y == n.y && r.node.w == n.w && r.node.h == n.h
    // the flags are only ever raised, never cleared
    ensures n.layoutDirty ==> r.node.layoutDirty
    ensures n.paintDirty ==> r.node.paintDirty
    ensures r.node.layoutDirty <==> n.layoutDirty || r.layoutChanged
  {
    if d.style.None? then Patched(n, reg, false)
    else
      var m := d.style.value;
      var (st, layout) := PatchStyle(n.style, m);
      PatchStyleSpec(n.style, m);
      var (col, bg, paint) := PatchBackground(n.color, n.hasBackground, Get(m, "BGColor"), hex);
      var (ref, reg') := UpdateCallback(n.onClickRef, Field(d, "onClick"), reg);
      var n' := n.(style := st, color := col, hasBackground := bg, onClickRef := ref,
                   layoutDirty := n.layoutDirty || layout,
                   paintDirty := n.paintDirty || (!layout && paint));
      Patched(n', reg', layout)
  }

  /** The paint flag is raised only when the background or its colour
      changed and no layout field did; a layout change never touches it. */
  lemma PatchPaintOnlyWithoutLayout(n: Node, d: Desc, reg: Registry, hex: string -> Color)
    requires Valid(reg)
    ensures var r := PatchNode(n, d, reg, hex);
      && (r.node.paintDirty && !n.paintDirty ==>
            !r.layoutChanged && (r.node.color != n.color || r.node.hasBackground != n.hasBackground))
      && (r.layoutChanged ==> r.node.paintDirty == n.paintDirty)
  {
  }

  /** What a node looks like once patched with `d`: the style and the
      background agree with the description. */
  predicate Agrees(n: Node, d: Desc, hex: string -> Color)
  {
    d.style.Some? ==>
      && n.style == StyleOf(d.style.value)
      && match Get(d.style.value, "BGColor")
         case Str(h) => n.hasBackground && n.color == hex(h)
         case Nil => !n.hasBackground
         case _ => true
  }

  /** Patching leaves the node agreeing with its description, and patching
      an agreeing node raises no flag and changes nothing but the handler
      reference: in particular, patching twice with the same description
      is quiet the second time. */
  lemma PatchSettles(n: Node, d: Desc, reg: Registry, hex: string -> Color)
    requires Valid(reg)
    ensures Agrees(PatchNode(n, d, reg, hex).node, d, hex)
    ensures Agrees(n, d, hex) ==>
      var r := PatchNode(n, d, reg, hex);
      && !r.layoutChanged
      && r.node == n.(onClickRef := r.node.onClickRef)
  {
    if d.style.Some? {
      PatchStyleSpec(n.style, d.style.value);
    }
  }

  /** Patching twice with the same description: the second pass raises
      neither flag. */
  lemma PatchTwiceQuiet(n: Node, d: Desc, reg: Registry, hex: string -> Color)
    requires Valid(reg)
    ensures var r1 := PatchNode(n, d, reg, hex);
      var r2 := PatchNode(r1.node, d, r1.reg, hex);
      && !r2.layoutChanged
      && r2.node.layoutDirty == r1.node.layoutDirty
      && r2.node.paintDirty == r1.node.paintDirty
      && r2.node.style == r1.node.style && r2.node.color == r1.node.color
      && r2.node.hasBackground == r1.node.hasBackground
  {
    var r1 := PatchNode(n, d, reg, hex);
    PatchSettles(n, d, reg, hex);
    PatchSettles(r1.node, d, r1.reg, hex);
  }
}

=== FILE: reconciler.dfy ===
/** The keyed reconciler (`reconcile`, `reconcileChildren`): patch the
    node, pair the new child descriptions with the existing children,
    build fresh nodes for unpaired entries, reconcile every child in entry
    order and free the old children nobody took.

    `makeLayoutDirty` is assumed to mark the node and every ancestor; the
    outcome's `raised` says whether that happened anywhere in the subtree,
    and each parent folds it into its own flag. */
module Reconciler {
  import opened Base
  import opened UiTypes
  import opened Lua
  import opened Callbacks
  import opened Builder
  import opened Patch
  import opened Matching

  function Keys(cs: seq<Node>): (r: seq<string>)
    ensures |r| == |cs| && forall j :: 0 <= j < |cs| ==> r[j] == cs[j].key
  {
    if |cs| == 0 then [] else [cs[0].key] + Keys(cs[1..])
  }

  function EntryKeys(ds: seq<Desc>): (r: seq<string>)
    ensures |r| == |ds| && forall j :: 0 <= j < |ds| ==> r[j] == EntryKey(ds[j])
  {
    if |ds| == 0 then [] else [EntryKey(ds[0])] + EntryKeys(ds[1..])
  }

  /** Reconciling one node: the new node, the world after it, the
      identities freed in its subtree, and whether a layout change was
      marked anywhere in it. */
  datatype Outcome = Outcome(node: Node, world: World, freed: set<nat>, raised: bool)

  /** Reconciling the entries of one child list. */
  datatype Entries = Entries(children: seq<Node>, world: World, freed: set<nat>, raised: bool)

  /** An old child nobody took. */
  predicate Unused(m: seq<Option<nat>>, j: nat)
  {
    Some(j) !in m
  }

  /** Identities of the whole subtrees of the old children nobody took. */
  function FreedChildren(prev: seq<Node>, m: seq<Option<nat>>): set<nat>
  {
    set j, x | 0 <= j < |prev| && Unused(m, j) && x in IdSet(prev[j]) :: x
  }

  function AnyUnused(prev: seq<Node>, m: seq<Option<nat>>): bool
  {
    exists j :: 0 <= j < |prev| && Unused(m, j)
  }

  /** `reconcile` on an existing node. */
  function Reconcile(n: Node, d: Desc, w: World, hex: string -> Color): (r: Outcome)
    requires ValidWorld(w)
    ensures ValidWorld(r.world) && r.world.nextId >= w.nextId
    ensures r.node.id == n.id && r.node.key == n.key && r.node.kind == n.kind
    ensures |r.node.children| == (if d.hasChildren then |d.children| else |n.children|)
    ensures r.node.layoutDirty <==> n.layoutDirty || r.raised
    decreases d, 2
  {
    var p := PatchNode(n, d, w.reg, hex);
    if !d.hasChildren then Outcome(p.node, w.(reg := p.reg), {}, p.layoutChanged)
    else
      var prev := p.node.children;
      var m := Match(Keys(prev), EntryKeys(d.children));
      var e := ReconcileEntries(prev, m, d, 0, w.(reg := p.reg), hex);
      var dropped := AnyUnused(prev, m);
      Outcome(p.node.(children := e.children, layoutDirty := p.node.layoutDirty || e.raised || dropped),
              e.world, e.freed + FreedChildren(prev, m), p.layoutChanged || e.raised || dropped)
  }

  /** The pairing `m` is a valid one for old children `prev`. */
  predicate InRange(prev: seq<Node>, m: seq<Option<nat>>)
  {
    forall k :: 0 <= k < |m| && m[k].Some? ==> m[k].value < |prev|
  }

  /** Entries `i..` of `parent.children`, paired with old children by `m`,
      reconciled one after the other. */
  function ReconcileEntries(prev: seq<Node>, m: seq<Option<nat>>, parent: Desc, i: nat, w: World, hex: string -> Color): (r: Entries)
    requires ValidWorld(w) && InRange(prev, m)
    requires |m| == |parent.children| && i <= |m|
    ensures ValidWorld(r.world) && r.world.nextId >= w.nextId
    ensures |r.children| == |m| - i
    decreases parent, 1, |parent.children| - i
  {
    if i == |m| then Entries([], w, {}, false)
    else
      var o := EntryOutcome(prev, m, parent, i, w, hex);
      var rest := ReconcileEntries(prev, m, parent, i + 1, o.world, hex);
      Entries([o.node] + rest.children, rest.world, o.freed + rest.freed, m[i].None? || o.raised || rest.raised)
  }

  /** Entry `i`: a paired entry reconciles its old node, an unpaired one a
      freshly built node marked layout-dirty. */
  function EntryOutcome(prev: seq<Node>, m: seq<Option<nat>>, parent: Desc, i: nat, w: World, hex: string -> Color): (r: Outcome)
    requires ValidWorld(w) && InRange(prev, m)
    requires |m| == |parent.children| && i < |m|
    ensures ValidWorld(r.world) && r.world.nextId >= w.nextId
    ensures m[i].Some? ==> r.node.id == prev[m[i].value].id && r.node.key == prev[m[i].value].key
    ensures m[i].None? ==> r.node.id == w.nextId && r.node.layoutDirty && r.world.nextId > w.nextId
    decreases parent, 0
  {
    var base := EntryBase(prev, m[i], parent.children[i], w, hex);
    Reconcile(base.0, parent.children[i], base.1, hex)
  }

  /** The node an entry starts from: its paired old child, or a node
      freshly built from the entry and marked layout-dirty. */
  function EntryBase(prev: seq<Node>, pick: Option<nat>, d: Desc, w: World, hex: string -> Color): (r: (Node, World))
    requires ValidWorld(w)
    requires pick.Some? ==> pick.value < |prev|
    ensures ValidWorld(r.1) && r.1.nextId >= w.nextId
    ensures pick.Some? ==> r == (prev[pick.value], w)
    ensures pick.None? ==> r.0.id == w.nextId && r.0.layoutDirty && r.0.key == EntryKey(d) && r.1.nextId > w.nextId
  {
    if pick.Some? then (prev[pick.value], w)
    else
      BuildFields(d, w, hex);
      var b := Build(d, w, hex);
      (b.0.(layoutDirty := true), b.1)
  }

  /** The world entry `k` starts from when entries `i..` are reconciled
      from `w`. */
  function WorldAt(prev: seq<Node>, m: seq<Option<nat>>, parent: Desc, i: nat, w: World, hex: string -> Color, k: nat): (r: World)
    requires ValidWorld(w) && InRange(prev, m)
    requires |m| == |parent.children| && i <= k <= |m|
    ensures ValidWorld(r) && r.nextId >= w.nextId
    decreases k - i
  {
    if k == i then w
    else WorldAt(prev, m, parent, i + 1, EntryOutcome(prev, m, parent, i, w, hex).world, hex, k)
  }

  // ---------------------------------------------------------------------
  // The entry list, one entry at a time

  /** One step of the entry list, spelled out. */
  lemma EntriesUnfold(prev: seq<Node>, m: seq<Option<nat>>, parent: Desc, i: nat, w: World, hex: string -> Color)
    requires ValidWorld(w) && InRange(prev, m)
    requires |m| == |parent.children| && i < |m|
    ensures var o := EntryOutcome(prev, m, parent, i, w, hex);
      var rest := ReconcileEntries(prev, m, parent, i + 1, o.world, hex);
      ReconcileEntries(prev, m, parent, i, w, hex)
        == Entries([o.node] + rest.children, rest.world, o.freed + rest.freed, m[i].None? || o.raised || rest.raised)
  {
  }

  /** Child `k - i` of the list is entry `k` reconciled from the world the
      earlier entries left behind. */
  lemma {:induction false} EntryAt(prev: seq<Node>, m: seq<Option<nat>>, parent: Desc, i: nat, w: World, hex: string -> Color, k: nat)
    requires ValidWorld(w) && InRange(prev, m)
    requires |m| == |parent.children| && i <= k < |m|
    ensures ReconcileEntries(prev, m, parent, i, w, hex).children[k - i] == Nth(prev, m, parent, i, w, hex, k).node
    decreases k - i
  {
    var r := ReconcileEntries(prev, m, parent, i, w, hex);
    var o := EntryOutcome(prev, m, parent, i, w, hex);
    var rest := ReconcileEntries(prev, m, parent, i + 1, o.world, hex);
    EntriesUnfold(prev, m, parent, i, w, hex);
    NthShift(prev, m, parent, i, w, hex);
    if k == i {
      assert r.children[0] == o.node;
    } else {
      EntryAt(prev, m, parent, i + 1, o.world, hex, k);
      assert r.children[k - i] == rest.children[k - (i + 1)];
    }
  }

  /** The world after entry `k` is the world entry `k + 1` starts from. */
  lemma {:induction false} WorldAtStep(prev: seq<Node>, m: seq<Option<nat>>, parent: Desc, i: nat, w: World, hex: string -> Color, k: nat)
    requires ValidWorld(w) && InRange(prev, m)
    requires |m| == |parent.children| && i <= k < |m|
    ensures WorldAt(prev, m, parent, i, w, hex, k + 1)
         == EntryOutcome(prev, m, parent, k, WorldAt(prev, m, parent, i, w, hex, k), hex).world
    decreases k - i
  {
    if k > i {
      var o := EntryOutcome(prev, m, parent, i, w, hex);
      WorldAtStep(prev, m, parent, i + 1, o.world, hex, k);
    }
  }

  /** The list ends in the world after its last entry. */
  lemma {:induction false} EntriesWorld(prev: seq<Node>, m: seq<Option<nat>>, parent: Desc, i: nat, w: World, hex: string -> Color)
    requires ValidWorld(w) && InRange(prev, m)
    requires |m| == |parent.children| && i <= |m|
    ensures ReconcileEntries(prev, m, parent, i, w, hex).world == WorldAt(prev, m, parent, i, w, hex, |m|)
    decreases |m| - i
  {
    if i < |m| {
      var o := EntryOutcome(prev, m, parent, i, w, hex);
      EntriesUnfold(prev, m, parent, i, w, hex);
      EntriesWorld(prev, m, parent, i + 1, o.world, hex);
    }
  }

  /** Worlds only move forward along the list. */
  lemma {:induction false} WorldAtMonotone(prev: seq<Node>, m: seq<Option<nat>>, parent: Desc, i: nat, w: World, hex: string -> Color, a: nat, b: nat)
    requires ValidWorld(w) && InRange(prev, m)
    requires |m| == |parent.children| && i <= a <= b <= |m|
    ensures WorldAt(prev, m, parent, i, w, hex, a).nextId <= WorldAt(prev, m, parent, i, w, hex, b).nextId
    decreases b - a
  {
    if a < b {
      WorldAtStep(prev, m, parent, i, w, hex, a);
      WorldAtMonotone(prev, m, parent, i, w, hex, a + 1, b);
    }
  }

  /** Entry `k` of the list started at `i` from `w`, as reconciled there. */
  function Nth(prev: seq<Node>, m: seq<Option<nat>>, parent: Desc, i: nat, w: World, hex: string -> Color, k: nat): (r: Outcome)
    requires ValidWorld(w) && InRange(prev, m)
    requires |m| == |parent.children| && i <= k < |m|
    ensures ValidWorld(r.world)
  {
    EntryOutcome(prev, m, parent, k, WorldAt(prev, m, parent, i, w, hex, k), hex)
  }

  /** Dropping the first entry of the list does not change what the later
      entries become. */
  lemma NthShift(prev: seq<Node>, m: seq<Option<nat>>, parent: Desc, i: nat, w: World, hex: string -> Color)
    requires ValidWorld(w) && InRange(prev, m)
    requires |m| == |parent.children| && i < |m|
    ensures Nth(prev, m, parent, i, w, hex, i) == EntryOutcome(prev, m, parent, i, w, hex)
    ensures forall k :: i < k < |m| ==>
      Nth(prev, m, parent, i, w, hex, k) == Nth(prev, m, parent, i + 1, EntryOutcome(prev, m, parent, i, w, hex).world, hex, k)
  {
  }

  /** The list raises the layout flag exactly when some entry was unpaired
      or raised it itself. */
  lemma {:induction false} EntriesRaised(prev: seq<Node>, m: seq<Option<nat>>, parent: Desc, i: nat, w: World, hex: string -> Color)
    requires ValidWorld(w) && InRange(prev, m)
    requires |m| == |parent.children| && i <= |m|
    ensures ReconcileEntries(prev, m, parent, i, w, hex).raised <==>
      exists k :: i <= k < |m| && (m[k].None? || Nth(prev, m, parent, i, w, hex, k).raised)
    decreases |m| - i
  {
    if i < |m| {
      var r := ReconcileEntries(prev, m, parent, i, w, hex);
      var o := EntryOutcome(prev, m, parent, i, w, hex);
      var rest := ReconcileEntries(prev, m, parent, i + 1, o.world, hex);
      EntriesUnfold(prev, m, parent, i, w, hex);
      EntriesRaised(prev, m, parent, i + 1, o.world, hex);
      NthShift(prev, m, parent, i, w, hex);
      assert r.raised == (m[i].None? || o.raised || rest.raised);
      if m[i].None? || o.raised {
        assert m[i].None? || Nth(prev, m, parent, i, w, hex, i).raised;
      } else if rest.raised {
        var k :| i + 1 <= k < |m| && (m[k].None? || Nth(prev, m, parent, i + 1, o.world, hex, k).raised);
        assert m[k].None? || Nth(prev, m, parent, i, w, hex, k).raised;
      } else {
        forall k | i <= k < |m| ensures !(m[k].None? || Nth(prev, m, parent, i, w, hex, k).raised) {
          if k > i {
            assert !(m[k].None? || Nth(prev, m, parent, i + 1, o.world, hex, k).raised);
          }
        }
      }
    }
  }

  /** The list frees exactly what its entries free. */
  lemma EntriesFreed(prev: seq<Node>, m: seq<Option<nat>>, parent: Desc, i: nat, w: World, hex: string -> Color)
    requires ValidWorld(w) && InRange(prev, m)
    requires |m| == |parent.children| && i <= |m|
    ensures forall x :: x in ReconcileEntries(prev, m, parent, i, w, hex).freed <==>
      exists k :: i <= k < |m| && x in Nth(prev, m, parent, i, w, hex, k).freed
  {
    FreedFromEntries(prev, m, parent, i, w, hex);
    EntriesFreeAll(prev, m, parent, i, w, hex);
  }

  /** Everything the list frees, some entry freed. */
  lemma {:induction false} FreedFromEntries(prev: seq<Node>, m: seq<Option<nat>>, parent: Desc, i: nat, w: World, hex: string -> Color)
    requires ValidWorld(w) && InRange(prev, m)
    requires |m| == |parent.children| && i <= |m|
    ensures forall x :: x in ReconcileEntries(prev, m, parent, i, w, hex).freed ==>
      exists k :: i <= k < |m| && x in Nth(prev, m, parent, i, w, hex, k).freed
    decreases |m| - i
  {
    if i < |m| {
      var r := ReconcileEntries(prev, m, parent, i, w, hex);
      var o := EntryOutcome(prev, m, parent, i, w, hex);
      var rest := ReconcileEntries(prev, m, parent, i + 1, o.world, hex);
      EntriesUnfold(prev, m, parent, i, w, hex);
      FreedFromEntries(prev, m, parent, i + 1, o.world, hex);
      NthShift(prev, m, parent, i, w, hex);
      forall x | x in r.freed ensures exists k :: i <= k < |m| && x in Nth(prev, m, parent, i, w, hex, k).freed {
        if x in o.freed {
          assert x in Nth(prev, m, parent, i, w, hex, i).freed;
        } else {
          var k :| i + 1 <= k < |m| && x in Nth(prev, m, parent, i + 1, o.world, hex, k).freed;
          assert x in Nth(prev, m, parent, i, w, hex, k).freed;
        }
      }
    }
  }

  /** Everything an entry frees, the list frees. */
  lemma {:induction false} EntriesFreeAll(prev: seq<Node>, m: seq<Option<nat>>, parent: Desc, i: nat, w: World, hex: string -> Color)
    requires ValidWorld(w) && InRange(prev, m)
    requires |m| == |parent.children| && i <= |m|
    ensures forall x, k :: i <= k < |m| && x in Nth(prev, m, parent, i, w, hex, k).freed ==>
      x in ReconcileEntries(prev, m, parent, i, w, hex).freed
    decreases |m| - i
  {
    if i < |m| {
      var r := ReconcileEntries(prev, m, parent, i, w, hex);
      var o := EntryOutcome(prev, m, parent, i, w, hex);
      EntriesUnfold(prev, m, parent, i, w, hex);
      EntriesFreeAll(prev, m, parent, i + 1, o.world, hex);
      NthShift(prev, m, parent, i, w, hex);
      forall x, k | i <= k < |m| && x in Nth(prev, m, parent, i, w, hex, k).freed ensures x in r.freed {
        if k > i {
          assert x in Nth(prev, m, parent, i + 1, o.world, hex, k).freed;
        }
      }
    }
  }

  /** The entry list as a sequence of per-entry outcomes. */
  lemma EntriesCollect(prev: seq<Node>, m: seq<Option<nat>>, parent: Desc, w: World, hex: string -> Color)
    requires ValidWorld(w) && InRange(prev, m) && |m| == |parent.children|
    ensures var e := ReconcileEntries(prev, m, parent, 0, w, hex);
      && WorldAt(prev, m, parent, 0, w, hex, 0) == w
      && e.world == WorldAt(prev, m, parent, 0, w, hex, |m|)
      && forall k :: 0 <= k < |m| ==>
           && e.children[k] == Nth(prev, m, parent, 0, w, hex, k).node
           && WorldAt(prev, m, parent, 0, w, hex, k + 1) == Nth(prev, m, parent, 0, w, hex, k).world
  {
    EntriesWorld(prev, m, parent, 0, w, hex);
    forall k | 0 <= k < |m|
      ensures ReconcileEntries(prev, m, parent, 0, w, hex).children[k] == Nth(prev, m, parent, 0, w, hex, k).node
      ensures WorldAt(prev, m, parent, 0, w, hex, k + 1) == Nth(prev, m, parent, 0, w, hex, k).world
    {
      EntryAt(prev, m, parent, 0, w, hex, k);
      WorldAtStep(prev, m, parent, 0, w, hex, k);
    }
  }

  /** `reconcile` as called: a missing node is left missing. */
  function ReconcileRoot(root: Option<Node>, d: Desc, w: World, hex: string -> Color): (r: (Option<Node>, World))
    requires ValidWorld(w)
    ensures root.None? ==> r == (None, w)
    ensures root.Some? ==> r.0.Some? && r.0.value.id == root.value.id
  {
    if root.None? then (None, w)
    else
      var o := Reconcile(root.value, d, w, hex);
      (Some(o.node), o.world)
  }


  // ---------------------------------------------------------------------
  // The child list `reconcileChildren` produces

  /** The pairing `reconcileChildren` computes for `n` against `d`. */
  function Pairing(n: Node, d: Desc): (m: seq<Option<nat>>)
    ensures |m| == |d.children| && InRange(n.children, m)
  {
    Match(Keys(n.children), EntryKeys(d.children))
  }

  /** Without a `children` table nothing below the node is touched: it
      keeps its old children, frees nothing, and raises only what the
      patch raised. */
  lemma ReconcileWithoutChildTable(n: Node, d: Desc, w: World, hex: string -> Color)
    requires ValidWorld(w) && !d.hasChildren
    ensures var r := Reconcile(n, d, w, hex);
      && r.node.children == n.children && r.freed == {}
      && r.raised == PatchNode(n, d, w.reg, hex).layoutChanged
  {
  }

  /** Reconciling a node with children, spelled out: the patched node takes
      the reconciled entries as children and frees the unused old ones. */
  lemma ReconcileUnfold(n: Node, d: Desc, w: World, hex: string -> Color)
    requires ValidWorld(w) && d.hasChildren
    ensures var p := PatchNode(n, d, w.reg, hex);
      var m := Pairing(n, d);
      var e := ReconcileEntries(n.children, m, d, 0, w.(reg := p.reg), hex);
      var r := Reconcile(n, d, w, hex);
      && r.node.children == e.children
      && r.freed == e.freed + FreedChildren(n.children, m)
      && (r.raised <==> p.layoutChanged || e.raised || AnyUnused(n.children, m))
      && r.world == e.world
  {
    assert PatchNode(n, d, w.reg, hex).node.children == n.children;
  }

  /** A paired entry keeps the identity of the old child it was paired
      with. */
  lemma ReconcileKeepsPaired(n: Node, d: Desc, w: World, hex: string -> Color)
    requires ValidWorld(w) && d.hasChildren
    ensures var m := Pairing(n, d);
      forall k :: 0 <= k < |d.children| && m[k].Some? ==>
        Reconcile(n, d, w, hex).node.children[k].id == n.children[m[k].value].id
  {
    var p := PatchNode(n, d, w.reg, hex);
    var m := Pairing(n, d);
    ReconcileUnfold(n, d, w, hex);
    forall k | 0 <= k < |d.children| && m[k].Some?
      ensures Reconcile(n, d, w, hex).node.children[k].id == n.children[m[k].value].id
    {
      EntryAt(n.children, m, d, 0, w.(reg := p.reg), hex, k);
    }
  }

  /** An unpaired entry gets a freshly built, layout-dirty node whose
      identity no old node has, and the parent is marked layout-dirty. */
  lemma ReconcileBuildsUnpaired(n: Node, d: Desc, w: World, hex: string -> Color, k: nat)
    requires ValidWorld(w) && d.hasChildren
    requires k < |d.children| && Pairing(n, d)[k].None?
    ensures var r := Reconcile(n, d, w, hex);
      && r.node.children[k].id >= w.nextId
      && r.node.children[k].layoutDirty
      && r.raised && r.node.layoutDirty
  {
    var p := PatchNode(n, d, w.reg, hex);
    var m := Pairing(n, d);
    var w0 := w.(reg := p.reg);
    ReconcileUnfold(n, d, w, hex);
    EntryAt(n.children, m, d, 0, w0, hex, k);
    EntriesRaised(n.children, m, d, 0, w0, hex);
    assert m[k].None?;
  }

  /** An old child nobody took is freed with its whole subtree, and the
      parent is marked layout-dirty. */
  lemma ReconcileFreesUnused(n: Node, d: Desc, w: World, hex: string -> Color, j: nat)
    requires ValidWorld(w) && d.hasChildren
    requires j < |n.children| && Unused(Pairing(n, d), j)
    ensures var r := Reconcile(n, d, w, hex);
      IdSet(n.children[j]) <= r.freed && r.raised && r.node.layoutDirty
  {
    ReconcileUnfold(n, d, w, hex);
    assert IdSet(n.children[j]) <= FreedChildren(n.children, Pairing(n, d));
  }
}

=== FILE: stability.dfy ===
/** Reconciling is settled by one pass: afterwards the tree agrees with its
    description, and a second pass with the same description (whose keys
    are distinct among siblings) reuses every node, builds and frees
    nothing and raises no layout flag. */
module Stability {
  import opened Base
  import opened UiTypes
  import opened Lua
  import opened Builder
  import opened Patch
  import opened Matching
  import opened Reconciler

  /** Non-empty sibling keys are distinct, at every level. */
  predicate KeysDistinct(d: Desc)
  {
    && (d.hasChildren ==> DistinctKeys(EntryKeys(d.children)))
    && forall k :: 0 <= k < |d.children| ==> KeysDistinct(d.children[k])
  }

  /** The tree agrees with the description at every level: styles and
      background as described, one child per entry, and every child's key
      either the entry's or empty. */
  predicate Settled(n: Node, d: Desc, hex: string -> Color)
  {
    && Agrees(n, d, hex)
    && (d.hasChildren ==>
          && |n.children| == |d.children|
          && forall k :: 0 <= k < |d.children| ==>
               KeyFits(n.children[k].key, EntryKey(d.children[k])) && Settled(n.children[k], d.children[k], hex))
  }

  /** After one pass the tree agrees with the description. */
  lemma {:induction false} ReconcileSettles(n: Node, d: Desc, w: World, hex: string -> Color)
    requires ValidWorld(w)
    ensures Settled(Reconcile(n, d, w, hex).node, d, hex)
    decreases d, 1
  {
    var r := Reconcile(n, d, w, hex);
    var p := PatchNode(n, d, w.reg, hex);
    PatchSettles(n, d, w.reg, hex);
    assert r.node.style == p.node.style && r.node.color == p.node.color && r.node.hasBackground == p.node.hasBackground;
    assert Agrees(r.node, d, hex);
    if d.hasChildren {
      var prev := n.children;
      var m := Pairing(n, d);
      var w0 := w.(reg := p.reg);
      ReconcileUnfold(n, d, w, hex);
      EntriesCollect(prev, m, d, w0, hex);
      forall k | 0 <= k < |d.children|
        ensures KeyFits(r.node.children[k].key, EntryKey(d.children[k])) && Settled(r.node.children[k], d.children[k], hex)
      {
        EntrySettles(prev, m, d, k, WorldAt(prev, m, d, 0, w0, hex, k), hex);
      }
    }
  }

  /** One entry: the node it ends with agrees with the entry, and its key
      fits the entry's key. */
  lemma {:induction false} EntrySettles(prev: seq<Node>, m: seq<Option<nat>>, parent: Desc, k: nat, w: World, hex: string -> Color)
    requires ValidWorld(w) && InRange(prev, m)
    requires |m| == |parent.children| && k < |m|
    requires m[k].Some? ==> KeyFits(prev[m[k].value].key, EntryKey(parent.children[k]))
    ensures var o := EntryOutcome(prev, m, parent, k, w, hex);
      KeyFits(o.node.key, EntryKey(parent.children[k])) && Settled(o.node, parent.children[k], hex)
    decreases parent, 0
  {
    var base := EntryBase(prev, m[k], parent.children[k], w, hex);
    ReconcileSettles(base.0, parent.children[k], base.1, hex);
  }

  /** A settled tree reconciled again with a description whose sibling keys
      are distinct: every node is reused, nothing is built or freed, and no
      layout flag is raised. */
  lemma {:induction false} SettledIsQuiet(n: Node, d: Desc, w: World, hex: string -> Color)
    requires ValidWorld(w) && Settled(n, d, hex) && KeysDistinct(d)
    ensures var r := Reconcile(n, d, w, hex);
      !r.raised && r.freed == {} && r.world.nextId == w.nextId
    decreases d, 2
  {
    var r := Reconcile(n, d, w, hex);
    var p := PatchNode(n, d, w.reg, hex);
    PatchSettles(n, d, w.reg, hex);
    if d.hasChildren {
      var prev := n.children;
      var m := Pairing(n, d);
      var w0 := w.(reg := p.reg);
      ReconcileUnfold(n, d, w, hex);
      MatchIdentity(Keys(prev), EntryKeys(d.children));
      assert !AnyUnused(prev, m) by {
        forall j | 0 <= j < |prev| ensures !Unused(m, j) {
          assert m[j] == Some(j);
        }
      }
      assert FreedChildren(prev, m) == {};
      forall k | 0 <= k < |m|
        ensures WorldAt(prev, m, d, 0, w0, hex, k).nextId == w0.nextId
        ensures !Nth(prev, m, d, 0, w0, hex, k).raised && Nth(prev, m, d, 0, w0, hex, k).freed == {}
      {
        QuietPrefix(prev, m, d, w0, hex, k);
      }
      EntriesRaised(prev, m, d, 0, w0, hex);
      EntriesFreed(prev, m, d, 0, w0, hex);
      EntriesWorld(prev, m, d, 0, w0, hex);
      QuietPrefix(prev, m, d, w0, hex, |m|);
    }
  }

  /** Along a list whose entries are each paired with the old child at
      their own index, every entry up to `k` is quiet and the counter has
      not moved. */
  lemma {:induction false} QuietPrefix(prev: seq<Node>, m: seq<Option<nat>>, parent: Desc, w: World, hex: string -> Color, k: nat)
    requires ValidWorld(w) && InRange(prev, m) && |m| == |parent.children| && |prev| == |m| && k <= |m|
    requires forall j :: 0 <= j < |m| ==> m[j] == Some(j)
    requires forall j :: 0 <= j < |m| ==> Settled(prev[j], parent.children[j], hex) && KeysDistinct(parent.children[j])
    ensures WorldAt(prev, m, parent, 0, w, hex, k).nextId == w.nextId
    ensures k < |m| ==> !Nth(prev, m, parent, 0, w, hex, k).raised && Nth(prev, m, parent, 0, w, hex, k).freed == {}
    decreases parent, 1, k
  {
    if k > 0 {
      QuietPrefix(prev, m, parent, w, hex, k - 1);
      WorldAtStep(prev, m, parent, 0, w, hex, k - 1);
      EntryQuiet(prev, m, parent, k - 1, WorldAt(prev, m, parent, 0, w, hex, k - 1), hex);
    }
    if k < |m| {
      EntryQuiet(prev, m, parent, k, WorldAt(prev, m, parent, 0, w, hex, k), hex);
    }
  }

  /** One entry paired with the settled old child at its own index. */
  lemma {:induction false} EntryQuiet(prev: seq<Node>, m: seq<Option<nat>>, parent: Desc, k: nat, w: World, hex: string -> Color)
    requires ValidWorld(w) && InRange(prev, m) && |m| == |parent.children| && k < |m|
    requires m[k] == Some(k) && Settled(prev[k], parent.children[k], hex) && KeysDistinct(parent.children[k])
    ensures var o := EntryOutcome(prev, m, parent, k, w, hex);
      !o.raised && o.freed == {} && o.world.nextId == w.nextId
    decreases parent, 0
  {
    SettledIsQuiet(prev[k], parent.children[k], w, hex);
  }

  /** Reconciling twice with the same description: the second pass builds
      and frees nothing, raises no layout flag and leaves the layout flag of
      the root as the first pass left it. */
  lemma ReconcileTwiceQuiet(n: Node, d: Desc, w: World, hex: string -> Color)
    requires ValidWorld(w) && KeysDistinct(d)
    ensures var r1 := Reconcile(n, d, w, hex);
      var r2 := Reconcile(r1.node, d, r1.world, hex);
      && !r2.raised && r2.freed == {}
      && r2.world.nextId == r1.world.nextId
      && r2.node.layoutDirty == r1.node.layoutDirty
      && r2.node.id == r1.node.id
  {
    var r1 := Reconcile(n, d, w, hex);
    ReconcileSettles(n, d, w, hex);
    SettledIsQuiet(r1.node, d, r1.world, hex);
  }
}

=== FILE: state.dfy ===
/** The application state store: string keys to values of one of four
    kinds, and a flag saying some value was set since the flag was last
    cleared. */
module State {
  /** A stored value; the store never computes with floats, so `real`
      stands for `float` here. */
  datatype StateValue = IntVal(i: int) | FloatVal(f: real) | StrVal(s: string) | BoolVal(b: bool)

  datatype Store = Store(values: map<string, StateValue>, dirty: bool)

  /** A fresh store is empty and not dirty. */
  const Initial: Store := Store(map[], false)

  /** `getState`: a missing key is first stored with the default; the
      result is what the store then holds under the key. */
  function GetState(st: Store, key: string, default: StateValue): (r: (StateValue, Store))
    ensures key in r.1.values && r.0 == r.1.values[key]
    ensures r.1.dirty == st.dirty
    ensures key in st.values ==> r.0 == st.values[key] && r.1 == st
    ensures key !in st.values ==> r.0 == default && r.1.values == st.values[key := default]
  {
    var st' := if key !in st.values then st.(values := st.values[key := default]) else st;
    (st'.values[key], st')
  }

  /** `setState`: the key now holds the value, every other key is kept,
      and the store is dirty. */
  function SetState(st: Store, key: string, v: StateValue): (r: Store)
    ensures r.dirty
    ensures key in r.values && r.values[key] == v
    ensures forall k :: k != key ==> (k in r.values <==> k in st.values)
    ensures forall k :: k != key && k in st.values ==> r.values[k] == st.values[k]
  {
    Store(st.values[key := v], true)
  }

  function IsDirty(st: Store): bool
  {
    st.dirty
  }

  /** `clearDirty`: the values are kept and the flag is down. */
  function ClearDirty(st: Store): (r: Store)
    ensures !IsDirty(r) && r.values == st.values
  {
    st.(dirty := false)
  }

  /** A fresh store is clean, and reading from it keeps it clean. */
  lemma InitialClean(key: string, default: StateValue)
    ensures !IsDirty(Initial)
    ensures var (v, st) := GetState(Initial, key, default);
      v == default && !IsDirty(st) && st.values == map[key := default]
  {
  }

  /** Reading a key twice gives the same value, whatever the second
      default, and the second read changes nothing. */
  lemma GetStateStable(st: Store, key: string, d1: StateValue, d2: StateValue)
    ensures var (v1, st1) := GetState(st, key, d1);
      var (v2, st2) := GetState(st1, key, d2);
      v2 == v1 && st2 == st1
  {
  }

  /** A read after a write returns the written value and ignores the
      default; the store stays dirty until cleared. */
  lemma SetThenGet(st: Store, key: string, v: StateValue, default: StateValue)
    ensures var (r, st') := GetState(SetState(st, key, v), key, default);
      r == v && IsDirty(st') && st' == SetState(st, key, v)
  {
  }

  /** Writing one key does not disturb what another key reads. */
  lemma SetOtherKey(st: Store, key: string, other: string, v: StateValue, default: StateValue)
    requires other != key
    ensures GetState(SetState(st, key, v), other, default).0 == GetState(st, other, default).0
  {
  }
}

=== FILE: ui_types.dfy ===
/** The engine's node record and its enumerations, with the defaults a
    freshly constructed node starts from.  The record is extended with the
    fields the reconciler relies on (identity, key, requested lengths,
    click-handler reference, dirty flags). */
module UiTypes {
  import opened Base

  /** Main-axis distribution policy. */
  datatype Justify = Start | End | Center | SpaceBetween | SpaceAround | SpaceEvenly

  /** Cross-axis alignment policy. */
  datatype Align = Start | Center | End | Stretch

  /** The node's `type` string.  Only "vstack" and "hstack" change layout;
      every other tag is kept as it was written. */
  datatype Kind = VStack | HStack | Other(tag: string)

  datatype LengthUnit = Pixel | Percent

  /** A requested length: so many pixels, or a percentage of the parent's
      content box. */
  datatype Length = Length(value: int, unit: LengthUnit)

  /** The value of a default-constructed `Length` and of `Length(0)`: zero
      pixels (their constructor is not part of this model; this is assumed). */
  const NoLength: Length := Length(0, Pixel)

  datatype Color = Color(r: int, g: int, b: int, a: int)

  /** A box-model property: the shorthand value and its four edges. */
  datatype Edges = Edges(all: int, top: int, bottom: int, left: int, right: int)

  /** Every style field whose change affects layout. */
  datatype Style = Style(
    widthStyle: Length,
    heightStyle: Length,
    minWidth: int,
    maxWidth: int,
    minHeight: int,
    maxHeight: int,
    flexGrow: int,
    alignItems: Align,
    justifyContent: Justify,
    spacing: int,
    padding: Edges,
    margin: Edges)

  /** The Lua registry's "no reference" sentinel (LUA_NOREF). */
  const NoRef: int := -2

  /** The unbounded maximum size used when no maximum is given. */
  const MaxSizeDefault: int := 99999

  datatype Node = Node(
    id: nat,
    kind: Kind,
    key: string,
    x: int,
    y: int,
    w: int,
    h: int,
    style: Style,
    color: Color,
    hasBackground: bool,
    onClickRef: int,
    layoutDirty: bool,
    paintDirty: bool,
    children: seq<Node>)

  function KindOf(tag: string): Kind
  {
    if tag == "vstack" then VStack
    else if tag == "hstack" then HStack
    else Other(tag)
  }

  function TagOf(k: Kind): string
  {
    match k
    case VStack => "vstack"
    case HStack => "hstack"
    case Other(t) => t
  }

  /** The kind tag loses nothing: the original string can be recovered. */
  lemma KindRoundTrip(tag: string)
    ensures TagOf(KindOf(tag)) == tag
  {
  }

  const ZeroEdges: Edges := Edges(0, 0, 0, 0, 0)

  /** Style of a default-constructed node. */
  const DefaultStyle: Style := Style(
    NoLength, NoLength,
    0, MaxSizeDefault, 0, MaxSizeDefault,
    0, Align.Start, Justify.Start,
    0, ZeroEdges, ZeroEdges)

  /** A default-constructed node of the given identity and kind: no
      geometry, default style, transparent black and no background, no
      handler, not dirty, no children. */
  function DefaultNode(id: nat, kind: Kind): Node
  {
    Node(id, kind, "", 0, 0, 0, 0, DefaultStyle, Color(0, 0, 0, 0), false, NoRef, false, false, [])
  }

  /** A style is sane when every clamp interval is non-empty and starts at
      zero or above. */
  predicate SaneClamps(s: Style)
  {
    0 <= s.minWidth <= s.maxWidth && 0 <= s.minHeight <= s.maxHeight
  }

  /** The default node has zero geometry, zero box model, sane clamps
      [0, 99999], no flex weight, start alignment and no background. */
  lemma DefaultNodeFacts(id: nat, kind: Kind)
    ensures var n := DefaultNode(id, kind);
      && n.x == 0 && n.y == 0 && n.w == 0 && n.h == 0
      && n.style.spacing == 0
      && n.style.padding == ZeroEdges && n.style.margin == ZeroEdges
      && SaneClamps(n.style)
      && n.style.minWidth == 0 && n.style.maxWidth == 99999
      && n.style.minHeight == 0 && n.style.maxHeight == 99999
      && n.style.flexGrow == 0
      && n.style.alignItems == Align.Start && n.style.justifyContent == Justify.Start
      && !n.hasBackground && n.color == Color(0, 0, 0, 0)
  {
  }

  /** `a` and `b` agree on everything but geometry and children. */
  predicate SameAttrs(a: Node, b: Node)
  {
    && a.id == b.id && a.kind == b.kind && a.key == b.key
    && a.style == b.style && a.color == b.color && a.hasBackground == b.hasBackground
    && a.onClickRef == b.onClickRef && a.layoutDirty == b.layoutDirty && a.paintDirty == b.paintDirty
  }

  /** The identities of every node in the subtree. */
  function IdSet(n: Node): set<nat>
  {
    {n.id} + SeqIds(n.children)
  }

  function SeqIds(cs: seq<Node>): set<nat>
  {
    set i, x | 0 <= i < |cs| && x in IdSet(cs[i]) :: x
  }

  /** Identities are pairwise distinct across the whole subtree. */
  predicate UniqueIds(n: Node)
  {
    && n.id !in SeqIds(n.children)
    && SiblingsDisjoint(n.children)
    && forall i :: 0 <= i < |n.children| ==> UniqueIds(n.children[i])
  }

  predicate SiblingsDisjoint(cs: seq<Node>)
  {
    forall i, j :: 0 <= i < |cs| && 0 <= j < |cs| && i != j ==> IdSet(cs[i]) !! IdSet(cs[j])
  }

  /** Every identity in the subtree is below `bound`. */
  predicate IdsBelow(n: Node, bound: nat)
  {
    forall x :: x in IdSet(n) ==> x < bound
  }
}
